=== FILE: README.md ===
# LiveWires games library — a Dafny model

LiveWires is a Python teaching package with two layers. `beginners.py` is a
Tk drawing canvas for first lessons. `games.py` is a pygame sprite engine:
a `Screen` keeps a draw order of `Object`s, a set of dirty objects and a
list of dirty rectangles, and its main loop erases, ticks and redraws the
objects once per frame. `boards.py` builds grids of square cells on that
engine, with a movable cursor. `sheets/mkcopying.py` is a small script that
collects the copyright notices of the LaTeX work sheets.

This project models the logic of those four files as pure Dafny functions
over immutable values and proves properties about them:

- `Outcomes` (common.dfy): the `Result`/`Option` types; Python's errors
  become `Err(...)` values. Also Python floor division and list indexing.
- `Colours` (colours.dfy): `beginners.Colour`, its clamping and addition,
  and the Tk `#rrggbb` form together with its parser.
- `Inputs` (inputs.dfy): the mouse-button mask, pointer position and
  key-down set that the Tk event handlers keep.
- `Canvas` (canvas.dfy): `polygon`, `circle`, and the `Movable` handles
  with `move_by` and `move_to`.
- `Geometry` (geometry.dfy): the surfaces of `Polygon` and `Circle`
  objects, and the circle-against-rectangle overlap filter.
- `DrawOrder` (draw_order.dfy): the draw-order list operations of
  `Screen`, generic over the element type.
- `Screens` (screen.dfy): the `Screen` and its `Object`s. Covers creation,
  moving, restyling, overlap queries, destruction, raising and lowering,
  and one frame of `mainloop`.
- `Timers` (timers.dfy): `Timer` and `Animation`.
- `Directions` and `Boards` (directions.dfy, boards.dfy): the eight
  compass directions, cell coordinates, neighbour lists and direction
  tables of `GameBoard`.
- `GameBoards` (gameboard.dfy): building a board of cell objects on a
  screen, and the keyboard cursor.
- `Copying` (copying.dfy): the two regular expressions, title and notice
  extraction, and the sorted report of `mkcopying.py`.

The main invariant is `Screens.Valid`. Every object in the draw order
exists in the object table, and every identifier in use is below the next
one to be handed out. Each screen operation is proved to preserve it.
`GameBoards.WellFormed` adds the board's own invariant on top. The grid
has the board's shape, its cells are distinct live objects in the draw
order, and the cursor, when present, is on the board.

Pygame's rectangle collision, the arc tangent, the distance function and
per-object `tick` methods are not modelled. They are parameters of the
functions that use them.

Where the code and its documentation disagree, the model follows the code,
with one exception: for the five defects under Findings, the model keeps an
as-written member and the rest of the model builds on the corrected one.
In particular, the screen's overlap queries use the corrected circle test
(see `Screens.Accepts` under Left out).

- The repeating images of an `Animation` rotate right and show the last
  image first, so the cycle runs backwards. `Timers.CycleRunsBackwards`
  records this.
- `GameBoard.__init__` forwards its arguments to `init_gameboard` without
  `box_size`. The model starts from `init_gameboard` (see Left out).

## Model

| member | source | states |
|---|---|---|
| Outcomes.FloorDiv | module/livewires/boards.py:213-214 | Python 2's integer `/` rounds toward minus infinity: with a positive divisor the quotient times the divisor is at most the dividend and within one divisor of it, and the mirror image holds for a negative divisor |
| Outcomes.IndexOf | module/livewires/games.py:357 | `list.index` returns a position holding the element with no earlier occurrence, as `_raise` and `_lower` use it (games.py lines 357, 379, 397 and 418) |
| Outcomes.PyIndex | module/livewires/boards.py:338 | `xs[i]` succeeds exactly for `-len(xs) <= i < len(xs)`, counting a negative index from the end, and is an IndexError otherwise; `grid[i][j]` at boards.py lines 338 and 365 goes through it |
| Colours.Truncate | module/livewires/beginners.py:139-140 | Python's `int()` on a real truncates toward zero: the result is within one of the input, below it for positive inputs and above it for negative ones |
| Colours.Constrain | module/livewires/beginners.py:139-140 | a component is rounded half up and clamped: 255 at or above 254.5, 0 below 0.5, otherwise the nearest integer |
| Colours.ConstrainInteger | module/livewires/beginners.py:139-140 | on whole numbers, constraining is clamping to 0..255 |
| Colours.Make | module/livewires/beginners.py:121-128 | each stored component is 255 times the given fraction, constrained |
| Colours.ComponentRoundTrip | module/livewires/beginners.py:121-128 | building a colour from k/255 gives back component k for every k in 0..255, so `__add__` and `__mul__` return the colour they computed |
| Colours.Add | module/livewires/beginners.py:155-160 | colour addition adds components and saturates at 255 |
| Colours.AddCommutes | module/livewires/beginners.py:155-160 | addition commutes and black is its identity |
| Colours.Hex2 | module/livewires/beginners.py:134-135 | `%02x` gives exactly two hex digits |
| Colours.ToTk | module/livewires/beginners.py:134-135 | the Tk form is `#` followed by six hex digits |
| Colours.DigitValue | module/livewires/beginners.py:134-135 | a digit parses exactly when it is a lower-case hex digit, and formatting its value gives it back |
| Colours.ParseHex2 | module/livewires/beginners.py:134-135 | a two-character pair parses exactly when both are hex digits |
| Colours.ParseTk | module/livewires/beginners.py:134-135 | a string parses exactly when it has the shape `_toTk` produces |
| Colours.Hex2RoundTrip | module/livewires/beginners.py:134-135 | parsing the two digits of a component gives the component back |
| Colours.ParseHex2RoundTrip | module/livewires/beginners.py:134-135 | formatting a parsed pair gives the same two characters |
| Colours.TkRoundTrip | module/livewires/beginners.py:134-135 | parsing `_toTk(c)` gives back c, so the Tk form is injective |
| Colours.ParseTkRoundTrip | module/livewires/beginners.py:134-135 | every string that parses is the Tk form of the colour it parses to |
| Inputs.Index | module/livewires/beginners.py:764-769 | the handlers' button numbers are 0, 1 and 2 |
| Inputs.Bit | module/livewires/beginners.py:764-769 | every button owns a non-zero bit of the mask |
| Inputs.ButtonDown | module/livewires/beginners.py:764-766 | a press sets that button and leaves every other button's bit as it was |
| Inputs.ButtonUp | module/livewires/beginners.py:767-769 | a release clears that button and leaves every other button's bit as it was |
| Inputs.DownUp | module/livewires/beginners.py:764-769 | press then release of a button that was up restores the mask; releasing an up button changes nothing |
| Inputs.MouseButtons | module/livewires/beginners.py:708-711 | the reported left, middle and right flags are bits 0, 1 and 2 of the mask |
| Inputs.ButtonsReported | module/livewires/beginners.py:708-711 | after a press, `mouse_buttons` reports that button as down under its own name |
| Inputs.MousePosition | module/livewires/beginners.py:702-704 | the position the handlers stored, or None once the pointer has left; `MouseMove` and `MouseLeave` pin what it reports after each event |
| Inputs.MouseMove | module/livewires/beginners.py:742-747 | after a motion event, the mouse position is the event's coordinates |
| Inputs.MouseLeave | module/livewires/beginners.py:748-752 | after the pointer leaves, there is no mouse position |
| Inputs.KeyPress | module/livewires/beginners.py:782-786 | a press makes the key down, clears the pending release and leaves other keys alone |
| Inputs.KeyRelease | module/livewires/beginners.py:787-792 | a release makes the key up, whether or not it was down, sets the pending release and leaves other keys alone |
| Inputs.ClearKeys | module/livewires/beginners.py:793-796 | after clearing, no key is down and no release is pending |
| Inputs.PressRelease | module/livewires/beginners.py:782-792 | press then release removes exactly that key; a second release changes nothing |
| Canvas.FlattenFrom | module/livewires/beginners.py:470-484 | the flattened list has an even length, at most twice the number of items; the only failures are a trailing lone number and a non-number |
| Canvas.Prepend | module/livewires/beginners.py:470-484 | prefixing a result keeps success and failure and puts the prefix in front of a success |
| Canvas.Flatten | module/livewires/beginners.py:470-484 | the loop computes exactly the recursive flattening of the whole list |
| Canvas.PrependTwice | module/livewires/beginners.py:470-484 | two prefixes compose into one |
| Canvas.FlattenPoints | module/livewires/beginners.py:470-484 | a list of points flattens to x then flipped y (`ys - y`) for each point, in order |
| Canvas.FlattenTrailingScalar | module/livewires/beginners.py:470-484 | points followed by a lone number are rejected as "not a coordinate" |
| Canvas.FlattenEmpty | module/livewires/beginners.py:470-488 | the flattened list is empty exactly for an empty argument, which is the case where `c[0]` fails |
| Canvas.Polygon | module/livewires/beginners.py:466-518 | an empty list fails with an index error; a returned handle holds the flattened list; the pen ends on the first point of a closed polygon and on the last point otherwise; an open polygon cannot be returned as a handle |
| Canvas.NormaliseArc | module/livewires/beginners.py:601 | the end angle is raised by whole turns until it is not below the start, and is left alone if it already was |
| Canvas.EndAngle | module/livewires/beginners.py:588-595 | an endpoint fails exactly when it is the centre; an angle endpoint is passed through |
| Canvas.EndAngleAsWritten | module/livewires/beginners.py:588-595 | as written, the endpoint is compared against the centre with its y already flipped |
| Canvas.CircleRadius | module/livewires/beginners.py:529-556 | the radius comes from the unpacked tuple or the argument; it is rejected when given twice or when negative; when missing, two endpoints whose first is a point supply it |
| Canvas.Box | module/livewires/beginners.py:563-564 | the enclosing box is 2r+1 pixels square and centred on the centre |
| Canvas.ArcAngles | module/livewires/beginners.py:581-603 | an arc fails exactly when an endpoint is the centre; its extent is never negative; for two angle endpoints in order it is their difference |
| Canvas.CircleWith | module/livewires/beginners.py:522-619 | every failure is "bad parameters" and leaves the canvas untouched; a full circle is an oval and moves the pen to the centre; an arc keeps its box, starts at the first angle and leaves the pen unknown; a returned handle is round and holds the box |
| Canvas.Circle | module/livewires/beginners.py:522-619 | a drawn arc has two endpoints, neither of which is the centre, and a non-negative extent |
| Canvas.CircleAsWritten | module/livewires/beginners.py:558-591 | as written, a drawn arc is only kept off the mirror image of the centre |
| Canvas.CircleAsWrittenMissesCentre | module/livewires/beginners.py:558-591 | an endpoint on the centre is accepted and one on the mirrored centre is rejected, and the corrected circle does the reverse |
| Canvas.Coords | module/livewires/beginners.py:98-111 | a plain handle's coordinates are its list; a round handle reports the floored midpoint of its box; a short box list fails |
| Canvas.AdjustCoords | module/livewires/beginners.py:879-883 | every x is shifted by dx and every y by dy; an odd-length list fails with an index error |
| Canvas.ShiftKeepsShape | module/livewires/beginners.py:879-883 | shifting keeps every difference between two x's and between two y's |
| Canvas.TargetXy | module/livewires/beginners.py:885-904 | a target is a pair of numbers or a sequence of exactly two; anything else is bad parameters |
| Canvas.MoveBy | module/livewires/beginners.py:885-893 | moving by (dx, dy) shifts x by dx and canvas y by -dy, and keeps the handle's identity and kind |
| Canvas.MoveTo | module/livewires/beginners.py:895-904 | every coordinate pair moves by the offset from the handle's current position to the target (with y flipped), so the handle then reports the target as its position; length, identity and kind are kept |
| Canvas.MidpointShift | module/livewires/beginners.py:98-111 | shifting both ends of a box shifts its floored midpoint by the same amount |
| Geometry.KeyColour | module/livewires/games.py:904-910 | the transparent key is none of the colours drawn, and it is black whenever black is free |
| Geometry.Strokes | module/livewires/games.py:922-929 | strokes use only the fill or outline colour; a filled shape is painted solid first; an unfilled one is one outline of the given thickness |
| Geometry.KeyNeverDrawn | module/livewires/games.py:904-929 | no stroke is drawn in the key colour, so nothing drawn turns transparent |
| Geometry.Bounds | module/livewires/games.py:889-897 | the bounds hold every vertex and each is reached by some vertex |
| Geometry.PolygonSurface | module/livewires/games.py:885-931 | the surface is the polygon's bounding box: every shifted vertex is inside it and touches each edge, the offset is the minimum corner, and the key is not a drawn colour; an empty shape fails |
| Geometry.CircleSurface | module/livewires/games.py:958-982 | the surface is an odd square of side 2r+1 whose offset puts the centre at the reference point; a negative radius fails |
| Geometry.Clamp | module/livewires/games.py:996-1009 | the clamped value is within bounds and equals the input when the input already is |
| Geometry.CircleFilterAsWritten | module/livewires/games.py:996-1009 | the overlap filter as the source writes it |
| Geometry.CircleFilterAsWrittenMissesCorner | module/livewires/games.py:1004-1009 | a circle centred level with the box's left edge covers the top-left corner, but the filter as written reports no overlap |
| Geometry.CircleFilter | module/livewires/games.py:996-1009 | the corrected filter holds exactly when the closed disc meets the closed box |
| Geometry.OneAxisFar | module/livewires/games.py:1002 | a point further than r along one axis is outside the circle |
| Geometry.FarFromBox | module/livewires/games.py:1002 | the early rejection is sound: a centre beyond the box widened by r never overlaps |
| Geometry.LevelWithBox | module/livewires/games.py:1003 | the early acceptance is sound: a centre within reach and level with the box overlaps |
| Geometry.CircleFilterAsWrittenOffEdges | module/livewires/games.py:996-1009 | except on the box's left and top lines, the filter as written agrees with the corrected one |
| Directions.Turn45Clockwise | module/livewires/boards.py:55-56 | the next direction clockwise, wrapping from 7 to 0 |
| Directions.Turn45Anticlockwise | module/livewires/boards.py:58-59 | the previous direction, wrapping from 0 to 7 |
| Directions.Turn90Clockwise | module/livewires/boards.py:61-62 | a right angle is two eighth turns |
| Directions.Turn90Anticlockwise | module/livewires/boards.py:64-65 | a right angle back is two eighth turns back |
| Directions.Turn180 | module/livewires/boards.py:67-68 | a half turn is two right angles |
| Directions.TurnsInverse | module/livewires/boards.py:55-65 | clockwise and anticlockwise turns undo each other |
| Directions.Turn180Involution | module/livewires/boards.py:67-68 | two half turns are no turn |
| Directions.Delta | module/livewires/boards.py:46-53 | each direction is a unit step on the grid, diagonal exactly for the odd directions |
| Directions.Turn180Opposite | module/livewires/boards.py:46-68 | a half turn reverses the step |
| Directions.DeltaOnto | module/livewires/boards.py:46-53 | the eight directions are exactly the eight unit steps, one each |
| Boards.OnBoard | module/livewires/boards.py:324-330 | a cell is on the board when its column and row indices lie within the board's columns and rows; `GameBoards.OnBoardIsDirectLookup` relates it to the grid lookup |
| Boards.CellToCoords | module/livewires/boards.py:198-204 | the top-left pixel of a cell; `CellRoundTrip` proves every pixel of the cell's square maps back to it through `coords_to_cell` |
| Boards.CoordsToCell | module/livewires/boards.py:206-214 | a point maps to the cell whose square contains it; a zero box size is a division error |
| Boards.CellRoundTrip | module/livewires/boards.py:198-214 | every point of a cell's square maps back to that cell |
| Boards.Neighbours | module/livewires/boards.py:225-242 | the neighbours are exactly the on-board cells one step away, only in line when diagonals are excluded |
| Boards.NeighboursInLoopOrder | module/livewires/boards.py:235-242 | the neighbour list is ordered by column, then by row, as the loops over k and then l visit the offsets, so no cell appears twice in one call's list |
| Boards.NeighboursSymmetric | module/livewires/boards.py:225-242 | neighbourhood is symmetric and no cell neighbours itself |
| Boards.NeighbourCount | module/livewires/boards.py:225-242 | an interior cell has 4 or 8 neighbours |
| Boards.DirectionTable | module/livewires/boards.py:244-289 | the direction table of an on-board cell has one entry per compass direction, built by the LEFT, RIGHT and UP/DOWN blocks in the loop's order; `DirectionTableSpec` pins every entry |
| Boards.DirectionTableSpec | module/livewires/boards.py:244-289 | each entry of a cell's direction table is the one-step move in that direction, wrapping or not, and missing for diagonals when only orthogonal moves count |
| Boards.UpDownSpec | module/livewires/boards.py:282-289 | the up/down block fills in exactly the up and down entries |
| Boards.SideBlockSpec | module/livewires/boards.py:256-281 | a side block fills in exactly that side and its two diagonals |
| Boards.Step | module/livewires/boards.py:244-289 | a step always lands on the board |
| Boards.StepOpposite | module/livewires/boards.py:244-289 | stepping back from where a step lands returns to the start |
| Boards.DirectionTableOpposite | module/livewires/boards.py:244-289 | direction tables are consistent: the opposite entry of the cell reached points back |
| Boards.SingleBoardLayout | module/livewires/boards.py:419-428 | the window is the grid plus the margins and the grid's origin is the left and top margins; a margin list whose length is neither 2 nor 4 is a value error |
| DrawOrder.FilterOut | module/livewires/games.py:383-423 | filtering keeps exactly the members not in the set |
| DrawOrder.FilterOutAppend | module/livewires/games.py:383-423 | filtering distributes over concatenation |
| DrawOrder.FilterOutNone | module/livewires/games.py:383-423 | filtering out nothing present is the identity |
| DrawOrder.FilterOutAll | module/livewires/games.py:383-423 | filtering out everything present is empty |
| DrawOrder.RemoveFirst | module/livewires/games.py:351 | `list.remove` takes out exactly one occurrence |
| DrawOrder.RemoveFirstTakesFirst | module/livewires/games.py:351 | the occurrence taken out is the first, and the elements around it keep their order |
| DrawOrder.RemoveFirstFilter | module/livewires/games.py:343-381 | taking out an element does not change the list with that element filtered out |
| DrawOrder.Add | module/livewires/games.py:425-426 | a new object goes on top and the rest is unchanged |
| DrawOrder.Remove | module/livewires/games.py:428-433 | removal takes out one occurrence, and removing an absent object changes nothing |
| DrawOrder.RemoveTakesFirst | module/livewires/games.py:428-433 | for a present object, removal takes out its first occurrence and keeps the rest in order |
| DrawOrder.RemoveTwice | module/livewires/games.py:428-433 | removal is idempotent on a list without duplicates |
| DrawOrder.RemoveAfterAdd | module/livewires/games.py:425-433 | adding then removing a new object restores the order |
| DrawOrder.InsertedAtFilter | module/livewires/games.py:343-381 | inserting an element leaves the rest when filtered |
| DrawOrder.InsertedAtShape | module/livewires/games.py:343-381 | inserting at i puts the element at i and adds one occurrence |
| DrawOrder.ReinsertFacts | module/livewires/games.py:343-381 | remove-then-insert is a permutation that keeps the others in order |
| DrawOrder.ReinsertTop | module/livewires/games.py:349-354 | moving to the top is a permutation that keeps the others in order |
| DrawOrder.AppendBack | module/livewires/games.py:349-354 | appending the removed element restores the multiset and the others' order |
| DrawOrder.ReinsertAfter | module/livewires/games.py:355-358 | reinsertion after another object puts it just above that object |
| DrawOrder.Raise | module/livewires/games.py:343-364 | raising permutes the order, keeps every other object's order, and puts the object on top or just above the given one; a missing object or a target equal to it fails |
| DrawOrder.ReinsertBefore | module/livewires/games.py:366-381 | reinsertion before another object puts it just below that object |
| DrawOrder.Lower | module/livewires/games.py:366-381 | lowering, as intended, permutes the order, keeps every other object's order, and puts the object at the bottom or just below the given one |
| DrawOrder.LowerAsWritten | module/livewires/games.py:366-381 | as written, `_lower` always raises a NameError |
| DrawOrder.LowerAsWrittenAlwaysFails | module/livewires/games.py:366-381 | a lower that should succeed fails as written |
| DrawOrder.SplicedFacts | module/livewires/games.py:383-423 | a spliced block sits at its index and filtering it out restores the base |
| DrawOrder.SplicedFilter | module/livewires/games.py:383-423 | filtering a spliced block out leaves the two sides joined |
| DrawOrder.RaiseList | module/livewires/games.py:383-402 | the objects end up together, in their given order, on top or just above the target; the others keep their order |
| DrawOrder.LowerList | module/livewires/games.py:404-423 | the objects end up together, in their given order, at the bottom or just below the target; the others keep their order |
| DrawOrder.RaiseDistinct | module/livewires/games.py:343-364 | on a list without duplicates, raising succeeds exactly for a present object and a different present target, and keeps the list duplicate-free |
| DrawOrder.MultisetDistinct | module/livewires/games.py:343-381 | a permutation of a duplicate-free list is duplicate-free |
| DrawOrder.DistinctCounts | module/livewires/games.py:343-381 | a duplicate-free list holds each element at most once |
| Screens.SameLayoutValid | module/livewires/games.py:249-306 | changes to the dirty state alone keep the screen valid |
| Screens.RemoveKeeps | module/livewires/games.py:428-433 | removal takes out only the removed object |
| Screens.SameElements | module/livewires/games.py:343-381 | a permuted draw order has the same objects |
| Screens.Erase | module/livewires/games.py:547-552 | erasing queues the object's rectangle for the display update and changes nothing else: objects, order, dirty set and counters are kept |
| Screens.Disturb | module/livewires/games.py:547-552 | erasing an object marks it dirty and its old rectangle for repaint, touching nothing else |
| Screens.MoveTo | module/livewires/games.py:585-597 | the object's position becomes (x, y) and its rectangle moves with it at the same size; a static object's old place is repainted; nothing else changes and validity is kept |
| Screens.MoveBy | module/livewires/games.py:599-603 | moving by (dx, dy) shifts the position and the rectangle by that amount; as in `move_to`, a static object is erased at its old rectangle and becomes dirty, a moving one does not, and nothing else on the screen changes |
| Screens.SetStatic | module/livewires/games.py:690-705 | only the object's static flag changes |
| Screens.ReplaceImage | module/livewires/games.py:560-577 | the object gets a rectangle of the new size at its own position; a same-size image changes no object |
| Screens.SameSizeInPlace | module/livewires/games.py:573-577 | redrawing in place at the same size leaves the object table as it was |
| Screens.Repaint | module/livewires/games.py:744-772 | only the object's paint changes, and the same paint changes nothing at all |
| Screens.Restyle | module/livewires/games.py:744-772 | restyling an object changes its paint and dirties it when static |
| Screens.SetColour | module/livewires/games.py:744-751 | only the object's colour changes, and setting the same colour is a no-op |
| Screens.SetOutline | module/livewires/games.py:765-772 | only the object's outline changes, and setting the same outline is a no-op |
| Screens.SetPaintTwice | module/livewires/games.py:744-772 | setting a colour or outline twice is the same as once |
| Screens.Create | module/livewires/games.py:482-528 | a new object gets a fresh identifier, goes on top, is dirty, and sits with its rectangle at its position plus offset; a static one dirties its rectangle and sets the statics flag; validity is kept |
| Screens.UpdateDisplay | module/livewires/games.py:257-262 | the display receives the pending rectangles, and none remain afterwards |
| Screens.Accepts | module/livewires/games.py:996-1009 | a non-circle accepts every colliding object; a circle accepts exactly the objects whose box its disc meets (the corrected test, see Left out) |
| Screens.Overlaps | module/livewires/games.py:671-674 | overlapping objects' rectangles collide; two plain objects overlap exactly when they collide; a circle and a plain object overlap exactly when they collide and the circle test accepts the plain object's rectangle |
| Screens.AcceptsOffEdges | module/livewires/games.py:996-1009 | away from the box's left and top lines, the circle test the screen uses is `filter_overlaps` as written |
| Screens.RoundOverlapsPlain | module/livewires/games.py:671-674 | a circle and a plain object overlap, in either order, exactly when their rectangles collide and the disc meets the plain object's rectangle |
| Screens.Colliding | module/livewires/games.py:315-333 | the collision list holds exactly the objects whose rectangles collide, none more often than given |
| Screens.Accepted | module/livewires/games.py:642-650 | the filtered list holds exactly the objects that accept and are accepted by this one |
| Screens.OverlappingObjects | module/livewires/games.py:642-650 | the result holds only drawn objects overlapping this one, and every other drawn overlapping object |
| Screens.OverlappingExcludesSelf | module/livewires/games.py:642-646 | an object is not reported as overlapping itself |
| Screens.DisturbStatics | module/livewires/games.py:539-543 | exactly the static objects of the list become dirty |
| Screens.DisturbOverlapped | module/livewires/games.py:533-545 | when there are statics, every static object overlapping this one becomes dirty, and only statics do |
| Screens.Destroy | module/livewires/games.py:533-545 | the object leaves the draw order and is marked gone; its rectangle is repainted; overlapped statics are dirtied; validity is kept |
| Screens.DestroyTwice | module/livewires/games.py:533-545 | destroying twice leaves the same draw order as once |
| Screens.DestroyAll | module/livewires/games.py:249-255 | every listed object ends up gone, and gone objects stay gone |
| Screens.Clear | module/livewires/games.py:249-255 | clearing empties the draw order and every object that was in it is gone |
| Screens.RaiseObject | module/livewires/games.py:676-681 | raising an object reorders the draw order as `_raise` does, puts it on top when no target is given, leaves the objects alone and dirties a static object |
| Screens.LowerObject | module/livewires/games.py:683-688 | lowering an object changes the draw order only, as the corrected `_lower` does |
| Screens.EraseMoving | module/livewires/games.py:277-280 | the erase pass dirties exactly the moving objects and repaints their rectangles |
| Screens.Dispatch | module/livewires/games.py:282-284 | the tick pass keeps the screen valid and ticks only objects of the frame's snapshot |
| Screens.Tickable | module/livewires/games.py:283-284 | the selection holds exactly the listed objects whose tickable flag is set, in order |
| Screens.DispatchTicksTickable | module/livewires/games.py:283-284 | when no tick starts or stops a timer, the pass ticks exactly the snapshot's tickable objects, in snapshot order, even those destroyed earlier in the pass |
| Screens.RedirtyStatics | module/livewires/games.py:288-294 | every static object overlapping a moving one becomes dirty, and only statics do |
| Screens.Redraw | module/livewires/games.py:296-299 | the draw pass cleans every listed object and repaints the dirty ones |
| Screens.MainLoopStep | module/livewires/games.py:264-306 | one frame erases every moving object, ticks only objects of the snapshot, redirties every static overlapping a moving one and flushes its rectangle, and ends with no drawn object dirty and no pending rectangles |
| Timers.InitTimer | module/livewires/games.py:1024-1031 | a timer starts with the given interval and running flag, at count zero |
| Timers.NewTimerAsWritten | module/livewires/games.py:1021-1022 | as written, a new timer is running whatever the argument |
| Timers.NewTimer | module/livewires/games.py:1021-1031 | the corrected constructor honours the running flag |
| Timers.NewTimerAsWrittenIgnoresRunning | module/livewires/games.py:1021-1022 | a timer created stopped is running as written and stopped when corrected |
| Timers.Tick | module/livewires/games.py:1033-1037 | a tick fires exactly when the count reaches the interval, then resets the count; the count stays below the interval |
| Timers.Stop | module/livewires/games.py:1045-1046 | stopping clears only the running flag |
| Timers.Start | module/livewires/games.py:1048-1050 | starting is a fresh running timer with the same interval |
| Timers.SetInterval | module/livewires/games.py:1042-1043 | only the interval changes |
| Timers.TicksCount | module/livewires/games.py:1033-1037 | after n ticks, the timer has fired (next + n) div interval times and its count is (next + n) mod interval |
| Timers.StartedTimerFiresOnce | module/livewires/games.py:1033-1050 | a started timer first fires on its interval-th tick and not before |
| Timers.NextImage | module/livewires/games.py:1188-1196 | a limited animation counts down and stops at zero; one-shot images come first in order; the cycle then rotates right and shows its new head |
| Timers.CycleRunsBackwards | module/livewires/games.py:1194-1196 | a cycle [1, 2, 3] is shown as 3, 2, 1, 3 |
| Timers.ShownFollowsSchedule | module/livewires/games.py:1188-1196 | an unlimited animation shows its one-shot images and then the cycle, from the back, for ever |
| Timers.ScheduleShifts | module/livewires/games.py:1188-1196 | each image taken advances the schedule by one |
| Timers.ShownStopsAtLimit | module/livewires/games.py:1188-1196 | a limited animation shows nothing after its limit |
| Timers.InitAnimationAsWritten | module/livewires/games.py:1159-1186 | as written, an animation with no images is an error |
| Timers.InitAnimation | module/livewires/games.py:1159-1186 | the corrected start fails exactly with no images, shows the first scheduled image, and treats a zero repeat count as unlimited |
| Timers.InitAnimationAsWrittenSkipsFirst | module/livewires/games.py:1182-1185 | as written, the first image is never shown, and a one-image animation fails with an AttributeError when `Object.__init__` asks the missing second image for its rectangle |
| Timers.AnimationTick | module/livewires/games.py:1198-1201 | a tick shows the next image at its size, or destroys the object when the images are exhausted |
| GameBoards.OnBoardIsDirectLookup | module/livewires/boards.py:324-330 | `on_board` accepts exactly the non-negative indices at which `grid[i][j]` succeeds, and there the lookup is the plain entry, not one counted from the end |
| GameBoards.GridAt | module/livewires/boards.py:357-369 | grid lookup accepts Python's negative indices and nothing beyond |
| GameBoards.Unmark | module/livewires/boards.py:350-353 | leaving a cell makes it static and outlines it in the line colour |
| GameBoards.Mark | module/livewires/boards.py:337-341 | the cursor cell is drawn on top with the cursor colour |
| GameBoards.RestyledKeeps | module/livewires/boards.py:332-369 | restyling one cell keeps the board well formed |
| GameBoards.MoveShown | module/livewires/boards.py:357-369 | moving the cursor keeps exactly the cursor cell marked |
| GameBoards.MoveCursor | module/livewires/boards.py:357-369 | moving the cursor needs a cursor, accepts Python indices, and leaves it on the named cell, drawn on top |
| GameBoards.MovedTo | module/livewires/boards.py:357-369 | the unmark-then-mark sequence is a cursor move |
| GameBoards.EnableCursor | module/livewires/boards.py:332-344 | enabling puts the cursor on the named cell, or just moves it when there is one |
| GameBoards.PlaceCursor | module/livewires/boards.py:337-342 | placing a first cursor marks the named cell |
| GameBoards.DisableCursor | module/livewires/boards.py:346-355 | disabling removes the cursor and keeps the board well formed; without a cursor it changes nothing |
| GameBoards.DisableShown | module/livewires/boards.py:346-355 | after disabling, no cell is marked |
| GameBoards.Fresh | module/livewires/games.py:482-528 | n creations hand out consecutive identifiers |
| GameBoards.ColumnMajorInjective | module/livewires/boards.py:190-196 | column-major numbering gives distinct cells distinct numbers |
| GameBoards.SquareSurface | module/livewires/boards.py:216-223 | the cell polygon's surface is the square one pixel wider than the box |
| GameBoards.FreshAppend | module/livewires/boards.py:190-196 | consecutive runs of identifiers join |
| GameBoards.CellSurface | module/livewires/boards.py:216-223 | the surface of a cell polygon, computed by the polygon surface code, is that square |
| GameBoards.NewCell | module/livewires/boards.py:216-223 | a new cell is a fresh static square at the cell's corner, on top of the draw order |
| GameBoards.ColumnStep | module/livewires/boards.py:192-196 | adding a cell extends a built column |
| GameBoards.BuildColumn | module/livewires/boards.py:192-196 | a column is the board's rows of new cells with consecutive identifiers |
| GameBoards.BuiltWellFormed | module/livewires/boards.py:151-196 | a fully built grid is a well-formed board with no cursor |
| GameBoards.ColumnMajorIndex | module/livewires/boards.py:190-196 | cell (i, j) is number i * rows + j |
| GameBoards.GridStep | module/livewires/boards.py:190-196 | adding a built column extends the grid |
| GameBoards.InitGameBoard | module/livewires/boards.py:151-196 | the board holds one fresh cell object per cell, numbered column by column, on top of the old order; it is well formed and has no cursor; negative sizes give an empty board |
| GameBoards.KeyMovement | module/livewires/boards.py:183-188 | the four arrow keys move one cell up, down, left or right; other keys do not move |
| GameBoards.Keypress | module/livewires/boards.py:300-322 | an arrow key moves the cursor one cell when the destination is on the board and otherwise leaves it; any other key is passed on unchanged |
| GameBoards.Nudge | module/livewires/boards.py:319-322 | a nudge moves the cursor when the destination is on the board and otherwise changes nothing |
| Copying.FirstClose | sheets/mkcopying.py:10 | the lazy group ends at the first `}` from its start |
| Copying.Split | sheets/mkcopying.py:10 | the first group ends at the first `}{` whose second group closes |
| Copying.MatchTitle | sheets/mkcopying.py:10 | a title line starts with `\sheet{`; the title is the two lazy groups joined by ": " |
| Copying.TitleMatches | sheets/mkcopying.py:10 | every `\sheet{a}{b}` line with `}`-free b matches |
| Copying.TitleOfPlainLine | sheets/mkcopying.py:10-21 | `\sheet{a}{b}` with `}`-free a and b gives the title "a: b" |
| Copying.DropSpace | sheets/mkcopying.py:11 | skipping blanks removes a blank-only prefix and stops at a non-blank |
| Copying.MatchCopyright | sheets/mkcopying.py:30-32 | the notice the matcher of line 11 captures is a tail of the line, shorter than the line by at least the tag, that does not start with a blank |
| Copying.CopyrightShape | sheets/mkcopying.py:11 | a notice line is blanks, the `\copyright{}` tag, blanks and the notice; the notice is a suffix of the line and does not start with a blank |
| Copying.CopyrightMatches | sheets/mkcopying.py:11 | every such line matches with exactly its notice |
| Copying.GetTitle | sheets/mkcopying.py:13-22 | the title is that of the first matching line, and reading stops just after it; with no title every line is read |
| Copying.GetCopyrights | sheets/mkcopying.py:24-34 | every notice comes from a matching line, and a file without one gives none |
| Copying.CopyrightsAppend | sheets/mkcopying.py:24-34 | notices of a split file are the notices of its parts, in order |
| Copying.Sheet | sheets/mkcopying.py:40-44 | a sheet's title is what `gettitle` reads |
| Copying.SheetIgnoresPreamble | sheets/mkcopying.py:40-44 | only notices after the title line are collected |
| Copying.UntitledSheet | sheets/mkcopying.py:40-44 | a sheet without a title has title None and no notices, because `gettitle` reads the whole file |
| Copying.Sheets | sheets/mkcopying.py:40-44 | each file is read on its own |
| Copying.Collect | sheets/mkcopying.py:38-44 | the report has a key for each title seen |
| Copying.LastFileWins | sheets/mkcopying.py:43 | two sheets with the same title: the later one's notices win |
| Copying.StrLessTotal | sheets/mkcopying.py:49-50 | string ordering is strict and total |
| Copying.StrLessTransitive | sheets/mkcopying.py:49-50 | string ordering is transitive |
| Copying.KeyLessTotal | sheets/mkcopying.py:49-50 | the key ordering, with None first, is strict and total |
| Copying.KeyLessTransitive | sheets/mkcopying.py:49-50 | the key ordering is transitive |
| Copying.Insert | sheets/mkcopying.py:49-50 | insertion keeps the keys sorted and adds exactly the new key |
| Copying.SortedTitles | sheets/mkcopying.py:49-50 | the titles are sorted and are exactly the collected keys |
| Copying.Section | sheets/mkcopying.py:53-56 | a section is the title, a "    Copyright " line per notice and a blank line |
| Copying.Sections | sheets/mkcopying.py:51-56 | the sections follow the key list: a non-empty list starts with the first key's title and at least the two lines of its section |
| Copying.SectionsName | sheets/mkcopying.py:51-56 | every key's title is printed among the sections |
| Copying.Report | sheets/mkcopying.py:46-56 | the report starts with the two header lines and a blank, then the first title in sorted order |
| Copying.ReportNamesEveryTitle | sheets/mkcopying.py:40-56 | every file's title appears in the report |

## Left out

- Output: drawing pixels, Tk and pygame calls, `_canvas.update()`,
  printing and file reading. Drawn figures are returned as values, and
  `mkcopying.py` receives each file's lines.
- Clocks: `_wait_frame` and the frame rate; `mainloop` is one frame.
- Event dispatch: `handle_events` and the hooks it calls
  (`keypress`, `mouse_down`, `cursor_moved`), which do nothing by default.
- Rotation: `_rotate`, `_fix_offsets`, `rotate_to`, `rotate_by`. They
  use trigonometry on floats.
- Floating point: coordinates are integers. The arc tangent of a point
  endpoint and the distance to it are function parameters.
- `Colours.Make`: components are exact reals, not IEEE doubles, so
  `int(255*v + 0.5)` can differ from the Python result when `255*v + 0.5`
  lies at or next to a whole number that doubles cannot represent exactly.
- `Colour.__mul__`: it multiplies by a float.
- `Colour.__repr__`: it formats floats.
- Only `beginners.Colour` is modelled; `games.py` colours are RGB triples.
- `Container`, `Text`, `Message` and `Mover` classes, `random_direction`,
  `map_grid`, `box`, `line`, `plot` and `text`: they are outside the
  modelled operations.
- `set_shape` and `Circle.set_radius`: they rebuild a surface the same way
  `replace_image` does.
- `load_image`, `load_animation` and `__del__`: they need the file system
  or the garbage collector.
- pygame's rectangle collision and blit clipping: collision is a parameter.
  Dirty rectangles are recorded unclipped.
- Partial effects of an operation that raises part-way: a failing
  operation returns the error and no new state.
- `GameBoard.__init__` (boards.py:144-149) drops `box_size`, so it always
  fails with a TypeError. The model starts from `init_gameboard`.
- `Screens.Accepts`: the screen's overlap queries (`Overlaps`,
  `OverlappingObjects`, `Destroy`, `MainLoopStep`) use the corrected circle
  test `Geometry.CircleFilter`, not `filter_overlaps` as written. The two
  differ only for a circle centred on a box's left or top line
  (`Screens.AcceptsOffEdges`); `Geometry.CircleFilterAsWritten` models the
  code.
- `Timers.InitAnimation`: the model copies the image lists. `init_animation`
  keeps the caller's list of pre-loaded once-only images (games.py:1179) and
  `next_image` drains it with `pop(0)` (games.py:1192), so two animations
  built from one list share a queue. The second can then start with no
  images and raise "An animation with no images is illegal."
- `Canvas.AdjustCoords`: the model returns a new list. `_adjust_coords`
  changes `coord_list` in place (beginners.py:879-883), and `coords()`
  returns that same list (beginners.py:104-105), so a list obtained before a
  move changes with it.
- `Screens.Create`: `got_statics` is a class attribute (games.py:95), so
  creating a static object on one screen sets it for every screen
  (games.py:504). The model keeps the flag per screen value.
- `Boards.Neighbours` returns the neighbour list of one call.
  `create_neighbours` appends to the cells' existing lists, so calling it
  twice duplicates entries.
- `GameBoards.Unmark`, `GameBoards.Mark`: they require the cell to be in
  the draw order. Grid cells always are, so the `_raise` failure case is
  not modelled there.
- `Canvas.MoveBy`, `Canvas.MoveTo`: every malformed target is folded into
  one `BadParameters` error. The source can also raise a TypeError for
  those targets.
- `Screens.Repaint`: assumes the new surface has the same size, because
  recolouring never changes it.
- `Copying.GetCopyrights`: it does not state the full contents of the list;
  `Copying.CopyrightsAppend` and `Copying.CopyrightShape` give the rest.
  Lines are modelled without their newline.
- `Inputs.Bit`: the mouse-button mask is eight bits; only bits 0 to 2 are
  ever set.
- `Canvas.Polygon`: after an open polygon, the pen is at the last point.
  After an arc, the pen is left unknown (`None`), because its position
  is computed with cosine and sine.
- `Boards.CoordsToCell`: for a negative box size it states only the
  error-free result, not which cell.

## Findings

| source | as written | input that shows it | evidently intended | confidence | as-written member | corrected member |
|---|---|---|---|---|---|---|
| module/livewires/games.py:366-381 | `_lower` takes `obj` but uses the undefined name `it`, so every call raises NameError | any object in the draw order, lowered to the bottom | move the object to the bottom, or just below `below`, as `_raise` does for the top | not executed | DrawOrder.LowerAsWritten (DrawOrder.LowerAsWrittenAlwaysFails) | DrawOrder.Lower |
| module/livewires/games.py:1004-1009 | `filter_overlaps` treats a centre on the box's left line (x == x0) as right of the box, and one on its top line (y == y0) as below it, so it measures to the far corner | centre (0, -3), radius 5, box at (0, 0) of size 10 by 10: the disc covers (0, 0), but the filter says no | overlap exactly when the disc meets the box | not executed | Geometry.CircleFilterAsWritten (Geometry.CircleFilterAsWrittenMissesCorner) | Geometry.CircleFilter |
| module/livewires/games.py:1182-1185 | `init_animation` calls `next_image` once to see whether there is an image and again for the image shown | once-images [1, 2]: image 2 is shown first and 1 never is; with a single image the second call returns None and `Object.__init__` raises AttributeError (games.py:508) | show the image that call returned | not executed | Timers.InitAnimationAsWritten (Timers.InitAnimationAsWrittenSkipsFirst) | Timers.InitAnimation |
| module/livewires/games.py:1021-1022 | `Timer.__init__` does not pass `running` on to `init_timer` | `Timer(1, 0)` is running | a timer created with `running = 0` is stopped | not executed | Timers.NewTimerAsWritten (Timers.NewTimerAsWrittenIgnoresRunning) | Timers.NewTimer |
| module/livewires/beginners.py:558-591 | `circle` flips y before checking whether a point endpoint is the centre, so it compares against the mirrored centre | canvas height 100, centre (10, 20), endpoint (10, 20): accepted; endpoint (10, 80): rejected | reject an endpoint at the centre | not executed | Canvas.CircleAsWritten (Canvas.CircleAsWrittenMissesCentre) | Canvas.Circle |

=== FILE: boards.dfy ===
/** The grid arithmetic of module/livewires/boards.py: converting between
    cells and pixels, which cells are neighbours, the per-cell direction
    table with and without wrap-around, and the margins of a SingleBoard.
    The board is the rectangular one of the default `on_board`. */
module Boards {
  import opened Outcomes
  import opened Directions

  type Cell = (int, int)

  /** A `GameBoard`'s geometry: top-left corner, columns, rows and cell size. */
  datatype Board = Board(originX: int, originY: int, nCols: int, nRows: int, boxSize: int)

  /** `GameBoard.on_board`. */
  predicate OnBoard(b: Board, i: int, j: int) {
    0 <= i < b.nCols && 0 <= j < b.nRows
  }

  /** `GameBoard.cell_to_coords`: the top-left pixel of a cell. */
  function CellToCoords(b: Board, i: int, j: int): (p: (int, int)) {
    (b.originX + i * b.boxSize, b.originY + j * b.boxSize)
  }

  /** `GameBoard.coords_to_cell`: Python 2 integer division, which floors
      and fails on a zero cell size. */
  function CoordsToCell(b: Board, x: int, y: int): (r: Result<Cell>)
    ensures r.Err? <==> b.boxSize == 0
    ensures r.Err? ==> r.error == ZeroDivisionError
    ensures r.Ok? && b.boxSize > 0 ==>
      var corner := CellToCoords(b, r.value.0, r.value.1);
      corner.0 <= x < corner.0 + b.boxSize && corner.1 <= y < corner.1 + b.boxSize
  {
    if b.boxSize == 0 then Err(ZeroDivisionError)
    else Ok((FloorDiv(x - b.originX, b.boxSize), FloorDiv(y - b.originY, b.boxSize)))
  }

  /** Every pixel of a cell's box, its top-left corner included, maps back
      to that cell. */
  lemma CellRoundTrip(b: Board, i: int, j: int, dx: int, dy: int)
    requires b.boxSize > 0 && 0 <= dx < b.boxSize && 0 <= dy < b.boxSize
    ensures var (x, y) := CellToCoords(b, i, j); CoordsToCell(b, x + dx, y + dy) == Ok((i, j))
  {
    DivUnique(i * b.boxSize + dx, b.boxSize, i, dx);
    DivUnique(j * b.boxSize + dy, b.boxSize, j, dy);
  }

  // ---------------------------------------------------------------------
  // Neighbours

  /** The test `create_neighbours` applies to the offset (k, l) from (i, j):
      not the cell itself, on the board, and orthogonal (`k <> l and
      k <> -l`) or, unless `orthogonal_only`, diagonal. */
  predicate Links(b: Board, i: int, j: int, k: int, l: int, orthogonalOnly: bool) {
    && !(k == 0 && l == 0) && OnBoard(b, i + k, j + l)
    && ((k != l && k != -l) || (!orthogonalOnly && k != 0 && l != 0))
  }

  function Link(b: Board, i: int, j: int, k: int, l: int, orthogonalOnly: bool): seq<Cell> {
    if Links(b, i, j, k, l, orthogonalOnly) then [(i + k, j + l)] else []
  }

  /** Two cells are adjacent: distinct, at most one step apart on each
      axis, and in line when only orthogonal neighbours count. */
  predicate Adjacent(a: Cell, c: Cell, orthogonalOnly: bool) {
    && a != c && -1 <= c.0 - a.0 <= 1 && -1 <= c.1 - a.1 <= 1
    && (orthogonalOnly ==> a.0 == c.0 || a.1 == c.1)
  }

  /** The neighbours `create_neighbours` gives the cell (i, j), in the order
      of its loops over k and then l (see `NeighboursInLoopOrder`). */
  function Neighbours(b: Board, i: int, j: int, orthogonalOnly: bool): (r: seq<Cell>)
    ensures forall c :: c in r <==> OnBoard(b, c.0, c.1) && Adjacent((i, j), c, orthogonalOnly)
    ensures |r| <= 8
  {
    Link(b, i, j, -1, -1, orthogonalOnly) + Link(b, i, j, -1, 0, orthogonalOnly)
      + Link(b, i, j, -1, 1, orthogonalOnly) + Link(b, i, j, 0, -1, orthogonalOnly)
      + Link(b, i, j, 0, 0, orthogonalOnly) + Link(b, i, j, 0, 1, orthogonalOnly)
      + Link(b, i, j, 1, -1, orthogonalOnly) + Link(b, i, j, 1, 0, orthogonalOnly)
      + Link(b, i, j, 1, 1, orthogonalOnly)
  }

  /** Cells in the order of `create_neighbours`' loops: by column, then by row. */
  predicate CellBefore(x: Cell, y: Cell) {
    x.0 < y.0 || (x.0 == y.0 && x.1 < y.1)
  }

  predicate InLoopOrder(r: seq<Cell>) {
    forall a, c :: 0 <= a < c < |r| ==> CellBefore(r[a], r[c])
  }

  lemma AppendInLoopOrder(s: seq<Cell>, t: seq<Cell>)
    requires InLoopOrder(s) && InLoopOrder(t)
    requires forall x, y :: x in s && y in t ==> CellBefore(x, y)
    ensures InLoopOrder(s + t)
  {
    forall a, c | 0 <= a < c < |s + t|
      ensures CellBefore((s + t)[a], (s + t)[c])
    {
      if c < |s| {
      } else if a >= |s| {
        assert (s + t)[a] == t[a - |s|] && (s + t)[c] == t[c - |s|];
      } else {
        assert (s + t)[a] in s && (s + t)[c] in t;
      }
    }
  }

  /** One more offset of the loops keeps the list in order, below the next offset. */
  lemma ExtendInLoopOrder(b: Board, i: int, j: int, s: seq<Cell>, k: int, l: int, k': int, l': int, orthogonalOnly: bool)
    requires InLoopOrder(s) && CellBefore((i + k, j + l), (i + k', j + l'))
    requires forall x :: x in s ==> CellBefore(x, (i + k, j + l))
    ensures InLoopOrder(s + Link(b, i, j, k, l, orthogonalOnly))
    ensures forall x :: x in s + Link(b, i, j, k, l, orthogonalOnly) ==> CellBefore(x, (i + k', j + l'))
  {
    AppendInLoopOrder(s, Link(b, i, j, k, l, orthogonalOnly));
  }

  /** The neighbour list comes in the order of the loops over k and then l,
      so no cell is listed twice. */
  lemma NeighboursInLoopOrder(b: Board, i: int, j: int, orthogonalOnly: bool)
    ensures InLoopOrder(Neighbours(b, i, j, orthogonalOnly))
    ensures var r := Neighbours(b, i, j, orthogonalOnly);
      forall a, c :: 0 <= a < c < |r| ==> r[a] != r[c]
  {
    var o := orthogonalOnly;
    var r0: seq<Cell> := [];
    ExtendInLoopOrder(b, i, j, r0, -1, -1, -1, 0, o);
    var r1 := Link(b, i, j, -1, -1, o);
    assert r0 + r1 == r1;
    ExtendInLoopOrder(b, i, j, r1, -1, 0, -1, 1, o);
    var r2 := r1 + Link(b, i, j, -1, 0, o);
    ExtendInLoopOrder(b, i, j, r2, -1, 1, 0, -1, o);
    var r3 := r2 + Link(b, i, j, -1, 1, o);
    ExtendInLoopOrder(b, i, j, r3, 0, -1, 0, 0, o);
    var r4 := r3 + Link(b, i, j, 0, -1, o);
    ExtendInLoopOrder(b, i, j, r4, 0, 0, 0, 1, o);
    var r5 := r4 + Link(b, i, j, 0, 0, o);
    ExtendInLoopOrder(b, i, j, r5, 0, 1, 1, -1, o);
    var r6 := r5 + Link(b, i, j, 0, 1, o);
    ExtendInLoopOrder(b, i, j, r6, 1, -1, 1, 0, o);
    var r7 := r6 + Link(b, i, j, 1, -1, o);
    ExtendInLoopOrder(b, i, j, r7, 1, 0, 1, 1, o);
    var r8 := r7 + Link(b, i, j, 1, 0, o);
    ExtendInLoopOrder(b, i, j, r8, 1, 1, 2, 0, o);
    var r := r8 + Link(b, i, j, 1, 1, o);
    assert r == Neighbours(b, i, j, o);
    forall a, c | 0 <= a < c < |r|
      ensures r[a] != r[c]
    {
      assert CellBefore(r[a], r[c]);
    }
  }

  /** On a rectangular board being neighbours is symmetric, and a cell is
      never its own neighbour. */
  lemma NeighboursSymmetric(b: Board, i: int, j: int, c: Cell, orthogonalOnly: bool)
    requires OnBoard(b, i, j)
    ensures c in Neighbours(b, i, j, orthogonalOnly) ==> (i, j) in Neighbours(b, c.0, c.1, orthogonalOnly)
    ensures (i, j) !in Neighbours(b, i, j, orthogonalOnly)
  {
  }

  /** A cell in the middle of a large enough board has four or eight neighbours. */
  lemma NeighbourCount(b: Board, i: int, j: int)
    requires 1 <= i < b.nCols - 1 && 1 <= j < b.nRows - 1
    ensures |Neighbours(b, i, j, true)| == 4
    ensures |Neighbours(b, i, j, false)| == 8
  {
  }

  // ---------------------------------------------------------------------
  // Directions

  function SetIf(t: seq<Option<Cell>>, d: Direction, cond: bool, c: Cell): (r: seq<Option<Cell>>)
    requires |t| == 8
    ensures |r| == 8
  {
    if cond then t[d := Some(c)] else t
  }

  /** The LEFT (or, with `dx == 1`, RIGHT) block of `create_directions`. */
  function SideBlock(b: Board, i: int, j: int, t: seq<Option<Cell>>, dx: int,
                     side: Direction, upSide: Direction, downSide: Direction,
                     orthogonalOnly: bool, wrap: bool): (r: seq<Option<Cell>>)
    requires |t| == 8 && b.nCols > 0 && b.nRows > 0
    ensures |r| == 8
  {
    var k := (i + dx) % b.nCols;
    var t1 := SetIf(t, side, OnBoard(b, k, j), (k, j));
    if orthogonalOnly then t1
    else
      var t2 := if j != 0 || wrap then
                  var l := (j - 1) % b.nRows; SetIf(t1, upSide, OnBoard(b, k, l), (k, l))
                else t1;
      if j != b.nRows - 1 || wrap then
        var l := (j + 1) % b.nRows; SetIf(t2, downSide, OnBoard(b, k, l), (k, l))
      else t2
  }

  /** The direction table `create_directions` gives the on-board cell
      (i, j), entry `d` being the cell one step in direction `d`. */
  function DirectionTable(b: Board, i: int, j: int, orthogonalOnly: bool, wrap: bool): (r: seq<Option<Cell>>)
    requires OnBoard(b, i, j)
    ensures |r| == 8
  {
    var t0 := seq(8, _ => None);
    var t1 := if i != 0 || wrap then SideBlock(b, i, j, t0, -1, Left, UpLeft, DownLeft, orthogonalOnly, wrap) else t0;
    var t2 := if i != b.nCols - 1 || wrap then SideBlock(b, i, j, t1, 1, Right, UpRight, DownRight, orthogonalOnly, wrap) else t1;
    UpDownBlock(b, i, j, t2, wrap)
  }

  /** The UP and DOWN entries of `create_directions`. */
  function UpDownBlock(b: Board, i: int, j: int, t: seq<Option<Cell>>, wrap: bool): (r: seq<Option<Cell>>)
    requires |t| == 8 && b.nCols > 0 && b.nRows > 0
    ensures |r| == 8
  {
    var t3 := if j != 0 || wrap then
                var l := (j - 1) % b.nRows; SetIf(t, Up, OnBoard(b, i, l), (i, l))
              else t;
    if j != b.nRows - 1 || wrap then
      var l := (j + 1) % b.nRows; SetIf(t3, Down, OnBoard(b, i, l), (i, l))
    else t3
  }

  /** Where one step in direction `d` leads from (i, j): off the board means
      nowhere, unless the board wraps round. */
  function Step(b: Board, i: int, j: int, d: Direction, wrap: bool): (r: Option<Cell>)
    requires b.nCols > 0 && b.nRows > 0
    ensures r.Some? ==> OnBoard(b, r.value.0, r.value.1)
  {
    var (dx, dy) := Delta(d);
    if wrap then Some(((i + dx) % b.nCols, (j + dy) % b.nRows))
    else if OnBoard(b, i + dx, j + dy) then Some((i + dx, j + dy))
    else None
  }

  lemma SmallMod(a: int, n: int)
    requires 0 <= a < n
    ensures a % n == a
  {
    DivUnique(a, n, 0, a);
  }

  /** One step inside the board, reduced modulo the board size, is the step itself. */
  lemma StepMods(b: Board, i: int, j: int)
    requires OnBoard(b, i, j)
    ensures i != 0 ==> (i - 1) % b.nCols == i - 1
    ensures i != b.nCols - 1 ==> (i + 1) % b.nCols == i + 1
    ensures j != 0 ==> (j - 1) % b.nRows == j - 1
    ensures j != b.nRows - 1 ==> (j + 1) % b.nRows == j + 1
  {
    if i != 0 { SmallMod(i - 1, b.nCols); }
    if i != b.nCols - 1 { SmallMod(i + 1, b.nCols); }
    if j != 0 { SmallMod(j - 1, b.nRows); }
    if j != b.nRows - 1 { SmallMod(j + 1, b.nRows); }
  }

  /** `create_directions` sets exactly the one-step moves: only the four
      orthogonal ones when `orthogonal_only`, each to the neighbouring cell
      when it is on the board, or with wrap-around to the cell reached
      modulo the board size. */
  lemma DirectionTableSpec(b: Board, i: int, j: int, orthogonalOnly: bool, wrap: bool)
    requires OnBoard(b, i, j)
    ensures forall d: Direction :: DirectionTable(b, i, j, orthogonalOnly, wrap)[d]
              == if orthogonalOnly && d % 2 == 1 then None else Step(b, i, j, d, wrap)
  {
    StepMods(b, i, j);
    SmallMod(i, b.nCols);
    SmallMod(j, b.nRows);
    var t0: seq<Option<Cell>> := seq(8, _ => None);
    var t1 := if i != 0 || wrap then SideBlock(b, i, j, t0, -1, Left, UpLeft, DownLeft, orthogonalOnly, wrap) else t0;
    var t2 := if i != b.nCols - 1 || wrap then SideBlock(b, i, j, t1, 1, Right, UpRight, DownRight, orthogonalOnly, wrap) else t1;
    if i != 0 || wrap {
      SideBlockSpec(b, i, j, t0, -1, Left, UpLeft, DownLeft, orthogonalOnly, wrap);
    }
    if i != b.nCols - 1 || wrap {
      SideBlockSpec(b, i, j, t1, 1, Right, UpRight, DownRight, orthogonalOnly, wrap);
    }
    UpDownSpec(b, i, j, t2, wrap);
    assert DirectionTable(b, i, j, orthogonalOnly, wrap) == UpDownBlock(b, i, j, t2, wrap);
  }

  /** The entries the UP/DOWN block sets, and the ones it leaves alone. */
  lemma UpDownSpec(b: Board, i: int, j: int, t: seq<Option<Cell>>, wrap: bool)
    requires OnBoard(b, i, j) && |t| == 8 && t[Up] == None && t[Down] == None
    ensures var r := UpDownBlock(b, i, j, t, wrap);
      && r[Up] == Step(b, i, j, Up, wrap) && r[Down] == Step(b, i, j, Down, wrap)
      && forall d: Direction :: d != Up && d != Down ==> r[d] == t[d]
  {
    StepMods(b, i, j);
    SmallMod(i, b.nCols);
    SmallMod(j, b.nRows);
  }

  /** The entries one side block of `create_directions` sets, and the ones
      it leaves alone. */
  lemma SideBlockSpec(b: Board, i: int, j: int, t: seq<Option<Cell>>, dx: int,
                      side: Direction, upSide: Direction, downSide: Direction,
                      orthogonalOnly: bool, wrap: bool)
    requires OnBoard(b, i, j) && |t| == 8
    requires (dx, side, upSide, downSide) == (-1, Left, UpLeft, DownLeft)
      || (dx, side, upSide, downSide) == (1, Right, UpRight, DownRight)
    requires wrap || OnBoard(b, i + dx, j)
    requires t[upSide] == None && t[downSide] == None
    ensures var r := SideBlock(b, i, j, t, dx, side, upSide, downSide, orthogonalOnly, wrap);
      && r[side] == Step(b, i, j, side, wrap)
      && r[upSide] == (if orthogonalOnly then t[upSide] else Step(b, i, j, upSide, wrap))
      && r[downSide] == (if orthogonalOnly then t[downSide] else Step(b, i, j, downSide, wrap))
      && forall d: Direction :: d != side && d != upSide && d != downSide ==> r[d] == t[d]
  {
    StepMods(b, i, j);
    SmallMod(i, b.nCols);
    SmallMod(j, b.nRows);
  }

  lemma ModBack(i: int, dx: int, n: int)
    requires 0 <= i < n
    ensures ((i + dx) % n - dx) % n == i
  {
    ModAddShift(i + dx, -dx, n);
    SmallMod(i, n);
  }

  /** Opposite directions agree: if B is one step from A in direction `d`,
      A is one step from B in the opposite direction. */
  lemma StepOpposite(b: Board, i: int, j: int, d: Direction, wrap: bool)
    requires OnBoard(b, i, j)
    requires Step(b, i, j, d, wrap).Some?
    ensures var c := Step(b, i, j, d, wrap).value; Step(b, c.0, c.1, Turn180(d), wrap) == Some((i, j))
  {
    Turn180Opposite(d);
    var (dx, dy) := Delta(d);
    if wrap {
      ModBack(i, dx, b.nCols);
      ModBack(j, dy, b.nRows);
    }
  }

  /** The same, for the tables themselves. */
  lemma DirectionTableOpposite(b: Board, i: int, j: int, d: Direction, orthogonalOnly: bool, wrap: bool)
    requires OnBoard(b, i, j)
    requires DirectionTable(b, i, j, orthogonalOnly, wrap)[d].Some?
    ensures var c := DirectionTable(b, i, j, orthogonalOnly, wrap)[d].value;
      OnBoard(b, c.0, c.1) && DirectionTable(b, c.0, c.1, orthogonalOnly, wrap)[Turn180(d)] == Some((i, j))
  {
    DirectionTableSpec(b, i, j, orthogonalOnly, wrap);
    var c := DirectionTable(b, i, j, orthogonalOnly, wrap)[d].value;
    StepOpposite(b, i, j, d, wrap);
    DirectionTableSpec(b, c.0, c.1, orthogonalOnly, wrap);
    assert Turn180(d) % 2 == d % 2;
  }

  // ---------------------------------------------------------------------
  // SingleBoard margins

  /** The `margins` argument: one number, or a tuple. */
  datatype Margins = Uniform(m: int) | Sides(ms: seq<int>)

  /** The screen layout `init_singleboard` derives from its margins. */
  datatype Layout = Layout(width: int, height: int, left: int, top: int)

  /** `SingleBoard.init_singleboard`: a number is every margin; a pair gives
      left/right and top/bottom; a four-tuple gives left, top, right and
      bottom.  Any other length fails to unpack.  The screen holds the grid
      plus the margins, and the board's origin is (left, top). */
  function SingleBoardLayout(margins: Margins, nCols: int, nRows: int, boxSize: int): (r: Result<Layout>)
    ensures r.Ok? <==> margins.Uniform? || |margins.ms| == 2 || |margins.ms| == 4
    ensures r.Err? ==> r.error == ValueError
    ensures r.Ok? ==>
      var (left, top, right, bottom) := match margins
        case Uniform(m) => (m, m, m, m)
        case Sides(ms) => if |ms| == 2 then (ms[0], ms[1], ms[0], ms[1]) else (ms[0], ms[1], ms[2], ms[3]);
      r.value == Layout(nCols * boxSize + left + right, nRows * boxSize + top + bottom, left, top)
  {
    var (left, top, rest) := match margins
      case Uniform(m) => (m, m, [m, m])
      case Sides(ms) => if |ms| >= 2 then (ms[0], ms[1], ms) else (0, 0, []);
    if margins.Sides? && |margins.ms| < 2 then Err(ValueError)
    else if |rest| == 2 then
      Ok(Layout(nCols * boxSize + left + rest[0], nRows * boxSize + top + rest[1], left, top))
    else if |rest[2..]| == 2 then
      Ok(Layout(nCols * boxSize + left + rest[2], nRows * boxSize + top + rest[3], left, top))
    else Err(ValueError)
  }
}

=== FILE: canvas.dfy ===
/** The drawing helpers of module/livewires/beginners.py that do their own
    arithmetic before handing a shape to Tk: `polygon`'s coordinate
    flattening, `circle`'s argument checks and bounding box, and the
    movable objects that `move_by` and `move_to` shift.  Tk's canvas calls
    do nothing here; the canvas is the pen position, the screen height
    used to flip y, and whether drawing calls return movables. */
module Canvas {
  import opened Outcomes

  /** The pen is unknown after an arc, whose end point is trigonometry. */
  datatype Canvas = Canvas(ys: int, pen: Option<(int, int)>, returning: bool)

  /** A drawn shape that can be moved later: Tk's item id and the flat
      coordinate list it was created with; `round` for `MovableCircle`. */
  datatype Movable = Movable(id: int, coordList: seq<int>, round: bool)

  // ---------------------------------------------------------------------
  // polygon()

  /** An element of `polygon`'s coordinate argument: a point, or one number
      of a point written out flat. */
  datatype Coord = Pair(x: int, y: int) | Scalar(v: int)

  /** The flattening loop of `polygon` from position i on: points become
      `x, ys - y`; a number pairs with the next element, which must be a
      number too; a number with nothing after it is not a coordinate. */
  function FlattenFrom(coords: seq<Coord>, ys: int, i: nat): (r: Result<seq<int>>)
    requires i <= |coords|
    ensures r.Ok? ==> |r.value| % 2 == 0 && |r.value| <= 2 * (|coords| - i)
    ensures r.Err? ==> r.error == BadParameters || r.error == TypeError
    decreases |coords| - i
  {
    if i == |coords| then Ok([])
    else match coords[i]
      case Pair(x, y) => Prepend([x, ys - y], FlattenFrom(coords, ys, i + 1))
      case Scalar(x) =>
        if i + 1 < |coords| then
          if coords[i + 1].Pair? then Err(TypeError)
          else Prepend([x, ys - coords[i + 1].v], FlattenFrom(coords, ys, i + 2))
        else Err(BadParameters)
  }

  /** Putting values in front of a successful result. */
  function Prepend(c: seq<int>, r: Result<seq<int>>): (p: Result<seq<int>>)
    ensures p.Ok? <==> r.Ok?
    ensures p.Ok? ==> p.value == c + r.value
    ensures p.Err? ==> p == r
  {
    if r.Ok? then Ok(c + r.value) else r
  }

  /** The flattening loop itself. */
  method Flatten(coords: seq<Coord>, ys: int) returns (r: Result<seq<int>>)
    ensures r == FlattenFrom(coords, ys, 0)
  {
    var c: seq<int> := [];
    PrependTwice([], [], FlattenFrom(coords, ys, 0));
    assert Prepend([], FlattenFrom(coords, ys, 0)) == FlattenFrom(coords, ys, 0) by {
      if FlattenFrom(coords, ys, 0).Ok? {
        assert [] + FlattenFrom(coords, ys, 0).value == FlattenFrom(coords, ys, 0).value;
      }
    }
    var i := 0;
    while i < |coords|
      invariant 0 <= i <= |coords|
      invariant FlattenFrom(coords, ys, 0) == Prepend(c, FlattenFrom(coords, ys, i))
      decreases |coords| - i
    {
      match coords[i]
      case Pair(x, y) =>
        PrependTwice(c, [x, ys - y], FlattenFrom(coords, ys, i + 1));
        c, i := c + [x, ys - y], i + 1;
      case Scalar(x) =>
        if i + 1 < |coords| {
          if coords[i + 1].Pair? {
            return Err(TypeError);
          }
          PrependTwice(c, [x, ys - coords[i + 1].v], FlattenFrom(coords, ys, i + 2));
          c, i := c + [x, ys - coords[i + 1].v], i + 2;
        } else {
          return Err(BadParameters);
        }
    }
    assert c + [] == c;
    return Ok(c);
  }

  lemma PrependTwice(a: seq<int>, b: seq<int>, r: Result<seq<int>>)
    ensures Prepend(a, Prepend(b, r)) == Prepend(a + b, r)
  {
    if r.Ok? {
      assert a + (b + r.value) == (a + b) + r.value;
    }
  }

  /** A list of points flattens to `x0, ys - y0, x1, ys - y1, ...`. */
  lemma {:induction false} FlattenPoints(coords: seq<Coord>, ys: int, i: nat)
    requires i <= |coords| && forall k :: i <= k < |coords| ==> coords[k].Pair?
    ensures var r := FlattenFrom(coords, ys, i);
      && r.Ok? && |r.value| == 2 * (|coords| - i)
      && forall k :: i <= k < |coords| ==>
           r.value[2 * (k - i)] == coords[k].x && r.value[2 * (k - i) + 1] == ys - coords[k].y
    decreases |coords| - i
  {
    if i < |coords| {
      FlattenPoints(coords, ys, i + 1);
      var r := FlattenFrom(coords, ys, i);
      var rest := FlattenFrom(coords, ys, i + 1).value;
      assert r.value == [coords[i].x, ys - coords[i].y] + rest;
      forall k | i < k < |coords|
        ensures r.value[2 * (k - i)] == coords[k].x && r.value[2 * (k - i) + 1] == ys - coords[k].y
      {
        assert r.value[2 * (k - i)] == rest[2 * (k - (i + 1))];
        assert r.value[2 * (k - i) + 1] == rest[2 * (k - (i + 1)) + 1];
      }
    }
  }

  /** A lone number after whole points is not a coordinate. */
  lemma {:induction false} FlattenTrailingScalar(coords: seq<Coord>, ys: int, i: nat)
    requires i < |coords| && coords[|coords| - 1].Scalar?
    requires forall k :: i <= k < |coords| - 1 ==> coords[k].Pair?
    ensures FlattenFrom(coords, ys, i) == Err(BadParameters)
    decreases |coords| - i
  {
    if i < |coords| - 1 {
      FlattenTrailingScalar(coords, ys, i + 1);
    }
  }

  /** `polygon(coords, closed, filled)`.  The pen goes to the first point
      of a closed polygon and to the last point otherwise, before anything
      is drawn.  A closed or filled polygon is one Tk polygon, returned as a
      movable when movables are on; an open outline is drawn as lines, and
      asking for a movable one fails after it has been drawn. */
  function Polygon(cv: Canvas, coords: seq<Coord>, closed: bool, filled: bool, id: int): (r: (Canvas, Result<Option<Movable>>))
    ensures FlattenFrom(coords, cv.ys, 0).Err? ==> r == (cv, Err(FlattenFrom(coords, cv.ys, 0).error))
    ensures FlattenFrom(coords, cv.ys, 0) == Ok([]) ==> r == (cv, Err(IndexError))
    ensures r.1.Ok? <==> FlattenFrom(coords, cv.ys, 0).Ok? && |coords| > 0 && (closed || filled || !cv.returning)
    ensures r.1.Ok? ==> var c := FlattenFrom(coords, cv.ys, 0).value;
      && (r.1.value.Some? <==> cv.returning)
      && (r.1.value.Some? ==> r.1.value.value == Movable(id, c, false))
    ensures r.1 == Err(Unimplemented) || r.1.Ok? ==> var c := FlattenFrom(coords, cv.ys, 0).value;
      |c| >= 2 && r.0 == cv.(pen := Some(if closed then (c[0], c[1]) else (c[|c| - 2], c[|c| - 1])))
  {
    match FlattenFrom(coords, cv.ys, 0)
    case Err(e) => (cv, Err(e))
    case Ok(c) =>
      if |c| == 0 then (cv, Err(IndexError))
      else
        var cv' := cv.(pen := Some(if closed then (c[0], c[1]) else (c[|c| - 2], c[|c| - 1])));
        if closed || filled then (cv', Ok(if cv.returning then Some(Movable(id, c, false)) else None))
        else if cv.returning then (cv', Err(Unimplemented))
        else (cv', Ok(None))
  }

  /** Flattening is empty exactly when there are no coordinates. */
  lemma FlattenEmpty(coords: seq<Coord>, ys: int)
    ensures FlattenFrom(coords, ys, 0) == Ok([]) <==> |coords| == 0
  {
    if |coords| > 0 {
      match coords[0]
      case Pair(_, _) =>
      case Scalar(_) =>
    }
  }

  // ---------------------------------------------------------------------
  // circle()

  /** An arc end: an angle in degrees, or a point the arc ends towards. */
  datatype Endpoint = Angle(degrees: int) | Towards(px: int, py: int)

  /** How the centre was passed: `circle(x, y, r)`, or `circle((x, y), r)`
      with the radius in the second position and nothing in the third. */
  datatype Centre = Apart(x: int, y: int) | Packed(x: int, y: int, second: Option<int>)

  /** What `circle` hands to Tk: the bounding box, and for an arc its start
      angle and extent. */
  datatype Figure = Oval(box: seq<int>) | Arc(box: seq<int>, start: int, extent: int)

  /** `while e[0] > e[1]: e[1] = e[1] + 360`. */
  function NormaliseArc(e0: int, e1: int): (r: int)
    ensures e0 <= r && e1 <= r && (r - e1) % 360 == 0
    ensures e0 <= e1 ==> r == e1
    ensures e1 < e0 ==> r < e0 + 360
    decreases e0 - e1
  {
    if e0 > e1 then NormaliseArc(e0, e1 + 360) else e1
  }

  /** The angle of each endpoint.  A point at the centre is refused; the
      centre is compared in the coordinates the point is given in. */
  function EndAngle(e: Endpoint, x: int, y: int, bearing: (int, int) -> int): (r: Result<int>)
    ensures r.Err? <==> e == Towards(x, y)
    ensures r.Err? ==> r.error == BadParameters
    ensures e.Angle? ==> r == Ok(e.degrees)
  {
    match e
    case Angle(a) => Ok(a)
    case Towards(px, py) => if (px, py) == (x, y) then Err(BadParameters) else Ok(bearing(py - y, px - x))
  }

  /** The centre test as written: the point is compared with the centre
      after its y coordinate has been flipped to Tk's, although the point
      itself is still in the caller's coordinates. */
  function EndAngleAsWritten(e: Endpoint, x: int, y: int, ys: int, bearing: (int, int) -> int): (r: Result<int>)
    ensures r.Err? <==> e == Towards(x, ys - y)
    ensures e.Angle? ==> r == Ok(e.degrees)
  {
    match e
    case Angle(a) => Ok(a)
    case Towards(px, py) =>
      var tkY := ys - y;
      if (px, py) == (x, tkY) then Err(BadParameters) else Ok(bearing(py - ys + tkY, px - x))
  }

  /** The radius `circle` settles on: the third argument, or the second
      when the centre is packed (a third is then one too many); a negative
      one is refused; with none, the distance to a first endpoint given as
      a point, if there are exactly two endpoints; otherwise none at all. */
  function CircleRadius(centre: Centre, radius: Option<int>, endpoints: Option<seq<Endpoint>>,
                        distance: (int, int) -> nat): (r: Result<int>)
    ensures r.Err? ==> r.error == BadParameters
    ensures centre.Packed? && radius.Some? ==> r.Err?
    ensures r.Ok? ==> r.value >= 0
    ensures !(centre.Packed? && radius.Some?) ==>
      var given := if centre.Packed? then centre.second else radius;
      && (given.Some? ==> (r.Ok? <==> given.value >= 0) && (r.Ok? ==> r.value == given.value))
      && (given.None? ==> (r.Ok? <==> endpoints.Some? && |endpoints.value| == 2 && endpoints.value[0].Towards?))
  {
    if centre.Packed? && radius.Some? then Err(BadParameters)
    else
      var given := if centre.Packed? then centre.second else radius;
      if given.Some? && given.value < 0 then Err(BadParameters)
      else if given.Some? then Ok(given.value)
      else if endpoints.Some? && |endpoints.value| == 2 && endpoints.value[0].Towards? then
        Ok(distance(centre.x - endpoints.value[0].px, centre.y - endpoints.value[0].py) as int)
      else Err(BadParameters)
  }

  /** Tk's enclosing box for a circle of radius r about (x, y). */
  function Box(x: int, y: int, r: int): (box: seq<int>)
    ensures |box| == 4 && box[2] - box[0] == 2 * r + 1 && box[3] - box[1] == 2 * r + 1
    ensures box[0] + box[2] == 2 * x + 1 && box[1] + box[3] == 2 * y + 1
  {
    [x - r, y - r, x + r + 1, y + r + 1]
  }

  /** The start angle and extent of an arc: both endpoints' angles, the end
      advanced by whole turns until it is not before the start. */
  function ArcAngles(ends: seq<Endpoint>, x: int, y: int, ys: int, bearing: (int, int) -> int, asWritten: bool): (r: Result<(int, int)>)
    requires |ends| == 2
    ensures r.Err? ==> r.error == BadParameters
    ensures !asWritten ==> (r.Ok? <==> ends[0] != Towards(x, y) && ends[1] != Towards(x, y))
    ensures asWritten ==> (r.Ok? <==> ends[0] != Towards(x, ys - y) && ends[1] != Towards(x, ys - y))
    ensures r.Ok? ==> r.value.1 >= 0 && (ends[0].Angle? ==> r.value.0 == ends[0].degrees)
    ensures r.Ok? && ends[0].Angle? && ends[1].Angle? && ends[0].degrees <= ends[1].degrees ==>
      r.value.1 == ends[1].degrees - ends[0].degrees
  {
    var first := if asWritten then EndAngleAsWritten(ends[0], x, y, ys, bearing) else EndAngle(ends[0], x, y, bearing);
    var second := if asWritten then EndAngleAsWritten(ends[1], x, y, ys, bearing) else EndAngle(ends[1], x, y, bearing);
    if first.Err? || second.Err? then Err(BadParameters)
    else Ok((first.value, NormaliseArc(first.value, second.value) - first.value))
  }

  /** `circle`.  `distance(dx, dy)` stands for the floating-point radius
      computed from an endpoint and `bearing(dy, dx)` for `atan2` in degrees;
      `asWritten` selects the centre test the code performs.  A full circle
      leaves the pen at its centre. */
  function CircleWith(cv: Canvas, centre: Centre, radius: Option<int>, endpoints: Option<seq<Endpoint>>, id: int,
                      distance: (int, int) -> nat, bearing: (int, int) -> int, asWritten: bool): (r: (Canvas, Result<Option<Movable>>, Option<Figure>))
    ensures r.1.Ok? <==> r.2.Some?
    ensures r.1.Err? ==> r.0 == cv && r.1.error == BadParameters
    ensures r.1.Ok? <==> && CircleRadius(centre, radius, endpoints, distance).Ok?
                         && (endpoints.Some? ==> (|endpoints.value| == 2
                               && ArcAngles(endpoints.value, centre.x, centre.y, cv.ys, bearing, asWritten).Ok?))
    ensures r.1.Ok? ==>
      && r.2.value.box == Box(centre.x, cv.ys - centre.y, CircleRadius(centre, radius, endpoints, distance).value)
      && (r.1.value.Some? <==> cv.returning)
      && (r.1.value.Some? ==> r.1.value.value == Movable(id, r.2.value.box, true))
    ensures r.1.Ok? && endpoints.None? ==> r.2.value.Oval? && r.0 == cv.(pen := Some((centre.x, cv.ys - centre.y)))
    ensures r.1.Ok? && endpoints.Some? ==>
      var (start, extent) := ArcAngles(endpoints.value, centre.x, centre.y, cv.ys, bearing, asWritten).value;
      r.2.value == Arc(r.2.value.box, start, extent) && r.0 == cv.(pen := None)
  {
    match CircleRadius(centre, radius, endpoints, distance)
    case Err(e) => (cv, Err(e), None)
    case Ok(rad) =>
      var box := Box(centre.x, cv.ys - centre.y, rad);
      var movable := if cv.returning then Some(Movable(id, box, true)) else None;
      if endpoints.None? then (cv.(pen := Some((centre.x, cv.ys - centre.y))), Ok(movable), Some(Oval(box)))
      else if |endpoints.value| != 2 then (cv, Err(BadParameters), None)
      else match ArcAngles(endpoints.value, centre.x, centre.y, cv.ys, bearing, asWritten)
        case Err(e) => (cv, Err(e), None)
        case Ok((start, extent)) => (cv.(pen := None), Ok(movable), Some(Arc(box, start, extent)))
  }

  /** `circle` with the centre test it evidently intends: an endpoint at
      the centre is refused. */
  function Circle(cv: Canvas, centre: Centre, radius: Option<int>, endpoints: Option<seq<Endpoint>>, id: int,
                  distance: (int, int) -> nat, bearing: (int, int) -> int): (r: (Canvas, Result<Option<Movable>>, Option<Figure>))
    ensures endpoints.Some? && r.1.Ok? ==>
      |endpoints.value| == 2 && forall k :: 0 <= k < 2 ==> endpoints.value[k] != Towards(centre.x, centre.y)
    ensures endpoints.Some? && r.1.Ok? ==> r.2.Some? && r.2.value.Arc? && r.2.value.extent >= 0
  {
    CircleWith(cv, centre, radius, endpoints, id, distance, bearing, false)
  }

  /** `circle` as written. */
  function CircleAsWritten(cv: Canvas, centre: Centre, radius: Option<int>, endpoints: Option<seq<Endpoint>>, id: int,
                           distance: (int, int) -> nat, bearing: (int, int) -> int): (r: (Canvas, Result<Option<Movable>>, Option<Figure>))
    ensures endpoints.Some? && r.1.Ok? ==>
      |endpoints.value| == 2 && forall k :: 0 <= k < 2 ==> endpoints.value[k] != Towards(centre.x, cv.ys - centre.y)
  {
    CircleWith(cv, centre, radius, endpoints, id, distance, bearing, true)
  }

  /** On a 100-pixel-high canvas, an arc from the centre (10, 20) itself is
      accepted by the code, while one towards (10, 80), sixty pixels away,
      is refused as being at the centre. */
  lemma CircleAsWrittenMissesCentre(distance: (int, int) -> nat, bearing: (int, int) -> int)
    ensures var cv := Canvas(100, None, false);
      && CircleAsWritten(cv, Apart(10, 20), Some(5), Some([Towards(10, 20), Angle(90)]), 0, distance, bearing).1.Ok?
      && CircleAsWritten(cv, Apart(10, 20), Some(5), Some([Towards(10, 80), Angle(90)]), 0, distance, bearing).1.Err?
      && Circle(cv, Apart(10, 20), Some(5), Some([Towards(10, 20), Angle(90)]), 0, distance, bearing).1.Err?
      && Circle(cv, Apart(10, 20), Some(5), Some([Towards(10, 80), Angle(90)]), 0, distance, bearing).1.Ok?
  {
  }

  // ---------------------------------------------------------------------
  // Movables

  /** `Movable.coords` and `MovableCircle.coords`: the list itself, or the
      floor midpoint of the bounding box. */
  function Coords(m: Movable): (r: Result<seq<int>>)
    ensures r.Err? <==> m.round && |m.coordList| < 4
    ensures r.Ok? && !m.round ==> r.value == m.coordList
    ensures r.Ok? && m.round ==> (|r.value| == 2
      && 2 * r.value[0] <= m.coordList[0] + m.coordList[2] < 2 * r.value[0] + 2
      && 2 * r.value[1] <= m.coordList[1] + m.coordList[3] < 2 * r.value[1] + 2)
  {
    if !m.round then Ok(m.coordList)
    else if |m.coordList| < 4 then Err(IndexError)
    else
      var cl := m.coordList;
      Ok([FloorDiv(cl[0] + cl[2], 2), FloorDiv(cl[1] + cl[3], 2)])
  }

  /** `_adjust_coords`: add x to every even position and y to every odd
      one.  An odd-length list fails on its last element. */
  method AdjustCoords(coordList: seq<int>, x: int, y: int) returns (r: Result<seq<int>>)
    ensures r.Ok? <==> |coordList| % 2 == 0
    ensures r.Err? ==> r.error == IndexError
    ensures r.Ok? ==> (|r.value| == |coordList|
      && forall i :: 0 <= i < |coordList| ==> r.value[i] == coordList[i] + (if i % 2 == 0 then x else y))
  {
    var cl := coordList;
    var i := 0;
    while i < |cl|
      invariant 0 <= i <= |cl| && i % 2 == 0 && |cl| == |coordList|
      invariant forall k :: 0 <= k < |cl| ==>
        cl[k] == coordList[k] + (if k < i then (if k % 2 == 0 then x else y) else 0)
    {
      cl := cl[i := cl[i] + x];
      if i + 1 >= |cl| {
        return Err(IndexError);
      }
      cl := cl[i + 1 := cl[i + 1] + y];
      i := i + 2;
    }
    return Ok(cl);
  }

  /** Shifting keeps the shape: same-axis differences do not change. */
  lemma ShiftKeepsShape(before: seq<int>, after: seq<int>, x: int, y: int)
    requires |after| == |before|
    requires forall i :: 0 <= i < |before| ==> after[i] == before[i] + (if i % 2 == 0 then x else y)
    ensures forall i, j :: 0 <= i < |before| && 0 <= j < |before| && i % 2 == j % 2 ==>
      after[i] - after[j] == before[i] - before[j]
  {
  }

  /** Where `move_by` and `move_to` are told to go: two numbers, or one
      argument that must unpack into two. */
  datatype Target = Xy(x: int, y: int) | Unpack(items: seq<int>) | Number(v: int)

  function TargetXy(t: Target): (r: Result<(int, int)>)
    ensures r.Ok? <==> t.Xy? || (t.Unpack? && |t.items| == 2)
    ensures r.Err? ==> r.error == BadParameters
    ensures r.Ok? && t.Xy? ==> r.value == (t.x, t.y)
    ensures r.Ok? && t.Unpack? ==> r.value == (t.items[0], t.items[1])
  {
    match t
    case Xy(x, y) => Ok((x, y))
    case Unpack(items) => if |items| == 2 then Ok((items[0], items[1])) else Err(BadParameters)
    case Number(_) => Err(BadParameters)
  }

  /** `move_by`: the y step is negated, since Tk's y axis points down. */
  method MoveBy(m: Movable, t: Target) returns (r: Result<Movable>)
    ensures r.Ok? <==> TargetXy(t).Ok? && |m.coordList| % 2 == 0
    ensures r.Ok? ==> var (dx, dy) := TargetXy(t).value;
      && r.value.id == m.id && r.value.round == m.round && |r.value.coordList| == |m.coordList|
      && forall i :: 0 <= i < |m.coordList| ==>
           r.value.coordList[i] == m.coordList[i] + (if i % 2 == 0 then dx else -dy)
  {
    var xy := TargetXy(t);
    if xy.Err? {
      return Err(xy.error);
    }
    var (dx, dy) := xy.value;
    var cl := AdjustCoords(m.coordList, dx, -dy);
    if cl.Err? {
      return Err(cl.error);
    }
    return Ok(m.(coordList := cl.value));
  }

  /** `move_to`: the object is shifted so that its first coordinate pair
      (for a circle, the midpoint of its box) lands on (x, ys - y). */
  method MoveTo(m: Movable, t: Target, ys: int) returns (r: Result<Movable>)
    ensures r.Ok? <==> TargetXy(t).Ok? && Coords(m).Ok? && |Coords(m).value| >= 2 && |m.coordList| % 2 == 0
    ensures r.Ok? ==> var (x, y) := TargetXy(t).value;
      && r.value.id == m.id && r.value.round == m.round
      && Coords(r.value).Ok? && |Coords(r.value).value| >= 2
      && Coords(r.value).value[..2] == [x, ys - y]
    ensures r.Ok? ==> var (x, y) := TargetXy(t).value;
      var (ox, oy) := (Coords(m).value[0], Coords(m).value[1]);
      && |r.value.coordList| == |m.coordList|
      && forall i :: 0 <= i < |m.coordList| ==>
           r.value.coordList[i] == m.coordList[i] + (if i % 2 == 0 then x - ox else (ys - y) - oy)
  {
    var xy := TargetXy(t);
    if xy.Err? {
      return Err(xy.error);
    }
    var (x, y) := xy.value;
    var tkY := ys - y;
    var co := Coords(m);
    if co.Err? {
      return Err(co.error);
    }
    if |co.value| < 2 {
      return Err(ValueError);
    }
    var (ox, oy) := (co.value[0], co.value[1]);
    var cl := AdjustCoords(m.coordList, x - ox, tkY - oy);
    if cl.Err? {
      return Err(cl.error);
    }
    r := Ok(m.(coordList := cl.value));
    if m.round {
      MidpointShift(m.coordList[0], m.coordList[2], ox, x - ox);
      MidpointShift(m.coordList[1], m.coordList[3], oy, tkY - oy);
    }
  }

  /** Moving both ends of a box by d moves its floor midpoint by d. */
  lemma MidpointShift(a: int, b: int, mid: int, d: int)
    requires 2 * mid <= a + b < 2 * mid + 2
    ensures FloorDiv(a + d + (b + d), 2) == mid + d
  {
    DivUnique(a + d + (b + d), 2, mid + d, a + b - 2 * mid);
  }
}

=== FILE: colours.dfy ===
/** The `Colour` class of module/livewires/beginners.py with its components
    held as the integers 0..255 the class itself stores.  Python's floats
    become Dafny's exact reals. */
module Colours {
  import opened Outcomes

  type Component = x: int | 0 <= x <= 255

  datatype Colour = Colour(r: Component, g: Component, b: Component)

  /** Python's `int()` on a number: truncation toward zero. */
  function Truncate(x: real): (t: int)
    ensures x >= 0.0 ==> t as real <= x < t as real + 1.0
    ensures x < 0.0 ==> t as real - 1.0 < x <= t as real
  {
    if x >= 0.0 then x.Floor else -((-x).Floor)
  }

  /** `Colour.__constrain`: round half up, then clamp to 0..255. */
  function Constrain(v: real): (r: Component)
    ensures v + 0.5 >= 255.0 ==> r == 255
    ensures v + 0.5 < 1.0 ==> r == 0
    ensures 1.0 <= v + 0.5 < 255.0 ==> r as real <= v + 0.5 < r as real + 1.0
  {
    var t := Truncate(v + 0.5);
    if t < 0 then 0 else if t > 255 then 255 else t
  }

  /** On a whole number, `__constrain` is a plain clamp. */
  lemma ConstrainInteger(k: int)
    ensures Constrain(k as real) == if k < 0 then 0 else if k > 255 then 255 else k
  {
  }

  /** `Colour(red, green, blue)` with components given as fractions of full
      intensity. */
  function Make(red: real, green: real, blue: real): (c: Colour)
    ensures c.r == Constrain(255.0 * red) && c.g == Constrain(255.0 * green) && c.b == Constrain(255.0 * blue)
  {
    Colour(Constrain(255.0 * red), Constrain(255.0 * green), Constrain(255.0 * blue))
  }

  /** A component survives the trip through `k / 255.` and back exactly. */
  lemma ComponentRoundTrip(k: Component)
    ensures Constrain(255.0 * (k as real / 255.0)) == k
  {
    assert 255.0 * (k as real / 255.0) == k as real;
    ConstrainInteger(k);
  }

  /** `Colour.__add__`: the clamped componentwise sums, rebuilt through the
      constructor. */
  function Add(a: Colour, b: Colour): (c: Colour)
    ensures c.r == (if a.r + b.r > 255 then 255 else a.r + b.r)
    ensures c.g == (if a.g + b.g > 255 then 255 else a.g + b.g)
    ensures c.b == (if a.b + b.b > 255 then 255 else a.b + b.b)
  {
    var red, green, blue := Constrain((a.r + b.r) as real), Constrain((a.g + b.g) as real), Constrain((a.b + b.b) as real);
    ConstrainInteger(a.r + b.r);
    ConstrainInteger(a.g + b.g);
    ConstrainInteger(a.b + b.b);
    ComponentRoundTrip(red);
    ComponentRoundTrip(green);
    ComponentRoundTrip(blue);
    Make(red as real / 255.0, green as real / 255.0, blue as real / 255.0)
  }

  /** Saturating addition is commutative and black is its identity. */
  lemma AddCommutes(a: Colour, b: Colour)
    ensures Add(a, b) == Add(b, a)
    ensures Add(a, Colour(0, 0, 0)) == a
  {
  }

  // ---------------------------------------------------------------------
  // Tk's colour syntax

  /** A lower-case hexadecimal digit, as `%x` writes them. */
  predicate IsHexDigit(ch: char) {
    '0' <= ch <= '9' || 'a' <= ch <= 'f'
  }

  /** The digit for 0..15. */
  function HexDigit(n: int): (c: char)
    requires 0 <= n < 16
    ensures IsHexDigit(c)
  {
    if n < 10 then ('0' as int + n) as char else ('a' as int + n - 10) as char
  }

  /** `%02x` of a component: exactly two digits, high one first. */
  function Hex2(v: Component): (s: string)
    ensures |s| == 2 && IsHexDigit(s[0]) && IsHexDigit(s[1])
  {
    [HexDigit(v / 16), HexDigit(v % 16)]
  }

  /** `Colour._toTk`: `#rrggbb`. */
  function ToTk(c: Colour): (s: string)
    ensures |s| == 7 && s[0] == '#'
    ensures forall i :: 1 <= i < 7 ==> IsHexDigit(s[i])
  {
    "#" + Hex2(c.r) + Hex2(c.g) + Hex2(c.b)
  }

  /** The value of one hexadecimal digit, the inverse of `HexDigit`. */
  function DigitValue(ch: char): (r: Option<int>)
    ensures r.Some? <==> IsHexDigit(ch)
    ensures r.Some? ==> 0 <= r.value < 16 && HexDigit(r.value) == ch
  {
    if '0' <= ch <= '9' then Some(ch as int - '0' as int)
    else if 'a' <= ch <= 'f' then Some(ch as int - 'a' as int + 10)
    else None
  }

  /** Two digits back to a component. */
  function ParseHex2(hi: char, lo: char): (r: Option<Component>)
    ensures r.Some? <==> IsHexDigit(hi) && IsHexDigit(lo)
  {
    match (DigitValue(hi), DigitValue(lo))
    case (Some(h), Some(l)) => Some(h * 16 + l)
    case _ => None
  }

  /** Reading Tk's `#rrggbb` form. */
  function ParseTk(s: string): (r: Option<Colour>)
    ensures r.Some? <==> (|s| == 7 && s[0] == '#' && IsHexDigit(s[1]) && IsHexDigit(s[2])
      && IsHexDigit(s[3]) && IsHexDigit(s[4]) && IsHexDigit(s[5]) && IsHexDigit(s[6]))
  {
    if |s| != 7 || s[0] != '#' then None
    else match (ParseHex2(s[1], s[2]), ParseHex2(s[3], s[4]), ParseHex2(s[5], s[6]))
      case (Some(red), Some(green), Some(blue)) => Some(Colour(red, green, blue))
      case _ => None
  }

  /** Two digits written by `Hex2` read back as the component. */
  lemma Hex2RoundTrip(v: Component)
    ensures ParseHex2(Hex2(v)[0], Hex2(v)[1]) == Some(v)
  {
    var h, l := v / 16, v % 16;
    assert DigitValue(HexDigit(h)) == Some(h) && DigitValue(HexDigit(l)) == Some(l);
    assert v == h * 16 + l;
  }

  /** Two digits read by `ParseHex2` are written back the same way. */
  lemma ParseHex2RoundTrip(hi: char, lo: char)
    requires ParseHex2(hi, lo).Some?
    ensures Hex2(ParseHex2(hi, lo).value) == [hi, lo]
  {
    var h, l := DigitValue(hi).value, DigitValue(lo).value;
    var v := h * 16 + l;
    assert v / 16 == h && v % 16 == l;
  }

  /** `_toTk` loses nothing: parsing its output recovers the colour. */
  lemma TkRoundTrip(c: Colour)
    ensures ParseTk(ToTk(c)) == Some(c)
  {
    var s := ToTk(c);
    assert s[1..3] == Hex2(c.r) && s[3..5] == Hex2(c.g) && s[5..7] == Hex2(c.b);
    Hex2RoundTrip(c.r);
    Hex2RoundTrip(c.g);
    Hex2RoundTrip(c.b);
  }

  /** And every Tk colour in that form is the image of exactly one colour. */
  lemma ParseTkRoundTrip(s: string)
    requires ParseTk(s).Some?
    ensures ToTk(ParseTk(s).value) == s
  {
    ParseHex2RoundTrip(s[1], s[2]);
    ParseHex2RoundTrip(s[3], s[4]);
    ParseHex2RoundTrip(s[5], s[6]);
  }
}

=== FILE: common.dfy ===
/** Failure-carrying results and the few Python semantics the model needs
    spelled out (floor division, list indexing, first-index search). */
module Outcomes {

  /** The exceptions the modelled code raises, by the name Python gives them. */
  datatype Error =
    | ValueError        // list.remove / list.index of an absent element, bad unpacking
    | IndexError        // subscript out of range
    | TypeError         // arithmetic on a tuple, unpacking a scalar
    | NameError         // reference to an undefined name
    | AttributeError    // attribute of None
    | ZeroDivisionError
    | PygameError       // pygame.error
    | GamesError        // games.GamesError
    | BadParameters     // beginners.ExBadParameters
    | Unimplemented     // beginners.ExUnimplemented

  datatype Option<+T> = None | Some(value: T)

  datatype Result<+T> = Ok(value: T) | Err(error: Error) {
    predicate IsFailure() { Err? }
    function PropagateFailure<U>(): Result<U>
      requires Err?
    {
      Err(error)
    }
    function Extract(): T
      requires Ok?
    {
      value
    }
  }

  /** Python's `a // b`, which rounds towards minus infinity for either sign of `b`. */
  function FloorDiv(a: int, b: int): (q: int)
    requires b != 0
    ensures b > 0 ==> q * b <= a < q * b + b
    ensures b < 0 ==> q * b >= a > q * b + b
  {
    if b > 0 then a / b else (-a) / (-b)
  }

  /** Division with a positive divisor is determined by quotient and remainder. */
  lemma DivUnique(a: int, n: int, q: int, r: int)
    requires n > 0 && 0 <= r < n && a == q * n + r
    ensures a / n == q && a % n == r
  {
    var q', r' := a / n, a % n;
    assert (q - q') * n == r' - r;
    MulAtLeast(q - q', n);
    MulAtLeast(q' - q, n);
  }

  lemma MulAtLeast(d: int, n: int)
    requires n > 0
    ensures d >= 1 ==> d * n >= n
  {
    if d >= 1 {
      assert d * n == n + (d - 1) * n;
      assert (d - 1) * n >= 0;
    }
  }

  /** Adding after reducing modulo `n` lands where adding first does. */
  lemma ModAddShift(a: int, k: int, n: int)
    requires n > 0
    ensures ((a % n) + k) % n == (a + k) % n
  {
    var q := a / n;
    var m := (a % n + k) % n;
    var q2 := (a % n + k) / n;
    assert a % n + k == q2 * n + m;
    assert a + k == (q + q2) * n + m;
    DivUnique(a + k, n, q + q2, m);
  }

  /** Python's `xs.index(x)`: the first position of `x`. */
  function IndexOf<T(==)>(xs: seq<T>, x: T): (i: nat)
    requires x in xs
    ensures i < |xs| && xs[i] == x
    ensures x !in xs[..i]
  {
    if xs[0] == x then 0 else 1 + IndexOf(xs[1..], x)
  }

  /** Python's `xs[i]` for an `i` that may be negative. */
  function PyIndex<T>(xs: seq<T>, i: int): (r: Result<T>)
    ensures r.Ok? <==> -|xs| <= i < |xs|
    ensures r.Ok? && i >= 0 ==> r.value == xs[i]
    ensures r.Ok? && i < 0 ==> r.value == xs[|xs| + i]
  {
    if 0 <= i < |xs| then Ok(xs[i])
    else if -|xs| <= i < 0 then Ok(xs[|xs| + i])
    else Err(IndexError)
  }
}

=== FILE: copying.dfy ===
/** sheets/mkcopying.py: for each LaTeX sheet, the title from its first
    `\sheet{A}{B}` line and the copyright notices on the lines after it;
    then one report, titles in sorted order.  A file is its sequence of
    lines without their terminators. */
module Copying {
  import opened Outcomes

  /** One line as `readline` returns it, less its newline. */
  type Line = s: string | '\n' !in s

  const SheetTag: string := "\\sheet{"
  const CopyrightTag: string := "\\copyright{}"

  /** `p` starts `s`: what an anchored `match` of a literal checks. */
  predicate Prefix(p: string, s: string) {
    |p| <= |s| && forall k :: 0 <= k < |p| ==> s[k] == p[k]
  }

  // ---------------------------------------------------------------------
  // TitleMatcher: ^\\sheet{(.*?)}{(.*?)}

  /** The first `}` at or after position `from`. */
  function FirstClose(s: string, from: nat): (r: Option<nat>)
    ensures r.Some? ==> from <= r.value < |s| && s[r.value] == '}'
    ensures forall k :: from <= k < |s| && (r.None? || k < r.value) ==> s[k] != '}'
    decreases |s| - from
  {
    if from >= |s| then None
    else if s[from] == '}' then Some(from)
    else FirstClose(s, from + 1)
  }

  /** Where the lazy first group may stop: a `}{` with a `}` somewhere after
      it for the lazy second group to stop at. */
  predicate Candidate(s: string, k: nat) {
    k + 2 <= |s| && s[k] == '}' && s[k + 1] == '{' && FirstClose(s, k + 2).Some?
  }

  /** The regular expression engine's search: the first group is tried at
      every length from the shortest up, the second likewise. */
  function Split(s: string, i: nat): (r: Option<(nat, nat)>)
    ensures r.Some? ==> var (a, j) := r.value;
      && i <= a && Candidate(s, a) && FirstClose(s, a + 2) == Some(j)
      && forall k :: i <= k < a ==> !Candidate(s, k)
    ensures r.None? ==> forall k :: i <= k ==> !Candidate(s, k)
    decreases |s| - i
  {
    if i + 2 > |s| then None
    else if Candidate(s, i) then Some((i, FirstClose(s, i + 2).value))
    else Split(s, i + 1)
  }

  /** `TitleMatcher.match(line)` and `string.join(groups, ": ")`. */
  function MatchTitle(line: string): (r: Option<string>)
    ensures r.Some? <==> Prefix(SheetTag, line) && Split(line[|SheetTag|..], 0).Some?
    ensures r.Some? ==> var rest := line[|SheetTag|..]; var (a, j) := Split(rest, 0).value;
      r.value == rest[..a] + ": " + rest[a + 2..j]
  {
    if !Prefix(SheetTag, line) then None
    else
      var rest := line[|SheetTag|..];
      match Split(rest, 0)
      case None => None
      case Some((a, j)) => Some(rest[..a] + ": " + rest[a + 2..j])
  }

  /** Any line of the form `\sheet{A}{B}...` with no `}` inside B matches. */
  lemma TitleMatches(a: string, b: string, tail: string)
    requires '}' !in b
    ensures MatchTitle(SheetTag + a + "}{" + b + "}" + tail).Some?
  {
    var rest := a + "}{" + b + "}" + tail;
    TitleLine(a, b, tail);
    TagThen(SheetTag, rest);
    PlainLineLayout(a, b, tail);
    assert FirstClose(rest, |a| + 2).Some?;
    assert Candidate(rest, |a|);
  }

  /** When neither group needs to look past a `}`, the title is `A: B`. */
  lemma TitleOfPlainLine(a: string, b: string, tail: string)
    requires '}' !in a && '}' !in b
    ensures MatchTitle(SheetTag + a + "}{" + b + "}" + tail) == Some(a + ": " + b)
  {
    var rest := a + "}{" + b + "}" + tail;
    PlainSplit(a, b, tail);
    TitleAfterTag(rest, |a|, |a| + 2 + |b|);
    calc {
      MatchTitle(SheetTag + a + "}{" + b + "}" + tail);
      { TitleLine(a, b, tail); }
      MatchTitle(SheetTag + rest);
      Some(rest[..|a|] + ": " + rest[|a| + 2..|a| + 2 + |b|]);
      Some(a + ": " + b);
    }
  }

  /** A title line is the tag followed by the rest of the line. */
  lemma TitleLine(a: string, b: string, tail: string)
    ensures SheetTag + a + "}{" + b + "}" + tail == SheetTag + (a + "}{" + b + "}" + tail)
  {
  }

  /** The title of the tag followed by `rest` comes from how `rest` splits. */
  lemma TitleAfterTag(rest: string, a: nat, j: nat)
    requires Split(rest, 0) == Some((a, j))
    ensures MatchTitle(SheetTag + rest) == Some(rest[..a] + ": " + rest[a + 2..j])
  {
    TagThen(SheetTag, rest);
  }

  /** A line that starts with the tag is the tag and then the rest. */
  lemma TagThen(tag: string, rest: string)
    ensures Prefix(tag, tag + rest) && (tag + rest)[|tag|..] == rest
  {
  }

  /** The search splits `A}{B}tail` after A and B. */
  lemma PlainSplit(a: string, b: string, tail: string)
    requires '}' !in a && '}' !in b
    ensures var rest := a + "}{" + b + "}" + tail;
      && Split(rest, 0) == Some((|a|, |a| + 2 + |b|))
      && rest[..|a|] == a && rest[|a| + 2..|a| + 2 + |b|] == b
  {
    var rest := a + "}{" + b + "}" + tail;
    PlainLineLayout(a, b, tail);
    forall k | 0 <= k < |a| ensures !Candidate(rest, k) { assert rest[k] == a[k]; }
    FirstCloseIs(rest, |a| + 2, |a| + 2 + |b|);
    SplitFinds(rest, 0, |a|);
  }

  /** Where the pieces of `A}{B}tail` sit. */
  lemma PlainLineLayout(a: string, b: string, tail: string)
    requires '}' !in b
    ensures var rest := a + "}{" + b + "}" + tail;
      && rest[|a|] == '}' && rest[|a| + 1] == '{' && rest[|a| + 2 + |b|] == '}'
      && (forall k :: 0 <= k < |a| ==> rest[k] == a[k])
      && (forall k :: |a| + 2 <= k < |a| + 2 + |b| ==> rest[k] != '}')
      && rest[..|a|] == a && rest[|a| + 2..|a| + 2 + |b|] == b
  {
    var rest := a + "}{" + b + "}" + tail;
    assert rest == a + ("}{" + b + "}" + tail);
    forall k | |a| + 2 <= k < |a| + 2 + |b| ensures rest[k] != '}' {
      assert rest[k] == b[k - |a| - 2];
    }
    assert rest[..|a|] == a;
    assert rest[|a| + 2..|a| + 2 + |b|] == b;
  }

  /** The search stops at the first candidate. */
  lemma {:induction false} SplitFinds(s: string, i: nat, a: nat)
    requires i <= a && Candidate(s, a) && forall k :: i <= k < a ==> !Candidate(s, k)
    ensures Split(s, i) == Some((a, FirstClose(s, a + 2).value))
    decreases a - i
  {
    if i < a {
      SplitFinds(s, i + 1, a);
    }
  }

  /** The first `}` is where one stands with none before it. */
  lemma {:induction false} FirstCloseIs(s: string, from: nat, j: nat)
    requires from <= j < |s| && s[j] == '}' && forall k :: from <= k < j ==> s[k] != '}'
    ensures FirstClose(s, from) == Some(j)
    decreases j - from
  {
    if from < j {
      FirstCloseIs(s, from + 1, j);
    }
  }

  // ---------------------------------------------------------------------
  // CopyrightMatcher: ^\s*\\copyright{}\s*(.*)$

  /** Python's `\s` on a byte string: blank, tab, newline, carriage
      return, form feed (12) and vertical tab (11). */
  predicate IsSpace(c: char) {
    c == ' ' || c == '\t' || c == '\n' || c == '\r' || c as int == 12 || c as int == 11
  }

  /** What a greedy `\s*` leaves. */
  function DropSpace(s: string): (r: string)
    ensures |r| <= |s| && r == s[|s| - |r|..]
    ensures forall k :: 0 <= k < |s| - |r| ==> IsSpace(s[k])
    ensures |r| > 0 ==> !IsSpace(r[0])
  {
    if |s| > 0 && IsSpace(s[0]) then
      var r := DropSpace(s[1..]);
      assert s[1..][|s| - 1 - |r|..] == s[|s| - |r|..];
      assert forall k :: 1 <= k < |s| - |r| ==> s[k] == s[1..][k - 1];
      r
    else s
  }

  /** `CopyrightMatcher.match(line).group(1)`. */
  function MatchCopyright(line: string): (r: Option<string>)
    ensures r.Some? ==> |r.value| <= |line| - |CopyrightTag| && Suffix(r.value, line)
    ensures r.Some? && |r.value| > 0 ==> !IsSpace(r.value[0])
  {
    AfterBlanksShape(CopyrightTag, line);
    AfterBlanks(CopyrightTag, line)
  }

  /** Skip the leading blanks, expect `tag` there, skip the blanks after it
      and take the rest of the line. */
  function AfterBlanks(tag: string, line: string): Option<string> {
    var s := DropSpace(line);
    if Prefix(tag, s) then Some(DropSpace(s[|tag|..])) else None
  }

  /** The copyright matcher accepts a line exactly when the tag follows
      its leading blanks, and the notice is the tail of the line after the
      tag and the blanks that follow it: it never starts with a blank. */
  lemma CopyrightShape(line: string)
    ensures var n := |line| - |DropSpace(line)|; var r := MatchCopyright(line);
      && (r.Some? <==> Prefix(CopyrightTag, line[n..]))
      && (r.Some? ==> n + |CopyrightTag| <= |line| && r.value == DropSpace(line[n + |CopyrightTag|..]))
      && (r.Some? ==> |r.value| <= |line| - |CopyrightTag| && Suffix(r.value, line))
      && (r.Some? && |r.value| > 0 ==> !IsSpace(r.value[0]))
  {
    AfterBlanksShape(CopyrightTag, line);
  }

  lemma AfterBlanksShape(tag: string, line: string)
    ensures var n := |line| - |DropSpace(line)|; var r := AfterBlanks(tag, line);
      && (r.Some? <==> Prefix(tag, line[n..]))
      && (r.Some? ==> n + |tag| <= |line| && r.value == DropSpace(line[n + |tag|..]))
      && (r.Some? ==> |r.value| <= |line| - |tag| && Suffix(r.value, line))
      && (r.Some? && |r.value| > 0 ==> !IsSpace(r.value[0]))
  {
    var s := DropSpace(line);
    BlanksAreSkipped(line);
    if Prefix(tag, s) {
      AfterTag(line, s, |tag|);
    }
  }

  /** `v` ends `s`. */
  predicate Suffix(v: string, s: string) {
    |v| <= |s| && s[|s| - |v|..] == v
  }

  /** What `\s*` leaves is the tail of the line after its blanks. */
  lemma BlanksAreSkipped(line: string)
    ensures Suffix(DropSpace(line), line)
  {
  }

  /** Where the notice sits once the tag has been found in `s`, a tail of
      the line. */
  lemma AfterTag(line: string, s: string, m: nat)
    requires Suffix(s, line) && m <= |s|
    ensures var v := DropSpace(s[m..]);
      v == DropSpace(line[|line| - |s| + m..]) && Suffix(v, line)
  {
    var n := |line| - |s|;
    var t := s[m..];
    TailOfTail(line, n, m);
    var v := DropSpace(t);
    TailOfTail(line, n + m, |t| - |v|);
  }

  /** A tail of a tail is a tail. */
  lemma TailOfTail(a: string, n: nat, m: nat)
    requires n + m <= |a|
    ensures a[n..][m..] == a[n + m..]
  {
  }

  /** Leading blanks, the tag, blanks, then the notice: the notice is what
      is returned. */
  lemma CopyrightMatches(lead: string, gap: string, notice: string)
    requires forall k :: 0 <= k < |lead| ==> IsSpace(lead[k])
    requires forall k :: 0 <= k < |gap| ==> IsSpace(gap[k])
    requires |notice| > 0 ==> !IsSpace(notice[0])
    ensures MatchCopyright(lead + CopyrightTag + gap + notice) == Some(notice)
  {
    var t := CopyrightTag;
    var after := t + (gap + notice);
    assert lead + t + gap + notice == lead + after;
    assert after[0] == '\\';
    SkipSpace(lead, after);
    assert after[|t|..] == gap + notice;
    SkipSpace(gap, notice);
  }

  /** `\s*` consumes exactly the blanks in front of a non-blank. */
  lemma {:induction false} SkipSpace(blanks: string, s: string)
    requires forall k :: 0 <= k < |blanks| ==> IsSpace(blanks[k])
    requires |s| > 0 ==> !IsSpace(s[0])
    ensures DropSpace(blanks + s) == DropSpace(s) == s
    decreases |blanks|
  {
    if |blanks| > 0 {
      assert (blanks + s)[1..] == blanks[1..] + s;
      SkipSpace(blanks[1..], s);
    }
  }

  // ---------------------------------------------------------------------
  // Reading one sheet

  /** `gettitle`: read lines up to and including the first that matches;
      `used` is how many lines it read, all of them when none matches. */
  function GetTitle(lines: seq<Line>): (r: (Option<string>, nat))
    ensures r.1 <= |lines|
    ensures r.0.Some? ==> r.1 >= 1 && MatchTitle(lines[r.1 - 1]) == r.0
    ensures forall k :: 0 <= k < |lines| && (r.0.None? || k < r.1 - 1) ==> MatchTitle(lines[k]).None?
    ensures r.0.None? ==> r.1 == |lines|
  {
    if |lines| == 0 then (None, 0)
    else if MatchTitle(lines[0]).Some? then (MatchTitle(lines[0]), 1)
    else
      var (t, used) := GetTitle(lines[1..]);
      (t, used + 1)
  }

  /** `getcopyrights`: the notices of the matching lines, in order. */
  function GetCopyrights(lines: seq<Line>): (r: seq<string>)
    ensures |r| <= |lines|
    ensures (forall k :: 0 <= k < |lines| ==> MatchCopyright(lines[k]).None?) ==> r == []
    ensures |lines| > 0 && MatchCopyright(lines[0]).Some? ==> |r| > 0 && r[0] == MatchCopyright(lines[0]).value
    decreases |lines|
  {
    if |lines| == 0 then []
    else
      var rest := GetCopyrights(lines[1..]);
      match MatchCopyright(lines[0])
      case Some(notice) => [notice] + rest
      case None => rest
  }

  /** Reading notices is reading them piece by piece. */
  lemma {:induction false} CopyrightsAppend(a: seq<Line>, b: seq<Line>)
    ensures GetCopyrights(a + b) == GetCopyrights(a) + GetCopyrights(b)
    decreases |a|
  {
    if |a| > 0 {
      assert (a + b)[0] == a[0];
      assert (a + b)[1..] == a[1..] + b;
      CopyrightsAppend(a[1..], b);
      var rest := GetCopyrights((a + b)[1..]);
      assert GetCopyrights(a + b) == (if MatchCopyright(a[0]).Some? then [MatchCopyright(a[0]).value] else []) + rest;
      assert GetCopyrights(a) == (if MatchCopyright(a[0]).Some? then [MatchCopyright(a[0]).value] else []) + GetCopyrights(a[1..]);
    } else {
      assert a + b == b;
    }
  }

  /** One file: the title, then the notices in the lines after it, from
      the same handle. */
  function Sheet(lines: seq<Line>): (r: (Option<string>, seq<string>))
    ensures r.0 == GetTitle(lines).0
  {
    var (title, used) := GetTitle(lines);
    (title, GetCopyrights(lines[used..]))
  }

  /** Notices above the title line are never collected. */
  lemma SheetIgnoresPreamble(pre: seq<Line>, titleLine: Line, post: seq<Line>)
    requires forall k :: 0 <= k < |pre| ==> MatchTitle(pre[k]).None?
    requires MatchTitle(titleLine).Some?
    ensures Sheet(pre + [titleLine] + post) == (MatchTitle(titleLine), GetCopyrights(post))
  {
    var lines := pre + [titleLine] + post;
    TitleAfterPreamble(pre, titleLine, post);
    assert lines[|pre| + 1..] == post;
  }

  /** `gettitle` reads through the preamble and stops at the title line. */
  lemma {:induction false} TitleAfterPreamble(pre: seq<Line>, titleLine: Line, post: seq<Line>)
    requires forall k :: 0 <= k < |pre| ==> MatchTitle(pre[k]).None?
    requires MatchTitle(titleLine).Some?
    ensures GetTitle(pre + [titleLine] + post) == (MatchTitle(titleLine), |pre| + 1)
    decreases |pre|
  {
    var lines := pre + [titleLine] + post;
    if |pre| == 0 {
      assert lines[0] == titleLine;
    } else {
      assert lines[0] == pre[0];
      assert lines[1..] == pre[1..] + [titleLine] + post;
      TitleAfterPreamble(pre[1..], titleLine, post);
    }
  }

  /** A file without a title line is filed under no title with no notices. */
  lemma UntitledSheet(lines: seq<Line>)
    requires forall k :: 0 <= k < |lines| ==> MatchTitle(lines[k]).None?
    ensures Sheet(lines) == (None, [])
  {
    assert GetTitle(lines).0.None?;
  }

  // ---------------------------------------------------------------------
  // The report

  /** What the script reads from each file: its title and notices. */
  type Entry = (Option<string>, seq<string>)

  function Sheets(files: seq<seq<Line>>): (r: seq<Entry>)
    ensures |r| == |files| && forall i :: 0 <= i < |files| ==> r[i] == Sheet(files[i])
  {
    seq(|files|, i requires 0 <= i < |files| => Sheet(files[i]))
  }

  /** The `copyrights` dictionary after the given files, in order: one
      entry per title. */
  function Collect(sheets: seq<Entry>): (m: map<Option<string>, seq<string>>)
    ensures m.Keys == set i | 0 <= i < |sheets| :: sheets[i].0
  {
    if |sheets| == 0 then map[]
    else
      var prefix := sheets[..|sheets| - 1];
      var (title, notices) := sheets[|sheets| - 1];
      assert forall i :: 0 <= i < |prefix| ==> prefix[i] == sheets[i];
      Collect(prefix)[title := notices]
  }

  /** A later file with the same title replaces an earlier one's notices. */
  lemma {:induction false} LastFileWins(sheets: seq<Entry>, i: nat)
    requires i < |sheets|
    requires forall k :: i < k < |sheets| ==> sheets[k].0 != sheets[i].0
    ensures Collect(sheets)[sheets[i].0] == sheets[i].1
  {
    if i < |sheets| - 1 {
      var prefix := sheets[..|sheets| - 1];
      assert forall k :: i <= k < |prefix| ==> prefix[k] == sheets[k];
      LastFileWins(prefix, i);
    }
  }

  /** Python 2's ordering of the keys: `None` first, then strings by
      character code, a proper prefix first. */
  predicate StrLess(a: string, b: string) {
    if |a| == 0 then |b| > 0
    else if |b| == 0 then false
    else a[0] < b[0] || (a[0] == b[0] && StrLess(a[1..], b[1..]))
  }

  predicate KeyLess(a: Option<string>, b: Option<string>) {
    match (a, b)
    case (None, Some(_)) => true
    case (Some(s), Some(t)) => StrLess(s, t)
    case _ => false
  }

  lemma {:induction false} StrLessTotal(a: string, b: string)
    ensures !StrLess(a, a)
    ensures a != b ==> StrLess(a, b) || StrLess(b, a)
    ensures !(StrLess(a, b) && StrLess(b, a))
  {
    if |a| > 0 && |b| > 0 {
      StrLessTotal(a[1..], b[1..]);
      StrLessTotal(a[1..], a[1..]);
      if a != b && a[0] == b[0] {
        assert a == [a[0]] + a[1..] && b == [b[0]] + b[1..];
      }
    } else if |a| > 0 {
      StrLessTotal(a[1..], a[1..]);
    }
  }

  lemma {:induction false} StrLessTransitive(a: string, b: string, c: string)
    requires StrLess(a, b) && StrLess(b, c)
    ensures StrLess(a, c)
  {
    if |a| > 0 && a[0] == b[0] && b[0] == c[0] {
      StrLessTransitive(a[1..], b[1..], c[1..]);
    }
  }

  lemma KeyLessTotal(a: Option<string>, b: Option<string>)
    ensures !KeyLess(a, a)
    ensures a != b ==> KeyLess(a, b) || KeyLess(b, a)
  {
    if a.Some? && b.Some? {
      StrLessTotal(a.value, b.value);
    } else if a.Some? {
      StrLessTotal(a.value, a.value);
    }
  }

  lemma KeyLessTransitive(a: Option<string>, b: Option<string>, c: Option<string>)
    requires KeyLess(a, b) && KeyLess(b, c)
    ensures KeyLess(a, c)
  {
    if a.Some? {
      StrLessTransitive(a.value, b.value, c.value);
    }
  }

  ghost predicate Sorted(keys: seq<Option<string>>) {
    forall i, j :: 0 <= i < j < |keys| ==> KeyLess(keys[i], keys[j])
  }

  /** One step of `keylist.sort()` on the dictionary's keys: put a key in
      its place, once. */
  function Insert(t: Option<string>, keys: seq<Option<string>>): (r: seq<Option<string>>)
    requires Sorted(keys)
    ensures Sorted(r)
    ensures forall k :: k in r <==> k == t || k in keys
  {
    if |keys| == 0 then [t]
    else if t == keys[0] then keys
    else if KeyLess(t, keys[0]) then
      forall j | 0 <= j < |keys| ensures KeyLess(t, keys[j]) {
        if j > 0 { KeyLessTransitive(t, keys[0], keys[j]); }
      }
      [t] + keys
    else
      KeyLessTotal(t, keys[0]);
      var tail := Insert(t, keys[1..]);
      assert forall k :: k in tail ==> KeyLess(keys[0], k);
      [keys[0]] + tail
  }

  /** The sorted key list of the dictionary built from these files. */
  function SortedTitles(sheets: seq<Entry>): (r: seq<Option<string>>)
    ensures Sorted(r)
    ensures forall k :: k in r <==> k in Collect(sheets)
    ensures |sheets| > 0 ==> |r| > 0
  {
    if |sheets| == 0 then []
    else
      var prefix := sheets[..|sheets| - 1];
      assert forall i :: 0 <= i < |prefix| ==> prefix[i] == sheets[i];
      Insert(sheets[|sheets| - 1].0, SortedTitles(prefix))
  }

  /** How `print` shows a key. */
  function TitleText(t: Option<string>): string {
    match t
    case None => "None"
    case Some(s) => s
  }

  /** One title's block: the title, a line per notice, a blank line. */
  function Section(t: Option<string>, notices: seq<string>): (r: seq<string>)
    ensures |r| == |notices| + 2 && r[0] == TitleText(t) && r[|r| - 1] == ""
    ensures forall k :: 0 <= k < |notices| ==> r[k + 1] == "    Copyright " + notices[k]
  {
    [TitleText(t)] + seq(|notices|, k requires 0 <= k < |notices| => "    Copyright " + notices[k]) + [""]
  }

  const Header: seq<string> := [
    "The copyright notices for each document in this distribution",
    "are as follows:",
    ""]

  function Sections(keys: seq<Option<string>>, m: map<Option<string>, seq<string>>): (r: seq<string>)
    requires forall k :: k in keys ==> k in m
    ensures |keys| > 0 ==> |r| >= 2 && r[0] == TitleText(keys[0])
  {
    if |keys| == 0 then [] else Section(keys[0], m[keys[0]]) + Sections(keys[1..], m)
  }

  /** The report the script prints, line by line. */
  function Report(files: seq<seq<Line>>): (r: seq<string>)
    ensures |r| >= 3 && r[..3] == Header
    ensures |files| > 0 ==> |r| > 3 && r[3] == TitleText(SortedTitles(Sheets(files))[0])
  {
    var sheets := Sheets(files);
    var keys := SortedTitles(sheets);
    Header + Sections(keys, Collect(sheets))
  }

  /** Every title some file carries is printed. */
  lemma ReportNamesEveryTitle(files: seq<seq<Line>>, i: nat)
    requires i < |files|
    ensures TitleText(Sheet(files[i]).0) in Report(files)
  {
    var t := Sheet(files[i]).0;
    var keys := SortedTitles(Sheets(files));
    assert Sheets(files)[i].0 == t;
    SectionsName(keys, Collect(Sheets(files)), t);
    assert Report(files) == Header + Sections(keys, Collect(Sheets(files)));
  }

  lemma {:induction false} SectionsName(keys: seq<Option<string>>, m: map<Option<string>, seq<string>>, t: Option<string>)
    requires forall k :: k in keys ==> k in m
    requires t in keys
    ensures TitleText(t) in Sections(keys, m)
  {
    if keys[0] == t {
      assert Sections(keys, m)[0] == TitleText(t);
    } else {
      SectionsName(keys[1..], m, t);
      var r := Sections(keys, m);
      assert r == Section(keys[0], m[keys[0]]) + Sections(keys[1..], m);
    }
  }
}

=== FILE: directions.dfy ===
/** The eight compass directions of module/livewires/boards.py, numbered
    LEFT, UP_LEFT, UP, UP_RIGHT, RIGHT, DOWN_RIGHT, DOWN, DOWN_LEFT, so that
    adding one turns 45 degrees clockwise on a screen whose y axis points
    down. */
module Directions {
  import opened Outcomes

  type Direction = d: int | 0 <= d < 8

  const Left: Direction := 0
  const UpLeft: Direction := 1
  const Up: Direction := 2
  const UpRight: Direction := 3
  const Right: Direction := 4
  const DownRight: Direction := 5
  const Down: Direction := 6
  const DownLeft: Direction := 7

  /** `turn_45_clockwise`; any integer is accepted, as in the source. */
  function Turn45Clockwise(d: int): (r: Direction)
    ensures 0 <= d < 7 ==> r == d + 1
    ensures d == 7 ==> r == 0
  {
    (d + 1) % 8
  }

  /** `turn_45_anticlockwise`: Python's `%` with a positive divisor never
      yields a negative result, like Dafny's. */
  function Turn45Anticlockwise(d: int): (r: Direction)
    ensures 0 < d < 8 ==> r == d - 1
    ensures d == 0 ==> r == 7
  {
    (d - 1) % 8
  }

  /** `turn_90_clockwise`: two 45-degree turns. */
  function Turn90Clockwise(d: int): (r: Direction)
    ensures r == Turn45Clockwise(Turn45Clockwise(d))
  {
    ModShift(d + 1, 1);
    (d + 2) % 8
  }

  /** `turn_90_anticlockwise`: two 45-degree turns the other way. */
  function Turn90Anticlockwise(d: int): (r: Direction)
    ensures r == Turn45Anticlockwise(Turn45Anticlockwise(d))
  {
    ModShift(d - 1, -1);
    (d - 2) % 8
  }

  /** `turn_180`: two 90-degree turns. */
  function Turn180(d: int): (r: Direction)
    ensures r == Turn90Clockwise(Turn90Clockwise(d))
  {
    ModShift(d + 2, 2);
    (d + 4) % 8
  }

  /** Reducing modulo 8 first does not change where a turn lands. */
  lemma ModShift(d: int, k: int)
    ensures ((d % 8) + k) % 8 == (d + k) % 8
  {
    ModAddShift(d, k, 8);
  }

  /** The two 45-degree turns undo each other, from any integer. */
  lemma TurnsInverse(d: int)
    ensures Turn45Anticlockwise(Turn45Clockwise(d)) == d % 8
    ensures Turn45Clockwise(Turn45Anticlockwise(d)) == d % 8
    ensures Turn90Anticlockwise(Turn90Clockwise(d)) == d % 8
  {
    ModShift(d + 1, -1);
    ModShift(d - 1, 1);
    ModShift(d + 2, -2);
    ModShift(d, 0);
  }

  /** Turning round twice is no turn at all. */
  lemma Turn180Involution(d: int)
    ensures Turn180(Turn180(d)) == d % 8
  {
    ModShift(d + 4, 4);
    ModShift(d, 8);
  }

  /** The one-cell step of each direction, with y growing downwards. */
  function Delta(d: Direction): (r: (int, int))
    ensures -1 <= r.0 <= 1 && -1 <= r.1 <= 1 && r != (0, 0)
    ensures d % 2 == 0 <==> r.0 == 0 || r.1 == 0
  {
    match d
    case 0 => (-1, 0)
    case 1 => (-1, -1)
    case 2 => (0, -1)
    case 3 => (1, -1)
    case 4 => (1, 0)
    case 5 => (1, 1)
    case 6 => (0, 1)
    case _ => (-1, 1)
  }

  /** Turning round reverses the step. */
  lemma Turn180Opposite(d: Direction)
    ensures Delta(Turn180(d)) == (-Delta(d).0, -Delta(d).1)
  {
  }

  /** Every unit step has exactly one direction. */
  lemma DeltaOnto(dx: int, dy: int)
    requires -1 <= dx <= 1 && -1 <= dy <= 1 && (dx, dy) != (0, 0)
    ensures exists d: Direction :: Delta(d) == (dx, dy)
    ensures forall d: Direction, e: Direction :: Delta(d) == (dx, dy) && Delta(e) == (dx, dy) ==> d == e
  {
    if dx == -1 && dy == 0 { assert Delta(0) == (dx, dy); }
    else if dx == -1 && dy == -1 { assert Delta(1) == (dx, dy); }
    else if dx == 0 && dy == -1 { assert Delta(2) == (dx, dy); }
    else if dx == 1 && dy == -1 { assert Delta(3) == (dx, dy); }
    else if dx == 1 && dy == 0 { assert Delta(4) == (dx, dy); }
    else if dx == 1 && dy == 1 { assert Delta(5) == (dx, dy); }
    else if dx == 0 && dy == 1 { assert Delta(6) == (dx, dy); }
    else { assert Delta(7) == (dx, dy); }
  }
}

=== FILE: draw_order.dfy ===
/** The Screen's list of objects in play, as a back-to-front sequence
    (later entries are drawn on top).  The operations are those of
    module/livewires/games.py, written over any element type with
    equality, since Python compares the objects by identity. */
module DrawOrder {
  import opened Outcomes

  /** No element occurs twice. */
  predicate Distinct<T(==,!new)>(xs: seq<T>) {
    forall i, j :: 0 <= i < j < |xs| ==> xs[i] != xs[j]
  }

  /** The elements of `xs` not in `s`, in their original order. */
  function FilterOut<T(==,!new)>(xs: seq<T>, s: set<T>): (r: seq<T>)
    ensures forall x :: x in r <==> x in xs && x !in s
    ensures |r| <= |xs|
  {
    if xs == [] then []
    else if xs[0] in s then FilterOut(xs[1..], s)
    else [xs[0]] + FilterOut(xs[1..], s)
  }

  function Elems<T>(xs: seq<T>): set<T> {
    set x | x in xs
  }

  lemma {:induction false} FilterOutAppend<T(!new)>(a: seq<T>, b: seq<T>, s: set<T>)
    ensures FilterOut(a + b, s) == FilterOut(a, s) + FilterOut(b, s)
  {
    if a == [] {
      assert a + b == b;
    } else {
      assert (a + b)[1..] == a[1..] + b;
      FilterOutAppend(a[1..], b, s);
    }
  }

  /** Filtering out a set that holds none of the elements changes nothing. */
  lemma {:induction false} FilterOutNone<T(!new)>(xs: seq<T>, s: set<T>)
    requires forall x :: x in xs ==> x !in s
    ensures FilterOut(xs, s) == xs
  {
    if xs != [] {
      FilterOutNone(xs[1..], s);
      assert xs == [xs[0]] + xs[1..];
    }
  }

  /** Filtering out a set that holds every element leaves nothing. */
  lemma {:induction false} FilterOutAll<T(!new)>(xs: seq<T>, s: set<T>)
    requires forall x :: x in xs ==> x in s
    ensures FilterOut(xs, s) == []
  {
    if xs != [] {
      FilterOutAll(xs[1..], s);
    }
  }

  /** Python's `list.remove(x)` once `x` is known to be present: drop its first occurrence. */
  function RemoveFirst<T(==,!new)>(xs: seq<T>, x: T): (r: seq<T>)
    requires x in xs
    ensures |r| == |xs| - 1
    ensures multiset(r) == multiset(xs) - multiset{x}
  {
    var i := IndexOf(xs, x);
    assert xs == xs[..i] + [x] + xs[i+1..];
    xs[..i] + xs[i+1..]
  }

  /** The occurrence `list.remove` drops is the first one; the elements
      before and after it keep their order. */
  lemma RemoveFirstTakesFirst<T(!new)>(xs: seq<T>, x: T)
    requires x in xs
    ensures exists i :: 0 <= i < |xs| && xs[i] == x && x !in xs[..i] && RemoveFirst(xs, x) == xs[..i] + xs[i+1..]
  {
    var i := IndexOf(xs, x);
    assert RemoveFirst(xs, x) == xs[..i] + xs[i+1..];
  }

  /** Dropping one occurrence of `x` is invisible once all of `x` is filtered out. */
  lemma RemoveFirstFilter<T(!new)>(xs: seq<T>, x: T, s: set<T>)
    requires x in xs && x in s
    ensures FilterOut(RemoveFirst(xs, x), s) == FilterOut(xs, s)
  {
    var i := IndexOf(xs, x);
    assert xs == xs[..i] + ([x] + xs[i+1..]);
    FilterOutAppend(xs[..i], [x] + xs[i+1..], s);
    FilterOutAppend([x], xs[i+1..], s);
    FilterOutAppend(xs[..i], xs[i+1..], s);
  }

  /** `add_object`: the new object goes on top. */
  function Add<T(==,!new)>(xs: seq<T>, x: T): (r: seq<T>)
    ensures |r| == |xs| + 1
    ensures multiset(r) == multiset(xs) + multiset{x}
    ensures r[..|xs|] == xs && r[|xs|] == x
  {
    xs + [x]
  }

  /** `remove_object`: remove the first occurrence; an absent object is silently ignored. */
  function Remove<T(==,!new)>(xs: seq<T>, x: T): (r: seq<T>)
    ensures multiset(r) == multiset(xs) - multiset{x}
    ensures x !in xs ==> r == xs
    ensures FilterOut(r, {x}) == FilterOut(xs, {x})
  {
    if x in xs then
      RemoveFirstFilter(xs, x, {x});
      RemoveFirst(xs, x)
    else
      FilterOutNone(xs, {x});
      xs
  }

  /** `remove_object` drops the first occurrence of a present object. */
  lemma RemoveTakesFirst<T(!new)>(xs: seq<T>, x: T)
    requires x in xs
    ensures exists i :: 0 <= i < |xs| && xs[i] == x && x !in xs[..i] && Remove(xs, x) == xs[..i] + xs[i+1..]
  {
    RemoveFirstTakesFirst(xs, x);
  }

  /** A second removal of an object that occurred once leaves the list as the first left it. */
  lemma RemoveTwice<T(!new)>(xs: seq<T>, x: T)
    requires Distinct(xs)
    ensures Remove(Remove(xs, x), x) == Remove(xs, x)
  {
    if x in xs {
      var i := IndexOf(xs, x);
      var r := Remove(xs, x);
      assert r == xs[..i] + xs[i+1..];
      assert x !in xs[i+1..] by {
        forall k | i + 1 <= k < |xs| ensures xs[k] != x { assert xs[i] == x; }
      }
      assert x !in r;
    }
  }

  /** Removing what was just added restores a list that did not hold it. */
  lemma RemoveAfterAdd<T(!new)>(xs: seq<T>, x: T)
    requires x !in xs
    ensures Remove(Add(xs, x), x) == xs
  {
    var r := xs + [x];
    assert forall k :: 0 <= k < |xs| ==> r[k] == xs[k];
    assert IndexOf(r, x) == |xs|;
    assert r[..|xs|] == xs;
  }

  /** `r` is `base` with `x` inserted at position `i`. */
  predicate InsertedAt<T(==,!new)>(r: seq<T>, base: seq<T>, x: T, i: int) {
    0 <= i < |r| && r[i] == x && r[..i] + r[i+1..] == base
  }

  lemma InsertedAtFilter<T(!new)>(base: seq<T>, x: T, i: int, s: set<T>)
    requires 0 <= i <= |base| && x in s
    ensures FilterOut(base[..i] + [x] + base[i..], s) == FilterOut(base, s)
  {
    var front, back := base[..i], base[i..];
    assert base == front + back;
    FilterOutAppend(front + [x], back, s);
    FilterOutAppend(front, [x], s);
    assert FilterOut([x], s) == [];
    FilterOutAppend(front, back, s);
    assert FilterOut(front + [x], s) == FilterOut(front, s);
  }

  lemma InsertedAtShape<T(!new)>(base: seq<T>, x: T, i: int)
    requires 0 <= i <= |base|
    ensures InsertedAt(base[..i] + [x] + base[i..], base, x, i)
    ensures multiset(base[..i] + [x] + base[i..]) == multiset(base) + multiset{x}
  {
    var r := base[..i] + [x] + base[i..];
    assert r[..i] == base[..i];
    assert r[i+1..] == base[i..];
    assert base[..i] + base[i..] == base;
    calc {
      multiset(r);
      multiset(base[..i]) + multiset{x} + multiset(base[i..]);
      { assert base == base[..i] + base[i..]; }
      multiset(base) + multiset{x};
    }
  }

  /** What inserting a removed `it` back at position `idx` preserves. */
  lemma ReinsertFacts<T(!new)>(xs: seq<T>, it: T, idx: int)
    requires it in xs && 0 <= idx <= |xs| - 1
    ensures var objects := RemoveFirst(xs, it);
      var r := objects[..idx] + [it] + objects[idx..];
      && InsertedAt(r, objects, it, idx)
      && multiset(r) == multiset(xs)
      && FilterOut(r, {it}) == FilterOut(xs, {it})
  {
    var objects := RemoveFirst(xs, it);
    RemoveFirstFilter(xs, it, {it});
    InsertedAtShape(objects, it, idx);
    InsertedAtFilter(objects, it, idx, {it});
  }

  /** Putting a removed `it` back on top. */
  lemma ReinsertTop<T(!new)>(xs: seq<T>, it: T)
    requires it in xs
    ensures var objects := RemoveFirst(xs, it);
      var r := objects + [it];
      && InsertedAt(r, objects, it, |xs| - 1)
      && multiset(r) == multiset(xs)
      && FilterOut(r, {it}) == FilterOut(xs, {it})
  {
    RemoveFirstFilter(xs, it, {it});
    AppendBack(RemoveFirst(xs, it), it, xs);
  }

  /** Appending `it` to a list that lacks exactly one `it` of `xs`. */
  lemma AppendBack<T(!new)>(objects: seq<T>, it: T, xs: seq<T>)
    requires it in xs && |objects| == |xs| - 1
    requires multiset(objects) == multiset(xs) - multiset{it}
    requires FilterOut(objects, {it}) == FilterOut(xs, {it})
    ensures InsertedAt(objects + [it], objects, it, |xs| - 1)
    ensures multiset(objects + [it]) == multiset(xs)
    ensures FilterOut(objects + [it], {it}) == FilterOut(xs, {it})
  {
    var r := objects + [it];
    assert r[..|objects|] == objects && r[|objects| + 1..] == [];
    assert r[..|objects|] + r[|objects| + 1..] == objects;
    assert multiset(r) == multiset(xs) by {
      assert multiset(r) == multiset(objects) + multiset{it};
      assert multiset{it} <= multiset(xs);
    }
    FilterOutAppend(objects, [it], {it});
    assert FilterOut([it], {it}) == [];
    assert FilterOut(r, {it}) == FilterOut(objects, {it});
  }

  /** Reinserting `it` just after the first `a` of the remaining list. */
  lemma ReinsertAfter<T(!new)>(xs: seq<T>, it: T, a: T)
    requires it in xs && a in RemoveFirst(xs, it)
    ensures var objects := RemoveFirst(xs, it);
      var idx := 1 + IndexOf(objects, a);
      var r := objects[..idx] + [it] + objects[idx..];
      && multiset(r) == multiset(xs)
      && FilterOut(r, {it}) == FilterOut(xs, {it})
      && InsertedAt(r, objects, it, idx) && r[idx - 1] == a
  {
    var objects := RemoveFirst(xs, it);
    var idx := 1 + IndexOf(objects, a);
    ReinsertFacts(xs, it, idx);
    var r := objects[..idx] + [it] + objects[idx..];
    assert r[idx - 1] == a;
    assert InsertedAt(r, objects, it, idx);
  }

  /** `Screen._raise`: move `it` to the top, or to just after `above`.
      Fails (ValueError) when `it` is not in the list, or `above` is not in
      it once `it` has been taken out, which includes `above == it`. */
  function Raise<T(==,!new)>(xs: seq<T>, it: T, above: Option<T>): (r: Result<seq<T>>)
    ensures r.Ok? <==> it in xs && (above.Some? ==> above.value in RemoveFirst(xs, it))
    ensures r.Ok? ==> multiset(r.value) == multiset(xs)
    ensures r.Ok? ==> FilterOut(r.value, {it}) == FilterOut(xs, {it})
    ensures r.Ok? && above.None? ==> InsertedAt(r.value, RemoveFirst(xs, it), it, |xs| - 1)
    ensures r.Ok? && above.Some? ==>
      var i := 1 + IndexOf(RemoveFirst(xs, it), above.value);
      InsertedAt(r.value, RemoveFirst(xs, it), it, i) && r.value[i-1] == above.value
  {
    if it !in xs then Err(ValueError)
    else
      var objects := RemoveFirst(xs, it);
      if above.None? then
        ReinsertTop(xs, it);
        Ok(objects + [it])
      else if above.value !in objects then Err(ValueError)
      else
        var idx := 1 + IndexOf(objects, above.value);
        ReinsertAfter(xs, it, above.value);
        Ok(objects[..idx] + [it] + objects[idx..])
  }

  /** Reinserting `it` just before the first `b` of the remaining list. */
  lemma ReinsertBefore<T(!new)>(xs: seq<T>, it: T, b: T)
    requires it in xs && b in RemoveFirst(xs, it)
    ensures var objects := RemoveFirst(xs, it);
      var idx := IndexOf(objects, b);
      var r := objects[..idx] + [it] + objects[idx..];
      && multiset(r) == multiset(xs)
      && FilterOut(r, {it}) == FilterOut(xs, {it})
      && InsertedAt(r, objects, it, idx) && idx + 1 < |r| && r[idx + 1] == b
  {
    var objects := RemoveFirst(xs, it);
    var idx := IndexOf(objects, b);
    ReinsertFacts(xs, it, idx);
    var r := objects[..idx] + [it] + objects[idx..];
    assert r[idx + 1] == b;
    assert InsertedAt(r, objects, it, idx);
  }

  /** `Screen._lower`, as its docstring describes it and symmetric with
      `Raise`: move `it` to the bottom, or to just before `below`. */
  function Lower<T(==,!new)>(xs: seq<T>, it: T, below: Option<T>): (r: Result<seq<T>>)
    ensures r.Ok? <==> it in xs && (below.Some? ==> below.value in RemoveFirst(xs, it))
    ensures r.Ok? ==> multiset(r.value) == multiset(xs)
    ensures r.Ok? ==> FilterOut(r.value, {it}) == FilterOut(xs, {it})
    ensures r.Ok? && below.None? ==> InsertedAt(r.value, RemoveFirst(xs, it), it, 0)
    ensures r.Ok? && below.Some? ==>
      var i := IndexOf(RemoveFirst(xs, it), below.value);
      InsertedAt(r.value, RemoveFirst(xs, it), it, i) && i + 1 < |r.value| && r.value[i+1] == below.value
  {
    if it !in xs then Err(ValueError)
    else
      var objects := RemoveFirst(xs, it);
      if below.None? then
        ReinsertFacts(xs, it, 0);
        assert objects[..0] + [it] + objects[0..] == [it] + objects;
        Ok([it] + objects)
      else if below.value !in objects then Err(ValueError)
      else
        var idx := IndexOf(objects, below.value);
        ReinsertBefore(xs, it, below.value);
        Ok(objects[..idx] + [it] + objects[idx..])
  }

  /** The source's `_lower` names an undefined variable `it`, so every call
      of `lower_object` raises NameError. */
  function LowerAsWritten<T(==,!new)>(xs: seq<T>, obj: T, below: Option<T>): (r: Result<seq<T>>)
    ensures r == Err(NameError)
  {
    Err(NameError)
  }

  /** The documented lowering is available for every object in the list, where the code as written never succeeds. */
  lemma LowerAsWrittenAlwaysFails<T(!new)>(xs: seq<T>, it: T)
    requires it in xs
    ensures Lower(xs, it, None).Ok?
    ensures LowerAsWritten(xs, it, None).Err?
  {
  }

  /** `r` is `base` with the block `block` spliced in at position `i`. */
  predicate SplicedAt<T(==,!new)>(r: seq<T>, base: seq<T>, block: seq<T>, i: int) {
    0 <= i <= |base| && r == base[..i] + block + base[i..]
  }

  lemma SplicedFacts<T(!new)>(base: seq<T>, block: seq<T>, i: int)
    requires 0 <= i <= |base|
    requires forall x :: x in base ==> x !in Elems(block)
    ensures var r := base[..i] + block + base[i..];
      && r[i..i + |block|] == block
      && r[..i] + r[i + |block|..] == base
      && FilterOut(r, Elems(block)) == base
  {
    var r := base[..i] + block + base[i..];
    assert r[i..i + |block|] == block;
    assert r[..i] == base[..i];
    assert r[i + |block|..] == base[i..];
    assert base[..i] + base[i..] == base;
    SplicedFilter(base[..i], block, base[i..]);
  }

  /** Filtering a spliced-in block back out. */
  lemma SplicedFilter<T(!new)>(front: seq<T>, block: seq<T>, back: seq<T>)
    requires forall x :: x in front ==> x !in Elems(block)
    requires forall x :: x in back ==> x !in Elems(block)
    ensures FilterOut(front + block + back, Elems(block)) == front + back
  {
    var s := Elems(block);
    FilterOutAppend(front + block, back, s);
    FilterOutAppend(front, block, s);
    FilterOutNone(front, s);
    FilterOutNone(back, s);
    FilterOutAll(block, s);
    assert FilterOut(front + block, s) == front;
  }

  /** `Screen._raise_list`: the objects not in `objects`, in their old order,
      with `objects` spliced in as one block at the top or just after `above`.
      Fails (ValueError) when `above` is given but is not among the kept objects. */
  function RaiseList<T(==,!new)>(xs: seq<T>, objects: seq<T>, above: Option<T>): (r: Result<seq<T>>)
    ensures r.Ok? <==> (above.Some? ==> above.value in xs && above.value !in objects)
    ensures r.Ok? ==> FilterOut(r.value, Elems(objects)) == FilterOut(xs, Elems(objects))
    ensures r.Ok? ==> exists i :: SplicedAt(r.value, FilterOut(xs, Elems(objects)), objects, i)
                          && r.value[i..i + |objects|] == objects
                          && (above.None? ==> i + |objects| == |r.value|)
                          && (above.Some? ==> 0 < i && r.value[i-1] == above.value)
  {
    var kept := FilterOut(xs, Elems(objects));
    if above.Some? && above.value !in kept then Err(ValueError)
    else
      var idx := if above.Some? then IndexOf(kept, above.value) + 1 else |kept|;
      SplicedFacts(kept, objects, idx);
      var r := kept[..idx] + objects + kept[idx..];
      assert SplicedAt(r, kept, objects, idx);
      Ok(r)
  }

  /** `Screen._lower_list`: as `RaiseList`, but the block goes at the bottom or just before `below`. */
  function LowerList<T(==,!new)>(xs: seq<T>, objects: seq<T>, below: Option<T>): (r: Result<seq<T>>)
    ensures r.Ok? <==> (below.Some? ==> below.value in xs && below.value !in objects)
    ensures r.Ok? ==> FilterOut(r.value, Elems(objects)) == FilterOut(xs, Elems(objects))
    ensures r.Ok? ==> exists i :: SplicedAt(r.value, FilterOut(xs, Elems(objects)), objects, i)
                          && r.value[i..i + |objects|] == objects
                          && (below.None? ==> i == 0)
                          && (below.Some? ==> i + |objects| < |r.value| && r.value[i + |objects|] == below.value)
  {
    var kept := FilterOut(xs, Elems(objects));
    if below.Some? && below.value !in kept then Err(ValueError)
    else
      var idx := if below.Some? then IndexOf(kept, below.value) else 0;
      SplicedFacts(kept, objects, idx);
      var r := kept[..idx] + objects + kept[idx..];
      assert SplicedAt(r, kept, objects, idx);
      Ok(r)
  }

  /** On a list without repeats, raising fails exactly when `it` or `above` is
      missing or they are the same object, and keeps the list free of repeats. */
  lemma RaiseDistinct<T(!new)>(xs: seq<T>, it: T, above: Option<T>)
    requires Distinct(xs)
    ensures Raise(xs, it, above).Ok? <==> it in xs && (above.Some? ==> above.value in xs && above.value != it)
    ensures Raise(xs, it, above).Ok? ==> Distinct(Raise(xs, it, above).value)
  {
    if it in xs {
      var objects := RemoveFirst(xs, it);
      DistinctCounts(xs);
      assert multiset(objects)[it] == 0;
      forall y | y != it ensures y in objects <==> y in xs {
        assert multiset(objects)[y] == multiset(xs)[y];
      }
      var r := Raise(xs, it, above);
      if r.Ok? {
        MultisetDistinct(xs, r.value);
      }
    }
  }

  /** A sequence with the same elements, counted with multiplicity, as a list without repeats has none either. */
  lemma MultisetDistinct<T(!new)>(xs: seq<T>, ys: seq<T>)
    requires Distinct(xs) && multiset(xs) == multiset(ys)
    ensures Distinct(ys)
  {
    DistinctCounts(xs);
    forall i, j | 0 <= i < j < |ys| ensures ys[i] != ys[j] {
      PairCount(ys, i, j);
    }
  }

  lemma PairCount<T(!new)>(ys: seq<T>, i: int, j: int)
    requires 0 <= i < j < |ys|
    ensures ys[i] == ys[j] ==> multiset(ys)[ys[i]] >= 2
  {
    assert ys == ys[..i] + [ys[i]] + ys[i+1..j] + [ys[j]] + ys[j+1..];
  }

  lemma {:induction false} DistinctCounts<T(!new)>(xs: seq<T>)
    requires Distinct(xs)
    ensures forall x :: multiset(xs)[x] <= 1
  {
    if xs != [] {
      DistinctCounts(xs[1..]);
      assert xs == [xs[0]] + xs[1..];
      assert xs[0] !in xs[1..];
    }
  }
}

=== FILE: gameboard.dfy ===
/** A GameBoard in play on a Screen (module/livewires/boards.py): the grid
    of cell objects, the cursor, and the arrow-key handling.  Cells are
    static square Polygons outlined in the line colour; the cursor cell is
    dynamic, on top, and outlined in the cursor colour. */
module GameBoards {
  import opened Outcomes
  import opened Geometry
  import opened Boards
  import Screens
  import DrawOrder

  type Id = Screens.Id

  /** `GameBoard`: geometry, `grid[i][j]` the cell object of column i, row j,
      the cursor cell's board coordinates, and the three colours. */
  datatype GameBoard = GameBoard(board: Board, grid: seq<seq<Id>>, cursor: Option<Cell>,
                                 lineColour: RGB, fillColour: RGB, cursorColour: RGB)

  /** The grid has `nCols` columns of `nRows` cells. */
  ghost predicate Shaped(g: GameBoard) {
    |g.grid| == g.board.nCols && forall i :: 0 <= i < |g.grid| ==> |g.grid[i]| == g.board.nRows
  }

  /** Different positions hold different cell objects. */
  ghost predicate Injective(g: GameBoard)
    requires Shaped(g)
  {
    forall i, j, i', j' :: OnBoard(g.board, i, j) && OnBoard(g.board, i', j') && g.grid[i][j] == g.grid[i'][j']
      ==> i == i' && j == j'
  }

  /** Every cell is a coloured object in the draw order. */
  ghost predicate CellsIn(s: Screens.Screen, g: GameBoard)
    requires Shaped(g)
  {
    forall i, j :: OnBoard(g.board, i, j) ==>
      g.grid[i][j] in s.objects && g.grid[i][j] in s.order && s.objects[g.grid[i][j]].paint.Shaded?
  }

  /** A board in play: a cell object for every on-board position, each one
      distinct, coloured and drawn, and a cursor on the board if any. */
  ghost predicate WellFormed(s: Screens.Screen, g: GameBoard) {
    && Screens.Valid(s) && Shaped(g) && Injective(g) && CellsIn(s, g)
    && (g.cursor.Some? ==> OnBoard(g.board, g.cursor.value.0, g.cursor.value.1))
  }

  /** How the cursor cell looks: dynamic, outlined in `colour`. */
  predicate Marked(o: Screens.Obj, colour: RGB) {
    o.paint.Shaded? && !o.isStatic && o.paint.outline == Some(colour)
  }

  /** How every other cell looks: static, outlined in `colour`. */
  predicate Unmarked(o: Screens.Obj, colour: RGB) {
    o.paint.Shaded? && o.isStatic && o.paint.outline == Some(colour)
  }

  /** The cursor invariant: the cursor cell, if any, is the only dynamic
      cell and is outlined in the cursor colour; every other cell is static
      and outlined in the line colour. */
  ghost predicate CursorShown(s: Screens.Screen, g: GameBoard)
    requires WellFormed(s, g)
  {
    forall i, j :: OnBoard(g.board, i, j) ==>
      if g.cursor == Some((i, j)) then Marked(s.objects[g.grid[i][j]], g.cursorColour)
      else Unmarked(s.objects[g.grid[i][j]], g.lineColour)
  }

  /** `grid[i][j]` with Python's indexing: negative indices count from the end. */
  function GridAt(g: GameBoard, i: int, j: int): (r: Result<Id>)
    requires |g.grid| == g.board.nCols && forall c :: 0 <= c < |g.grid| ==> |g.grid[c]| == g.board.nRows
    ensures r.Ok? <==> -g.board.nCols <= i < g.board.nCols && -g.board.nRows <= j < g.board.nRows
    ensures r.Ok? ==> var (i', j') := Normalise(g.board, i, j);
      OnBoard(g.board, i', j') && r.value == g.grid[i'][j']
  {
    var column :- PyIndex(g.grid, i);
    PyIndex(column, j)
  }

  /** The board coordinates of the cell that Python's `grid[i][j]` finds. */
  function Normalise(b: Board, i: int, j: int): Cell {
    (if i < 0 then i + b.nCols else i, if j < 0 then j + b.nRows else j)
  }

  /** `on_board` accepts exactly the cells that `grid[i][j]` reaches without
      counting from the end, and there the lookup is the plain entry. */
  lemma OnBoardIsDirectLookup(g: GameBoard, i: int, j: int)
    requires |g.grid| == g.board.nCols && forall c :: 0 <= c < |g.grid| ==> |g.grid[c]| == g.board.nRows
    ensures OnBoard(g.board, i, j) <==> i >= 0 && j >= 0 && GridAt(g, i, j).Ok?
    ensures OnBoard(g.board, i, j) ==> GridAt(g, i, j) == Ok(g.grid[i][j])
  {
  }

  /** `t` differs from `s` only in the draw position and look of `id`. */
  ghost predicate Restyled(s: Screens.Screen, t: Screens.Screen, id: Id) {
    && Screens.Valid(t) && id in s.objects && t.objects.Keys == s.objects.Keys
    && multiset(t.order) == multiset(s.order)
    && t.objects[id].paint.Shaded?
    && (forall k :: k in s.objects && k != id ==> t.objects[k] == s.objects[k])
  }

  /** The end of the cursor's life on a cell: `treat_as_static`,
      `raise_object` and `set_outline` in the line colour.  Grid cells are
      always in the draw order, so the raise cannot fail. */
  function Unmark(s: Screens.Screen, id: Id, colour: RGB): (r: Screens.Screen)
    requires Screens.Valid(s) && id in s.objects && id in s.order && s.objects[id].paint.Shaded?
    ensures Restyled(s, r, id) && Unmarked(r.objects[id], colour)
  {
    var s1 := Screens.SetStatic(s, id, true);
    var s2 := Screens.RaiseObject(s1, id, None);
    Screens.SetOutline(s2.value, id, colour)
  }

  /** A cell becoming the cursor: `raise_object`, `set_outline` in the
      cursor colour and `treat_as_dynamic`; the cell ends up on top. */
  function Mark(s: Screens.Screen, id: Id, colour: RGB): (r: Screens.Screen)
    requires Screens.Valid(s) && id in s.objects && id in s.order && s.objects[id].paint.Shaded?
    ensures Restyled(s, r, id) && Marked(r.objects[id], colour)
    ensures |r.order| > 0 && r.order[|r.order| - 1] == id
  {
    var s1 := Screens.RaiseObject(s, id, None);
    var s2 := Screens.SetOutline(s1.value, id, colour);
    Screens.SetStatic(s2, id, false)
  }

  /** Restyling a cell keeps the board in play, wherever the cursor goes. */
  lemma RestyledKeeps(s: Screens.Screen, t: Screens.Screen, g: GameBoard, id: Id, cursor: Option<Cell>)
    requires WellFormed(s, g) && Restyled(s, t, id)
    requires cursor.Some? ==> OnBoard(g.board, cursor.value.0, cursor.value.1)
    ensures WellFormed(t, g.(cursor := cursor))
  {
    forall i, j | OnBoard(g.board, i, j)
      ensures g.grid[i][j] in t.order && t.objects[g.grid[i][j]].paint.Shaded?
    {
      assert multiset(s.order)[g.grid[i][j]] > 0;
    }
  }

  /** A cursor move re-establishes the invariant: the old cursor cell is
      unmarked, the new one marked, and every other cell is untouched. */
  lemma MoveShown(s: Screens.Screen, s1: Screens.Screen, s2: Screens.Screen, g: GameBoard, h: GameBoard,
                  was: Id, id: Id)
    requires WellFormed(s, g) && WellFormed(s2, h) && h == g.(cursor := h.cursor) && h.cursor.Some?
    requires id == g.grid[h.cursor.value.0][h.cursor.value.1]
    requires g.cursor.Some? ==> was == g.grid[g.cursor.value.0][g.cursor.value.1]
    requires Restyled(s, s1, was) && Restyled(s1, s2, id)
    requires g.cursor.Some? ==> Unmarked(s1.objects[was], g.lineColour)
    requires g.cursor.None? ==> s1 == s
    requires Marked(s2.objects[id], g.cursorColour)
    ensures CursorShown(s, g) ==> CursorShown(s2, h)
  {
    if CursorShown(s, g) {
      forall a, c | OnBoard(g.board, a, c)
        ensures if h.cursor == Some((a, c)) then Marked(s2.objects[h.grid[a][c]], h.cursorColour)
          else Unmarked(s2.objects[h.grid[a][c]], h.lineColour)
      {
        var k := g.grid[a][c];
        if h.cursor != Some((a, c)) {
          assert k != id;
          if g.cursor.Some? && g.cursor != Some((a, c)) {
            assert k != was;
          }
        }
      }
    }
  }

  /** The outcome of a successful cursor move to (i, j): the board is still
      in play, its cursor is the normalised cell, that cell's object is on
      top, and the cursor invariant carries over. */
  ghost predicate CursorMovedTo(s: Screens.Screen, g: GameBoard, t: Screens.Screen, h: GameBoard, i: int, j: int) {
    && WellFormed(t, h) && h == g.(cursor := Some(Normalise(g.board, i, j)))
    && OnBoard(g.board, h.cursor.value.0, h.cursor.value.1)
    && |t.order| > 0 && t.order[|t.order| - 1] == h.grid[h.cursor.value.0][h.cursor.value.1]
    && (WellFormed(s, g) && CursorShown(s, g) ==> CursorShown(t, h))
  }

  /** `GameBoard.move_cursor`: the old cursor cell goes back to being an
      ordinary static cell and the cell at (i, j) becomes the cursor, on
      top of the draw order.  Without a cursor the first step dereferences
      None. */
  function MoveCursor(s: Screens.Screen, g: GameBoard, i: int, j: int): (r: Result<(Screens.Screen, GameBoard)>)
    requires WellFormed(s, g)
    ensures g.cursor.None? ==> r == Err(AttributeError)
    ensures g.cursor.Some? ==>
      (r.Ok? <==> -g.board.nCols <= i < g.board.nCols && -g.board.nRows <= j < g.board.nRows)
    ensures r.Ok? ==> CursorMovedTo(s, g, r.value.0, r.value.1, i, j)
  {
    if g.cursor.None? then Err(AttributeError)
    else
      var was := g.grid[g.cursor.value.0][g.cursor.value.1];
      var s1 := Unmark(s, was, g.lineColour);
      RestyledKeeps(s, s1, g, was, g.cursor);
      var id :- GridAt(g, i, j);
      var s2 := Mark(s1, id, g.cursorColour);
      MovedTo(s, s1, s2, g, was, id, i, j);
      Ok((s2, g.(cursor := Some(Normalise(g.board, i, j)))))
  }

  /** Marking the cell at (i, j) after unmarking the old cursor cell (or
      with no cursor, `s1 == s`) completes a cursor move. */
  lemma MovedTo(s: Screens.Screen, s1: Screens.Screen, s2: Screens.Screen, g: GameBoard,
                was: Id, id: Id, i: int, j: int)
    requires WellFormed(s, g) && WellFormed(s1, g)
    requires -g.board.nCols <= i < g.board.nCols && -g.board.nRows <= j < g.board.nRows
    requires id == g.grid[Normalise(g.board, i, j).0][Normalise(g.board, i, j).1]
    requires g.cursor.Some? ==> was == g.grid[g.cursor.value.0][g.cursor.value.1]
    requires Restyled(s, s1, was) && Restyled(s1, s2, id)
    requires g.cursor.Some? ==> Unmarked(s1.objects[was], g.lineColour)
    requires g.cursor.None? ==> s1 == s
    requires Marked(s2.objects[id], g.cursorColour)
    requires |s2.order| > 0 && s2.order[|s2.order| - 1] == id
    ensures CursorMovedTo(s, g, s2, g.(cursor := Some(Normalise(g.board, i, j))), i, j)
  {
    var h := g.(cursor := Some(Normalise(g.board, i, j)));
    RestyledKeeps(s1, s2, g, id, h.cursor);
    MoveShown(s, s1, s2, g, h, was, id);
  }

  /** `GameBoard.enable_cursor`: with no cursor, the cell at (i, j) becomes
      the cursor; with one, this is `move_cursor`. */
  function EnableCursor(s: Screens.Screen, g: GameBoard, i: int, j: int): (r: Result<(Screens.Screen, GameBoard)>)
    requires WellFormed(s, g)
    ensures g.cursor.Some? ==> r == MoveCursor(s, g, i, j)
    ensures r.Ok? <==> -g.board.nCols <= i < g.board.nCols && -g.board.nRows <= j < g.board.nRows
    ensures r.Ok? ==> CursorMovedTo(s, g, r.value.0, r.value.1, i, j)
  {
    if g.cursor.Some? then MoveCursor(s, g, i, j) else PlaceCursor(s, g, i, j)
  }

  /** `enable_cursor` on a board without a cursor: mark the cell and
      remember it. */
  function PlaceCursor(s: Screens.Screen, g: GameBoard, i: int, j: int): (r: Result<(Screens.Screen, GameBoard)>)
    requires WellFormed(s, g) && g.cursor.None?
    ensures r.Ok? <==> -g.board.nCols <= i < g.board.nCols && -g.board.nRows <= j < g.board.nRows
    ensures r.Ok? ==> CursorMovedTo(s, g, r.value.0, r.value.1, i, j)
  {
    var id :- GridAt(g, i, j);
    var s1 := Mark(s, id, g.cursorColour);
    MovedTo(s, s, s1, g, id, id, i, j);
    Ok((s1, g.(cursor := Some(Normalise(g.board, i, j)))))
  }

  /** `GameBoard.disable_cursor`: the cursor cell reverts to an ordinary
      static cell and there is no cursor; without one nothing happens. */
  function DisableCursor(s: Screens.Screen, g: GameBoard): (r: (Screens.Screen, GameBoard))
    requires WellFormed(s, g)
    ensures g.cursor.None? ==> r == (s, g)
    ensures var (t, h) := r; WellFormed(t, h) && h == g.(cursor := None)
    ensures CursorShown(s, g) ==> CursorShown(r.0, r.1)
  {
    if g.cursor.None? then (s, g)
    else
      var was := g.grid[g.cursor.value.0][g.cursor.value.1];
      var s1 := Unmark(s, was, g.lineColour);
      var h := g.(cursor := None);
      RestyledKeeps(s, s1, g, was, None);
      DisableShown(s, s1, g, h, was);
      (s1, h)
  }

  lemma DisableShown(s: Screens.Screen, s1: Screens.Screen, g: GameBoard, h: GameBoard, was: Id)
    requires WellFormed(s, g) && WellFormed(s1, h) && g.cursor.Some? && h == g.(cursor := None)
    requires was == g.grid[g.cursor.value.0][g.cursor.value.1]
    requires Restyled(s, s1, was) && Unmarked(s1.objects[was], g.lineColour)
    ensures CursorShown(s, g) ==> CursorShown(s1, h)
  {
    if CursorShown(s, g) {
      forall a, c | OnBoard(g.board, a, c)
        ensures Unmarked(s1.objects[h.grid[a][c]], h.lineColour)
      {
        if g.cursor != Some((a, c)) {
          assert g.grid[a][c] != was;
        }
      }
    }
  }

  // ---------------------------------------------------------------------
  // Building the grid

  /** The square outline `GameCell.__init__` gives `init_polygon`. */
  function CellShape(boxSize: int): seq<(int, int)> {
    [(0, 0), (0, boxSize), (boxSize, boxSize), (boxSize, 0)]
  }

  /** The cell object at column i, row j: a static filled square Polygon
      with its reference point at the cell's top-left corner, whose surface
      just covers the square (one pixel wider than the box, shifted left
      and up when the box size is negative). */
  function CellObject(b: Board, i: int, j: int, fill: RGB, line: RGB): Screens.Obj {
    var (x, y) := CellToCoords(b, i, j);
    var off := if b.boxSize < 0 then b.boxSize else 0;
    var side := (if b.boxSize < 0 then -b.boxSize else b.boxSize) + 1;
    Screens.Obj(x, y, off, off, Rect(x + off, y + off, side, side), true, false, false,
                Screens.Plain, Screens.Shaded(fill, Some(line)))
  }

  /** The identifiers `n` consecutive creations hand out from `base`. */
  function Fresh(base: Id, n: nat): (r: seq<Id>)
    ensures |r| == n && forall k :: 0 <= k < n ==> r[k] == base + k
  {
    seq(n, k requires 0 <= k < n => base + k)
  }

  /** Column-major numbering is one-to-one on the board. */
  lemma ColumnMajorInjective(nRows: int, a: int, c: int, a': int, c': int)
    requires 0 <= c < nRows && 0 <= c' < nRows && a * nRows + c == a' * nRows + c'
    ensures a == a' && c == c'
  {
    DivUnique(a * nRows + c, nRows, a, c);
    DivUnique(a' * nRows + c', nRows, a', c');
  }

  /** The bounding box of the square outline: a side one longer than the
      box size's magnitude, offset by the box size when it is negative. */
  lemma SquareSurface(boxSize: int, surface: Surface)
    requires |surface.vertices| == 4
    requires forall i :: 0 <= i < 4 ==>
      surface.vertices[i] == (CellShape(boxSize)[i].0 - surface.xOffset, CellShape(boxSize)[i].1 - surface.yOffset)
    requires forall i :: 0 <= i < 4 ==>
      0 <= surface.vertices[i].0 < surface.width && 0 <= surface.vertices[i].1 < surface.height
    requires exists i :: 0 <= i < 4 && surface.vertices[i].0 == 0
    requires exists i :: 0 <= i < 4 && surface.vertices[i].1 == 0
    requires exists i :: 0 <= i < 4 && surface.vertices[i].0 == surface.width - 1
    requires exists i :: 0 <= i < 4 && surface.vertices[i].1 == surface.height - 1
    ensures surface.xOffset == surface.yOffset == (if boxSize < 0 then boxSize else 0)
    ensures surface.width == surface.height == (if boxSize < 0 then -boxSize else boxSize) + 1
  {
    var v := surface.vertices;
    assert v[0] == (-surface.xOffset, -surface.yOffset) && v[2] == (boxSize - surface.xOffset, boxSize - surface.yOffset);
    assert v[1].0 == v[0].0 && v[3].0 == v[2].0 && v[3].1 == v[0].1 && v[1].1 == v[2].1;
  }

  /** Handing out `n` identifiers and then `m` more is handing out `n + m`. */
  lemma FreshAppend(base: Id, n: nat, m: nat)
    ensures Fresh(base, n) + Fresh(base + n, m) == Fresh(base, n + m)
  {
  }

  /** Appending the next identifier extends the run of fresh ones. */
  lemma FreshStep(order: seq<Id>, base: Id, j: nat, id: Id)
    requires id == base + j
    ensures order + Fresh(base, j) + [id] == order + Fresh(base, j + 1)
  {
    assert Fresh(base + j, 1) == [id];
    FreshAppend(base, j, 1);
  }

  /** The size and offset of a cell's surface, as `Polygon._create_surface`
      computes them for the square outline. */
  method CellSurface(boxSize: int, fill: RGB, line: RGB) returns (side: int, off: int)
    ensures off == (if boxSize < 0 then boxSize else 0)
    ensures side == (if boxSize < 0 then -boxSize else boxSize) + 1
  {
    var surface := PolygonSurface(CellShape(boxSize), fill, true, Some(line), 1);
    SquareSurface(boxSize, surface.value);
    side, off := surface.value.width, surface.value.xOffset;
  }

  /** `new_gamecell(i, j)`: one more cell object, on top. */
  function NewCell(s: Screens.Screen, board: Board, i: int, j: int, fill: RGB, line: RGB, side: int, off: int): (r: (Screens.Screen, Id))
    requires Screens.Valid(s)
    requires off == (if board.boxSize < 0 then board.boxSize else 0)
    requires side == (if board.boxSize < 0 then -board.boxSize else board.boxSize) + 1
    ensures var (t, id) := r;
      && Screens.Valid(t) && id == s.nextId && t.nextId == s.nextId + 1 && t.order == s.order + [id]
      && (forall k :: k in s.objects ==> k in t.objects && t.objects[k] == s.objects[k])
      && id in t.objects && t.objects[id] == CellObject(board, i, j, fill, line)
  {
    var (x, y) := CellToCoords(board, i, j);
    Screens.Create(s, x, y, side, side, off, off, true, Screens.Plain, Screens.Shaded(fill, Some(line)))
  }

  /** After `j` cells of column `i`: the screen `t` holds them, numbered
      on from `s.nextId`, and nothing that was on `s` changed. */
  ghost predicate ColumnBuilt(s: Screens.Screen, t: Screens.Screen, column: seq<Id>, board: Board,
                              i: int, fill: RGB, line: RGB, j: nat)
  {
    && |column| == j && Screens.Valid(t) && t.nextId == s.nextId + j
    && t.order == s.order + Fresh(s.nextId, j)
    && (forall k :: k in s.objects ==> k in t.objects && t.objects[k] == s.objects[k])
    && (forall c :: 0 <= c < j ==>
          && column[c] == s.nextId + c && column[c] in t.objects
          && t.objects[column[c]] == CellObject(board, i, c, fill, line))
  }

  /** One more cell keeps the column built. */
  lemma ColumnStep(s: Screens.Screen, t: Screens.Screen, column: seq<Id>, board: Board,
                   i: int, fill: RGB, line: RGB, j: nat, side: int, off: int)
    requires ColumnBuilt(s, t, column, board, i, fill, line, j)
    requires off == (if board.boxSize < 0 then board.boxSize else 0)
    requires side == (if board.boxSize < 0 then -board.boxSize else board.boxSize) + 1
    ensures var (t', id) := NewCell(t, board, i, j, fill, line, side, off);
      ColumnBuilt(s, t', column + [id], board, i, fill, line, j + 1)
  {
    var (t', id) := NewCell(t, board, i, j, fill, line, side, off);
    assert id == s.nextId + j;
    FreshStep(s.order, s.nextId, j, id);
    var column' := column + [id];
    forall c | 0 <= c < j
      ensures column'[c] == s.nextId + c && column'[c] in t'.objects
      ensures t'.objects[column'[c]] == CellObject(board, i, c, fill, line)
    {
      assert column'[c] == column[c] && column[c] in t.objects;
    }
    assert column'[j] == id;
  }

  /** The inner loop of `init_gameboard`: column i, top to bottom. */
  method BuildColumn(s: Screens.Screen, board: Board, i: int, fill: RGB, line: RGB) returns (t: Screens.Screen, column: seq<Id>)
    requires Screens.Valid(s) && board.nRows >= 0
    ensures Screens.Valid(t) && |column| == board.nRows && t.nextId == s.nextId + board.nRows
    ensures t.order == s.order + Fresh(s.nextId, board.nRows)
    ensures forall k :: k in s.objects ==> k in t.objects && t.objects[k] == s.objects[k]
    ensures forall c :: 0 <= c < board.nRows ==>
      && column[c] == s.nextId + c && column[c] in t.objects
      && t.objects[column[c]] == CellObject(board, i, c, fill, line)
  {
    var side, off := CellSurface(board.boxSize, fill, line);
    t, column := s, [];
    var j := 0;
    while j < board.nRows
      invariant 0 <= j <= board.nRows
      invariant ColumnBuilt(s, t, column, board, i, fill, line, j)
    {
      ColumnStep(s, t, column, board, i, fill, line, j, side, off);
      var (t', id) := NewCell(t, board, i, j, fill, line, side, off);
      t, column, j := t', column + [id], j + 1;
    }
  }

  /** The grid `init_gameboard` builds, as a relation between the board,
      the screen and the identifiers handed out from `base`. */
  ghost predicate Built(t: Screens.Screen, board: Board, grid: seq<seq<Id>>, base: Id, cols: int, fill: RGB, line: RGB) {
    && 0 <= cols <= |grid| && board.nRows >= 0
    && (forall a :: 0 <= a < cols ==> |grid[a]| == board.nRows)
    && (forall a, c :: 0 <= a < cols && 0 <= c < board.nRows ==>
          && grid[a][c] == base + a * board.nRows + c && grid[a][c] in t.objects
          && t.objects[grid[a][c]] == CellObject(board, a, c, fill, line))
  }

  /** A freshly built grid is a board in play with every cell unmarked. */
  lemma BuiltWellFormed(s: Screens.Screen, t: Screens.Screen, g: GameBoard)
    requires Screens.Valid(t) && g.board.nCols >= 0 && |g.grid| == g.board.nCols && g.cursor == None
    requires Built(t, g.board, g.grid, s.nextId, g.board.nCols, g.fillColour, g.lineColour)
    requires t.nextId >= s.nextId && t.nextId == s.nextId + g.board.nCols * g.board.nRows
    requires t.order == s.order + Fresh(s.nextId, t.nextId - s.nextId)
    ensures WellFormed(t, g) && CursorShown(t, g)
  {
    var nr, base := g.board.nRows, s.nextId;
    forall a, c | OnBoard(g.board, a, c)
      ensures g.grid[a][c] in t.order
    {
      var k := ColumnMajorIndex(g.board.nCols, nr, a, c);
      assert t.order[|s.order| + k] == base + k;
    }
    forall a, c, a', c' | OnBoard(g.board, a, c) && OnBoard(g.board, a', c') && g.grid[a][c] == g.grid[a'][c']
      ensures a == a' && c == c'
    {
      ColumnMajorInjective(nr, a, c, a', c');
    }
  }

  /** Column-major numbering stays below the number of cells. */
  lemma ColumnMajorIndex(nCols: int, nRows: int, a: int, c: int) returns (k: int)
    requires 0 <= a < nCols && 0 <= c < nRows
    ensures k == a * nRows + c && 0 <= k < nCols * nRows
  {
    MulAtLeast(nCols - a, nRows);
    assert (nCols - a) * nRows == nCols * nRows - a * nRows;
    k := a * nRows + c;
  }

  /** After `i` columns: the screen `t` holds them, numbered on from
      `s.nextId`, and nothing that was on `s` changed. */
  ghost predicate GridBuilt(s: Screens.Screen, t: Screens.Screen, grid: seq<seq<Id>>, board: Board,
                            fill: RGB, line: RGB, i: nat)
  {
    && |grid| == i && board.nRows >= 0
    && Screens.Valid(t) && t.nextId == s.nextId + i * board.nRows
    && t.order == s.order + Fresh(s.nextId, i * board.nRows)
    && (forall k :: k in s.objects ==> k in t.objects && t.objects[k] == s.objects[k])
    && Built(t, board, grid, s.nextId, i, fill, line)
  }

  /** One more column keeps the grid built. */
  lemma GridStep(s: Screens.Screen, t: Screens.Screen, grid: seq<seq<Id>>, board: Board,
                 fill: RGB, line: RGB, i: nat, t': Screens.Screen, column: seq<Id>)
    requires GridBuilt(s, t, grid, board, fill, line, i)
    requires ColumnBuilt(t, t', column, board, i, fill, line, board.nRows)
    ensures GridBuilt(s, t', grid + [column], board, fill, line, i + 1)
  {
    var nr, base := board.nRows, s.nextId;
    FreshAppend(base, i * nr, nr);
    assert i * nr + nr == (i + 1) * nr;
    var grid' := grid + [column];
    forall a, c | 0 <= a < i + 1 && 0 <= c < nr
      ensures && grid'[a][c] == base + a * nr + c && grid'[a][c] in t'.objects
              && t'.objects[grid'[a][c]] == CellObject(board, a, c, fill, line)
    {
      if a < i {
        assert grid'[a] == grid[a];
      } else {
        assert grid'[a] == column;
      }
    }
  }

  /** `GameBoard.init_gameboard` on a rectangular board: columns left to
      right, each filled top to bottom with new cell objects, and no
      cursor.  `xrange` of a negative count is empty, so a negative
      dimension builds no cells; the board records it as zero. */
  method InitGameBoard(s: Screens.Screen, originX: int, originY: int, nCols: int, nRows: int, boxSize: int,
                       line: RGB, fill: RGB, cursor: RGB) returns (t: Screens.Screen, g: GameBoard)
    requires Screens.Valid(s)
    ensures g.board == Board(originX, originY, if nCols < 0 then 0 else nCols, if nRows < 0 then 0 else nRows, boxSize)
    ensures g.cursor == None && g.lineColour == line && g.fillColour == fill && g.cursorColour == cursor
    ensures WellFormed(t, g) && CursorShown(t, g)
    ensures forall i, j :: OnBoard(g.board, i, j) ==>
      g.grid[i][j] == s.nextId + i * g.board.nRows + j && t.objects[g.grid[i][j]] == CellObject(g.board, i, j, fill, line)
    ensures t.nextId >= s.nextId && t.nextId == s.nextId + g.board.nCols * g.board.nRows
    ensures t.order == s.order + Fresh(s.nextId, t.nextId - s.nextId)
    ensures forall k :: k in s.objects ==> k in t.objects && t.objects[k] == s.objects[k]
  {
    var board := Board(originX, originY, if nCols < 0 then 0 else nCols, if nRows < 0 then 0 else nRows, boxSize);
    var base, nr := s.nextId, board.nRows;
    var grid: seq<seq<Id>> := [];
    t := s;
    var i := 0;
    while i < board.nCols
      invariant 0 <= i <= board.nCols
      invariant GridBuilt(s, t, grid, board, fill, line, i)
    {
      var t', column := BuildColumn(t, board, i, fill, line);
      assert ColumnBuilt(t, t', column, board, i, fill, line, nr);
      GridStep(s, t, grid, board, fill, line, i, t', column);
      t, grid, i := t', grid + [column], i + 1;
    }
    g := GameBoard(board, grid, None, line, fill, cursor);
    BuiltWellFormed(s, t, g);
  }

  // ---------------------------------------------------------------------
  // Keys

  /** The keys `keypress` distinguishes. */
  datatype Key = UpKey | DownKey | LeftKey | RightKey | OtherKey(code: int)

  /** `key_movements`: the arrow keys and their cell displacements. */
  function KeyMovement(key: Key): (r: Option<(int, int)>)
    ensures r.Some? <==> !key.OtherKey?
    ensures r.Some? ==> r.value in {(0, -1), (0, 1), (-1, 0), (1, 0)}
  {
    match key
    case UpKey => Some((0, -1))
    case DownKey => Some((0, 1))
    case LeftKey => Some((-1, 0))
    case RightKey => Some((1, 0))
    case OtherKey(_) => None
  }

  /** What a key press did: moved (or kept) the cursor, or passed the key on
      to `handle_keypress`. */
  datatype KeyOutcome = KeyOutcome(screen: Screens.Screen, board: GameBoard, forwarded: Option<Key>)

  /** `GameBoard.keypress`: other keys are forwarded; an arrow key moves the
      cursor by its displacement when there is a cursor and the destination
      is on the board, and otherwise changes nothing. */
  function Keypress(s: Screens.Screen, g: GameBoard, key: Key): (r: KeyOutcome)
    requires WellFormed(s, g)
    ensures WellFormed(r.screen, r.board)
    ensures r.forwarded.Some? <==> key.OtherKey?
    ensures r.forwarded.Some? ==> r.forwarded.value == key && r.screen == s && r.board == g
    ensures CursorShown(s, g) ==> CursorShown(r.screen, r.board)
    ensures !key.OtherKey? && g.cursor.Some? ==>
      var (dx, dy) := KeyMovement(key).value;
      var dest := (g.cursor.value.0 + dx, g.cursor.value.1 + dy);
      r.board == g.(cursor := if OnBoard(g.board, dest.0, dest.1) then Some(dest) else g.cursor)
    ensures g.cursor.None? ==> r.screen == s && r.board == g
  {
    match KeyMovement(key)
    case None => KeyOutcome(s, g, Some(key))
    case Some((dx, dy)) =>
      if g.cursor.None? then KeyOutcome(s, g, None)
      else
        var (t, h) := Nudge(s, g, dx, dy);
        KeyOutcome(t, h, None)
  }

  /** An arrow key with a cursor: move it by (dx, dy) if that stays on the
      board, otherwise leave everything as it is. */
  function Nudge(s: Screens.Screen, g: GameBoard, dx: int, dy: int): (r: (Screens.Screen, GameBoard))
    requires WellFormed(s, g) && g.cursor.Some?
    ensures WellFormed(r.0, r.1)
    ensures CursorShown(s, g) ==> CursorShown(r.0, r.1)
    ensures var dest := (g.cursor.value.0 + dx, g.cursor.value.1 + dy);
      r.1 == g.(cursor := if OnBoard(g.board, dest.0, dest.1) then Some(dest) else g.cursor)
    ensures !OnBoard(g.board, g.cursor.value.0 + dx, g.cursor.value.1 + dy) ==> r.0 == s
  {
    var (x, y) := (g.cursor.value.0 + dx, g.cursor.value.1 + dy);
    if OnBoard(g.board, x, y) then
      var moved := MoveCursor(s, g, x, y);
      moved.value
    else (s, g)
  }
}

=== FILE: geometry.dfy ===
/** Rectangles, colour keys and the surfaces that Polygon and Circle build
    for themselves in module/livewires/games.py, and the circle-versus-box
    test Circle uses to refine a bounding-box collision. */
module Geometry {
  import opened Outcomes

  /** A pygame Rect: the top-left corner and a size.  The right and bottom
      edges sit at `left + width` and `top + height`. */
  datatype Rect = Rect(left: int, top: int, width: int, height: int) {
    function Right(): int { left + width }
    function Bottom(): int { top + height }
    /** The same rectangle with its top-left corner moved. */
    function MovedTo(l: int, t: int): (r: Rect)
      ensures r.left == l && r.top == t
      ensures r.width == width && r.height == height
    {
      this.(left := l, top := t)
    }
  }

  /** A pygame colour triple. */
  type RGB = (int, int, int)

  const Black: RGB := (0, 0, 0)
  const NearBlack: RGB := (0, 0, 10)
  const DarkTeal: RGB := (0, 10, 10)

  /** The transparent background colour of a Polygon or Circle surface: the
      first of three near-black colours that is neither the fill colour nor
      the outline colour. */
  function KeyColour(colour: RGB, outline: Option<RGB>): (k: RGB)
    ensures k != colour && outline != Some(k)
    ensures k == Black || k == NearBlack || k == DarkTeal
    ensures colour != Black && outline != Some(Black) ==> k == Black
  {
    if colour == Black || outline == Some(Black) then
      if colour == NearBlack || outline == Some(NearBlack) then DarkTeal
      else NearBlack
    else Black
  }

  /** One `pygame.draw` call on a surface: a colour and a line width (0 fills). */
  datatype Stroke = Stroke(colour: RGB, width: int)

  /** The drawing calls `_create_surface` makes: fill then outline when filled,
      otherwise the outline colour, or the fill colour when there is no outline. */
  function Strokes(colour: RGB, filled: bool, outline: Option<RGB>, thickness: int): (s: seq<Stroke>)
    ensures |s| >= 1
    ensures forall i :: 0 <= i < |s| ==> s[i].colour == colour || Some(s[i].colour) == outline
    ensures filled ==> s[0] == Stroke(colour, 0)
    ensures !filled ==> |s| == 1 && s[0].width == thickness
  {
    if filled then
      [Stroke(colour, 0)] + (if outline.Some? then [Stroke(outline.value, thickness)] else [])
    else if outline.Some? then [Stroke(outline.value, thickness)]
    else [Stroke(colour, thickness)]
  }

  /** A surface made by `_create_surface`: its size, its transparent colour,
      the offset from the reference point to its top-left corner, the vertices
      in surface coordinates (a Polygon's; empty for a Circle) and what is drawn. */
  datatype Surface = Surface(width: int, height: int, key: RGB,
                             xOffset: int, yOffset: int,
                             vertices: seq<(int, int)>, strokes: seq<Stroke>)

  /** The key colour is never one that anything on the surface is drawn in. */
  lemma KeyNeverDrawn(colour: RGB, filled: bool, outline: Option<RGB>, thickness: int)
    ensures forall s :: s in Strokes(colour, filled, outline, thickness) ==> s.colour != KeyColour(colour, outline)
  {
  }

  /** The bounding box of a non-empty vertex list, computed as the loop in
      `Polygon._create_surface` does. */
  method Bounds(shape: seq<(int, int)>) returns (minx: int, maxx: int, miny: int, maxy: int)
    requires |shape| > 0
    ensures forall i :: 0 <= i < |shape| ==> minx <= shape[i].0 <= maxx && miny <= shape[i].1 <= maxy
    ensures exists i :: 0 <= i < |shape| && shape[i].0 == minx
    ensures exists i :: 0 <= i < |shape| && shape[i].0 == maxx
    ensures exists i :: 0 <= i < |shape| && shape[i].1 == miny
    ensures exists i :: 0 <= i < |shape| && shape[i].1 == maxy
  {
    minx, maxx := shape[0].0, shape[0].0;
    miny, maxy := shape[0].1, shape[0].1;
    var n := 0;
    while n < |shape|
      invariant 0 <= n <= |shape|
      invariant forall i :: 0 <= i < n ==> minx <= shape[i].0 <= maxx && miny <= shape[i].1 <= maxy
      invariant exists i :: 0 <= i < |shape| && shape[i].0 == minx
      invariant exists i :: 0 <= i < |shape| && shape[i].0 == maxx
      invariant exists i :: 0 <= i < |shape| && shape[i].1 == miny
      invariant exists i :: 0 <= i < |shape| && shape[i].1 == maxy
    {
      var (x, y) := shape[n];
      if x < minx { minx := x; }
      if x > maxx { maxx := x; }
      if y < miny { miny := y; }
      if y > maxy { maxy := y; }
      n := n + 1;
    }
  }

  /** `Polygon._create_surface`.  An empty shape fails on `shape[0]`.
      Otherwise the surface just covers the vertices, they are shifted so the
      top-left of their bounding box is (0, 0), and that shift becomes the
      offset from the reference point. */
  method PolygonSurface(shape: seq<(int, int)>, colour: RGB, filled: bool,
                        outline: Option<RGB>, thickness: int) returns (r: Result<Surface>)
    ensures r.Err? <==> |shape| == 0
    ensures r.Ok? ==> var s := r.value;
      && |s.vertices| == |shape|
      && (forall i :: 0 <= i < |shape| ==>
            s.vertices[i] == (shape[i].0 - s.xOffset, shape[i].1 - s.yOffset))
      && (forall i :: 0 <= i < |shape| ==>
            0 <= s.vertices[i].0 < s.width && 0 <= s.vertices[i].1 < s.height)
      && (exists i :: 0 <= i < |shape| && s.vertices[i].0 == 0)
      && (exists i :: 0 <= i < |shape| && s.vertices[i].1 == 0)
      && (exists i :: 0 <= i < |shape| && s.vertices[i].0 == s.width - 1)
      && (exists i :: 0 <= i < |shape| && s.vertices[i].1 == s.height - 1)
      && s.key != colour && Some(s.key) != outline
      && s.strokes == Strokes(colour, filled, outline, thickness)
  {
    if |shape| == 0 {
      return Err(IndexError);
    }
    var minx, maxx, miny, maxy := Bounds(shape);
    var nshape := seq(|shape|, i requires 0 <= i < |shape| => (shape[i].0 - minx, shape[i].1 - miny));
    r := Ok(Surface(maxx - minx + 1, maxy - miny + 1, KeyColour(colour, outline),
                    minx, miny, nshape, Strokes(colour, filled, outline, thickness)));
  }

  /** `Circle._create_surface`: a `2r+1` square whose top-left is `r` up and
      left of the centre.  pygame refuses a surface of negative size. */
  function CircleSurface(radius: int, colour: RGB, filled: bool, outline: Option<RGB>): (r: Result<Surface>)
    ensures r.Err? <==> radius < 0
    ensures r.Ok? ==> var s := r.value;
      && s.width == s.height && s.width % 2 == 1
      && s.xOffset + radius == 0 && s.yOffset + radius == 0
      && s.width == 2 * (-s.xOffset) + 1
      && s.key != colour && Some(s.key) != outline
      && s.strokes == Strokes(colour, filled, outline, 1)
  {
    if 2 * radius + 1 < 0 then Err(PygameError)
    else Ok(Surface(2 * radius + 1, 2 * radius + 1, KeyColour(colour, outline),
                    -radius, -radius, [], Strokes(colour, filled, outline, 1)))
  }

  function Sq(n: int): int { n * n }

  function Clamp(v: int, lo: int, hi: int): (c: int)
    requires lo <= hi
    ensures lo <= c <= hi
    ensures lo <= v <= hi ==> c == v
  {
    if v < lo then lo else if v > hi then hi else v
  }

  /** Reference meaning of the Circle test: the point of the closed box
      [left, right] x [top, bottom] nearest the centre is within the radius. */
  predicate CircleMeetsBox(cx: int, cy: int, radius: int, box: Rect)
    requires box.width >= 0 && box.height >= 0
  {
    Sq(cx - Clamp(cx, box.left, box.Right())) + Sq(cy - Clamp(cy, box.top, box.Bottom())) <= Sq(radius)
  }

  /** `Circle.filter_overlaps` as written: outside the box grown by the radius
      there is no overlap; level with the box there is; otherwise compare with
      a corner, picking the left corner only when the centre is strictly left
      of the box and the top corner only when it is strictly above. */
  function CircleFilterAsWritten(cx: int, cy: int, radius: int, box: Rect): bool {
    var x0, y0, x1, y1 := box.left, box.top, box.Right(), box.Bottom();
    if cx < x0 - radius || cx > x1 + radius || cy < y0 - radius || cy > y1 + radius then false
    else if (x0 < cx < x1) || (y0 < cy < y1) then true
    else if cx < x0 then
      if cy < y0 then Sq(cx - x0) + Sq(cy - y0) <= Sq(radius)
      else Sq(cx - x0) + Sq(cy - y1) <= Sq(radius)
    else
      if cy < y0 then Sq(cx - x1) + Sq(cy - y0) <= Sq(radius)
      else Sq(cx - x1) + Sq(cy - y1) <= Sq(radius)
  }

  /** A centre level with the box's left edge and a little above it: the
      circle covers the box's top-left corner, yet the test as written
      measures to the top-right corner and reports no overlap. */
  lemma CircleFilterAsWrittenMissesCorner()
    ensures CircleMeetsBox(0, -3, 5, Rect(0, 0, 10, 10))
    ensures !CircleFilterAsWritten(0, -3, 5, Rect(0, 0, 10, 10))
  {
  }

  /** Squares of non-negative numbers keep their order. */
  lemma SqMonotone(a: int, b: int)
    requires 0 <= a <= b
    ensures Sq(a) <= Sq(b)
  {
    calc {
      Sq(a);
      a * a;
    <= { assert a * a <= a * b; }
      a * b;
    <= { assert a * b <= b * b; }
      b * b;
    }
  }

  lemma SqAbs(a: int)
    ensures Sq(a) == Sq(-a)
  {
  }

  /** The Circle test with the corner chosen by `<=`, so that a centre level
      with an edge measures to the nearer corner.  It agrees with the
      nearest-point reference for every circle and every box. */
  function CircleFilter(cx: int, cy: int, radius: int, box: Rect): (b: bool)
    ensures radius >= 0 && box.width >= 0 && box.height >= 0 ==>
      (b <==> CircleMeetsBox(cx, cy, radius, box))
  {
    var x0, y0, x1, y1 := box.left, box.top, box.Right(), box.Bottom();
    if cx < x0 - radius || cx > x1 + radius || cy < y0 - radius || cy > y1 + radius then
      if radius >= 0 && box.width >= 0 && box.height >= 0 then
        FarFromBox(cx, cy, radius, box);
        false
      else false
    else if (x0 < cx < x1) || (y0 < cy < y1) then
      if radius >= 0 && box.width >= 0 && box.height >= 0 then
        LevelWithBox(cx, cy, radius, box);
        true
      else true
    else
      var ex := if cx <= x0 then x0 else x1;
      var ey := if cy <= y0 then y0 else y1;
      Sq(cx - ex) + Sq(cy - ey) <= Sq(radius)
  }

  lemma SqStrict(a: int, b: int)
    requires 0 <= a < b
    ensures Sq(a) < Sq(b)
  {
    SqMonotone(a, b - 1);
    assert Sq(b) == Sq(b - 1) + 2 * b - 1;
  }

  lemma SqNonNegative(a: int)
    ensures Sq(a) >= 0
  {
    if a < 0 { assert Sq(a) == (-a) * (-a); }
  }

  /** One coordinate further off than the radius already puts the point out of reach. */
  lemma OneAxisFar(d: int, e: int, radius: int)
    requires 0 <= radius && (d > radius || d < -radius)
    ensures Sq(d) + Sq(e) > Sq(radius)
  {
    SqNonNegative(e);
    if d > radius { SqStrict(radius, d); } else { SqStrict(radius, -d); SqAbs(d); }
  }

  /** A centre further than the radius beyond any side misses the box. */
  lemma FarFromBox(cx: int, cy: int, radius: int, box: Rect)
    requires radius >= 0 && box.width >= 0 && box.height >= 0
    requires cx < box.left - radius || cx > box.Right() + radius
          || cy < box.top - radius || cy > box.Bottom() + radius
    ensures !CircleMeetsBox(cx, cy, radius, box)
  {
    var dx := cx - Clamp(cx, box.left, box.Right());
    var dy := cy - Clamp(cy, box.top, box.Bottom());
    if cx < box.left - radius || cx > box.Right() + radius {
      OneAxisFar(dx, dy, radius);
    } else {
      OneAxisFar(dy, dx, radius);
    }
  }

  /** Within the grown box, a centre level with the box (strictly between
      two opposite sides) is within the radius of it. */
  lemma LevelWithBox(cx: int, cy: int, radius: int, box: Rect)
    requires radius >= 0 && box.width >= 0 && box.height >= 0
    requires box.left - radius <= cx <= box.Right() + radius
    requires box.top - radius <= cy <= box.Bottom() + radius
    requires box.left < cx < box.Right() || box.top < cy < box.Bottom()
    ensures CircleMeetsBox(cx, cy, radius, box)
  {
    var dx := cx - Clamp(cx, box.left, box.Right());
    var dy := cy - Clamp(cy, box.top, box.Bottom());
    if box.left < cx < box.Right() {
      assert dx == 0;
      if dy < 0 { SqMonotone(-dy, radius); SqAbs(dy); } else { SqMonotone(dy, radius); }
    } else {
      assert dy == 0;
      if dx < 0 { SqMonotone(-dx, radius); SqAbs(dx); } else { SqMonotone(dx, radius); }
    }
  }

  /** Away from the two edge lines where the corner choice goes wrong, the
      test as written agrees with the corrected one. */
  lemma CircleFilterAsWrittenOffEdges(cx: int, cy: int, radius: int, box: Rect)
    requires cx != box.left && cy != box.top
    ensures CircleFilterAsWritten(cx, cy, radius, box) == CircleFilter(cx, cy, radius, box)
  {
  }
}

=== FILE: inputs.dfy ===
/** The mouse and keyboard state that the event handlers of
    module/livewires/beginners.py keep in module globals. */
module Inputs {
  import opened Outcomes

  /** Tk's buttons 1, 2 and 3, which the handlers number 0, 1 and 2. */
  datatype Button = LeftButton | MiddleButton | RightButton

  function Index(b: Button): (n: nat)
    ensures n < 3
  {
    match b
    case LeftButton => 0
    case MiddleButton => 1
    case RightButton => 2
  }

  /** `_mouse_b`.  Only bits 0 to 2 are ever set, so eight bits hold it. */
  type Mask = bv8

  function Bit(b: Button): (m: Mask)
    ensures m != 0
  {
    (1 as bv8) << Index(b)
  }

  predicate Pressed(mask: Mask, b: Button) {
    mask & Bit(b) != 0
  }

  /** `_mouse_buttondown(e, n)`: set bit n. */
  function ButtonDown(mask: Mask, b: Button): (r: Mask)
    ensures Pressed(r, b)
    ensures forall c :: c != b ==> (Pressed(r, c) <==> Pressed(mask, c))
    ensures r & !Bit(b) == mask & !Bit(b)
  {
    mask | Bit(b)
  }

  /** `_mouse_buttonup(e, n)`: clear bit n. */
  function ButtonUp(mask: Mask, b: Button): (r: Mask)
    ensures !Pressed(r, b)
    ensures forall c :: c != b ==> (Pressed(r, c) <==> Pressed(mask, c))
    ensures r & !Bit(b) == mask & !Bit(b)
  {
    mask & !Bit(b)
  }

  /** Pressing and then releasing a button that was up leaves the mask as
      it was; releasing one that was never down changes nothing. */
  lemma DownUp(mask: Mask, b: Button)
    ensures !Pressed(mask, b) ==> ButtonUp(ButtonDown(mask, b), b) == mask
    ensures !Pressed(mask, b) ==> ButtonUp(mask, b) == mask
  {
  }

  /** The dictionary `mouse_buttons` returns. */
  datatype Buttons = Buttons(left: bool, middle: bool, right: bool)

  /** `mouse_buttons`: bits 0, 1 and 2 as left, middle and right. */
  function MouseButtons(mask: Mask): (r: Buttons)
    ensures r.left == Pressed(mask, LeftButton)
    ensures r.middle == Pressed(mask, MiddleButton)
    ensures r.right == Pressed(mask, RightButton)
  {
    Buttons(mask & 1 != 0, mask & 2 != 0, mask & 4 != 0)
  }

  /** The handlers and `mouse_buttons` agree on which button is which. */
  lemma ButtonsReported(mask: Mask, b: Button)
    ensures var r := MouseButtons(ButtonDown(mask, b));
      match b
      case LeftButton => r.left
      case MiddleButton => r.middle
      case RightButton => r.right
  {
  }

  /** `_mouse_x`, `_mouse_y`: `None` once the pointer has left the canvas. */
  datatype Pointer = Pointer(at: Option<(int, int)>)

  /** `_mouse_move` records the pointer; `_mouse_leave` forgets it. */
  function MouseMove(p: Pointer, x: int, y: int): (r: Pointer)
    ensures MousePosition(r) == Some((x, y))
  {
    Pointer(Some((x, y)))
  }

  function MouseLeave(p: Pointer): (r: Pointer)
    ensures MousePosition(r) == None
  {
    Pointer(None)
  }

  /** `mouse_position`. */
  function MousePosition(p: Pointer): Option<(int, int)> {
    p.at
  }

  // ---------------------------------------------------------------------
  // Keys

  /** `_keysdown` (the keys of the dictionary; every value is 1) and
      `_got_release`, a key release not yet seen by `keys_pressed`. */
  datatype Keys = Keys(down: set<string>, gotRelease: bool)

  /** `_keypress`: the key is down and any pending release is dropped. */
  function KeyPress(k: Keys, key: string): (r: Keys)
    ensures key in r.down && !r.gotRelease
    ensures forall c :: c != key ==> (c in r.down <==> c in k.down)
  {
    Keys(k.down + {key}, false)
  }

  /** `_keyrelease`: the key is up, whether or not it was down, and a
      release is pending. */
  function KeyRelease(k: Keys, key: string): (r: Keys)
    ensures key !in r.down && r.gotRelease
    ensures forall c :: c != key ==> (c in r.down <==> c in k.down)
  {
    Keys(k.down - {key}, true)
  }

  /** `_clear_keys`. */
  function ClearKeys(k: Keys): (r: Keys)
    ensures forall c :: c !in r.down
    ensures !r.gotRelease
  {
    Keys({}, false)
  }

  /** A key pressed and released is no longer down, whatever came before;
      releasing it again changes nothing. */
  lemma PressRelease(k: Keys, key: string)
    ensures KeyRelease(KeyPress(k, key), key).down == k.down - {key}
    ensures KeyRelease(KeyRelease(k, key), key) == KeyRelease(k, key)
  {
  }
}

=== FILE: screen.dfy ===
/** The Screen of module/livewires/games.py with the objects in play: where
    each object is, whether it is static or tickable, which objects are
    dirty, the draw order, and the rectangles waiting for the next display
    update.  Blitting is modelled by what it leaves behind, the rectangle
    appended to the pending dirty rectangles. */
module Screens {
  import opened Outcomes
  import opened Geometry
  import DrawOrder

  /** An object's identity; Python compares objects by it. */
  type Id = nat

  /** How an object narrows a bounding-box collision: most objects accept
      every candidate, a Circle applies its circle-versus-box test. */
  datatype Shape = Plain | Round(radius: int)

  /** Colour state of the geometric objects (ColourMixin and OutlineMixin);
      sprites and other images have none. */
  datatype Paint = Image | Shaded(colour: RGB, outline: Option<RGB>)

  /** `Object`: reference point, offset from it to the top-left of the
      bounding rectangle, the rectangle, and the flags other than `_dirty`
      (kept on the screen as the set of dirty objects). */
  datatype Obj = Obj(x: int, y: int, xOffset: int, yOffset: int, rect: Rect,
                     isStatic: bool, tickable: bool, gone: bool,
                     shape: Shape, paint: Paint)
  {
    /** The rectangle sits where the reference point and offsets put it. */
    predicate Placed() {
      rect.left == x + xOffset && rect.top == y + yOffset
    }
  }

  /** `Screen`: the draw order (bottom first), every object ever created,
      the objects whose `_dirty` flag is set, the rectangles to update, the
      class-wide `got_statics` flag and the next fresh identity. */
  datatype Screen = Screen(order: seq<Id>, objects: map<Id, Obj>, dirty: set<Id>,
                           dirtyRects: seq<Rect>, gotStatics: bool, nextId: Id)

  /** Every object in the draw order exists, every identity was handed out,
      and every rectangle is placed. */
  predicate Valid(s: Screen) {
    AllIn(s.order, s.objects) && WellPlaced(s.objects, s.nextId)
  }

  predicate AllIn(ids: seq<Id>, objects: map<Id, Obj>) {
    forall k :: k in ids ==> k in objects
  }

  predicate WellPlaced(objects: map<Id, Obj>, nextId: Id) {
    forall id :: id in objects ==> id < nextId && objects[id].Placed()
  }

  /** `r` differs from `s` at most in dirty flags and appended rectangles. */
  predicate SameLayout(s: Screen, r: Screen) {
    && r.order == s.order && r.objects == s.objects
    && r.gotStatics == s.gotStatics && r.nextId == s.nextId
    && s.dirtyRects <= r.dirtyRects
  }

  lemma SameLayoutValid(s: Screen, r: Screen)
    requires Valid(s) && SameLayout(s, r)
    ensures Valid(r)
  {
  }

  lemma PrefixKeeps(a: seq<Rect>, b: seq<Rect>)
    requires a <= b
    ensures forall x :: x in a ==> x in b
  {
    assert a == b[..|a|];
    forall x | x in a ensures x in b {
      var i :| 0 <= i < |a| && a[i] == x;
      assert b[i] == x;
    }
  }

  /** Removing an element never introduces one, and keeps every other. */
  lemma RemoveKeeps(xs: seq<Id>, x: Id)
    ensures forall k :: k in DrawOrder.Remove(xs, x) ==> k in xs
    ensures forall k :: k in xs && k != x ==> k in DrawOrder.Remove(xs, x)
  {
    var r := DrawOrder.Remove(xs, x);
    forall k | k in r ensures k in xs {
      assert multiset(r)[k] > 0;
    }
    forall k | k in xs && k != x ensures k in r {
      assert multiset(r)[k] == multiset(xs)[k] > 0;
    }
  }

  /** Reordering keeps the same elements. */
  lemma SameElements(xs: seq<Id>, ys: seq<Id>)
    requires multiset(xs) == multiset(ys)
    ensures forall k :: k in ys ==> k in xs
  {
    forall k | k in ys ensures k in xs {
      assert multiset(ys)[k] > 0;
    }
  }

  /** `Object._erase` / `Screen.blit_background`: the background is painted
      over the object's rectangle, which is queued for the display update. */
  function Erase(s: Screen, id: Id): (r: Screen)
    requires id in s.objects
    ensures SameLayout(s, r) && r.dirty == s.dirty
    ensures r.dirtyRects == s.dirtyRects + [s.objects[id].rect]
  {
    s.(dirtyRects := s.dirtyRects + [s.objects[id].rect])
  }

  /** Erase an object and mark it for redrawing, as every static-object path does. */
  function Disturb(s: Screen, id: Id): (r: Screen)
    requires id in s.objects
    ensures SameLayout(s, r)
    ensures r.dirty == s.dirty + {id}
    ensures r.dirtyRects == s.dirtyRects + [s.objects[id].rect]
  {
    Erase(s, id).(dirty := s.dirty + {id})
  }

  /** `Object.move_to`: a static object first erases its old rectangle and
      becomes dirty; then the reference point moves and the rectangle is
      placed at point plus offset, keeping its size. */
  function MoveTo(s: Screen, id: Id, x: int, y: int): (r: Screen)
    requires id in s.objects
    ensures r.order == s.order && r.gotStatics == s.gotStatics && r.nextId == s.nextId
    ensures r.objects.Keys == s.objects.Keys
    ensures forall k :: k in s.objects && k != id ==> r.objects[k] == s.objects[k]
    ensures var o, o' := s.objects[id], r.objects[id];
      && o'.x == x && o'.y == y && o'.Placed()
      && o'.rect.width == o.rect.width && o'.rect.height == o.rect.height
      && o' == o.(x := x, y := y, rect := o'.rect)
      && r.dirty == (if o.isStatic then s.dirty + {id} else s.dirty)
      && r.dirtyRects == s.dirtyRects + (if o.isStatic then [o.rect] else [])
    ensures Valid(s) ==> Valid(r)
  {
    var s1 := if s.objects[id].isStatic then Disturb(s, id) else s;
    var o := s1.objects[id];
    var o' := o.(x := x, y := y, rect := o.rect.MovedTo(x + o.xOffset, y + o.yOffset));
    s1.(objects := s1.objects[id := o'])
  }

  /** `Object.move_by`: a move to the current point plus the displacement,
      so a placed rectangle is translated by exactly that displacement. */
  function MoveBy(s: Screen, id: Id, dx: int, dy: int): (r: Screen)
    requires id in s.objects
    ensures r.order == s.order && r.objects.Keys == s.objects.Keys
    ensures r.gotStatics == s.gotStatics && r.nextId == s.nextId
    ensures forall k :: k in s.objects && k != id ==> r.objects[k] == s.objects[k]
    ensures var o, o' := s.objects[id], r.objects[id];
      && o'.x == o.x + dx && o'.y == o.y + dy
      && (o.Placed() ==> o'.rect == Rect(o.rect.left + dx, o.rect.top + dy, o.rect.width, o.rect.height))
      && r.dirty == (if o.isStatic then s.dirty + {id} else s.dirty)
      && r.dirtyRects == s.dirtyRects + (if o.isStatic then [o.rect] else [])
    ensures Valid(s) ==> Valid(r)
  {
    var o := s.objects[id];
    MoveTo(s, id, o.x + dx, o.y + dy)
  }

  /** `Object.treat_as_dynamic` / `treat_as_static`: only the hint changes;
      in particular `got_statics` is not set. */
  function SetStatic(s: Screen, id: Id, isStatic: bool): (r: Screen)
    requires id in s.objects
    ensures r == s.(objects := r.objects) && r.objects.Keys == s.objects.Keys
    ensures r.objects[id] == s.objects[id].(isStatic := isStatic)
    ensures forall k :: k in s.objects && k != id ==> r.objects[k] == s.objects[k]
    ensures Valid(s) ==> Valid(r)
  {
    s.(objects := s.objects[id := s.objects[id].(isStatic := isStatic)])
  }

  /** `Object.replace_image` for an unrotated object: the rectangle becomes
      the new surface's own, at the origin, and the object is moved back to
      its reference point with its offsets unchanged, so a static object
      erases that origin rectangle. */
  function ReplaceImage(s: Screen, id: Id, width: int, height: int): (r: Screen)
    requires Valid(s) && id in s.objects
    ensures Valid(r) && r.order == s.order && r.objects.Keys == s.objects.Keys
    ensures forall k :: k in s.objects && k != id ==> r.objects[k] == s.objects[k]
    ensures var o := s.objects[id];
      && r.objects[id] == o.(rect := Rect(o.x + o.xOffset, o.y + o.yOffset, width, height))
      && r.dirty == (if o.isStatic then s.dirty + {id} else s.dirty)
      && r.dirtyRects == s.dirtyRects + (if o.isStatic then [Rect(0, 0, width, height)] else [])
    ensures s.objects[id].rect.width == width && s.objects[id].rect.height == height ==> r.objects == s.objects
  {
    var o := s.objects[id];
    var r := MoveTo(s.(objects := s.objects[id := o.(rect := Rect(0, 0, width, height))]), id, o.x, o.y);
    SameSizeInPlace(s, r, id, width, height);
    r
  }

  /** A placed object given back a rectangle of its own size at its own
      point is unchanged. */
  lemma SameSizeInPlace(s: Screen, r: Screen, id: Id, width: int, height: int)
    requires id in s.objects && s.objects[id].Placed()
    requires r.objects.Keys == s.objects.Keys
    requires forall k :: k in s.objects && k != id ==> r.objects[k] == s.objects[k]
    requires var o, o' := s.objects[id], r.objects[id];
      && o'.Placed() && o'.x == o.x && o'.y == o.y && o'.rect.width == width && o'.rect.height == height
      && o' == o.(rect := o'.rect)
    ensures s.objects[id].rect.width == width && s.objects[id].rect.height == height ==> r.objects == s.objects
  {
    if s.objects[id].rect.width == width && s.objects[id].rect.height == height {
      assert r.objects[id] == s.objects[id];
    }
  }

  /** `ColourMixin.set_colour` and `OutlineMixin.set_outline`: a change of
      paint, and only a change, redraws the object.  A static object is
      erased and made dirty; then `_replace` resets the rectangle to the new
      surface's own, at the origin, and moves the object back to its point,
      which for a static object erases that origin rectangle as well.  The
      geometric shapes redraw onto a surface of the same size. */
  function Repaint(s: Screen, id: Id, paint: Paint): (r: Screen)
    requires Valid(s) && id in s.objects
    ensures paint == s.objects[id].paint ==> r == s
    ensures Valid(r) && r.order == s.order && r.objects.Keys == s.objects.Keys
    ensures forall k :: k in s.objects && k != id ==> r.objects[k] == s.objects[k]
    ensures r.objects[id] == s.objects[id].(paint := paint)
    ensures var o := s.objects[id];
      paint != o.paint ==>
        && r.dirty == (if o.isStatic then s.dirty + {id} else s.dirty)
        && r.dirtyRects == s.dirtyRects +
             (if o.isStatic then [o.rect, Rect(0, 0, o.rect.width, o.rect.height)] else [])
  {
    var o := s.objects[id];
    if paint == o.paint then s
    else
      var s2 := Restyle(s, id, paint);
      var r := ReplaceImage(s2, id, o.rect.width, o.rect.height);
      r
  }

  /** The first half of a repaint: the new paint, and a static object
      erased and made dirty. */
  function Restyle(s: Screen, id: Id, paint: Paint): (r: Screen)
    requires Valid(s) && id in s.objects
    ensures Valid(r) && r.order == s.order && r.nextId == s.nextId && r.gotStatics == s.gotStatics
    ensures r.objects == s.objects[id := s.objects[id].(paint := paint)]
    ensures var o := s.objects[id];
      && r.dirty == (if o.isStatic then s.dirty + {id} else s.dirty)
      && r.dirtyRects == s.dirtyRects + (if o.isStatic then [o.rect] else [])
  {
    var o := s.objects[id];
    var s1 := s.(objects := s.objects[id := o.(paint := paint)]);
    if o.isStatic then Disturb(s1, id) else s1
  }

  /** `ColourMixin.set_colour`. */
  function SetColour(s: Screen, id: Id, colour: RGB): (r: Screen)
    requires Valid(s) && id in s.objects && s.objects[id].paint.Shaded?
    ensures Valid(r) && r.order == s.order && r.objects.Keys == s.objects.Keys
    ensures forall k :: k in s.objects && k != id ==> r.objects[k] == s.objects[k]
    ensures r.objects[id] == s.objects[id].(paint := s.objects[id].paint.(colour := colour))
    ensures colour == s.objects[id].paint.colour ==> r == s
  {
    Repaint(s, id, s.objects[id].paint.(colour := colour))
  }

  /** `OutlineMixin.set_outline`. */
  function SetOutline(s: Screen, id: Id, outline: RGB): (r: Screen)
    requires Valid(s) && id in s.objects && s.objects[id].paint.Shaded?
    ensures Valid(r) && r.order == s.order && r.objects.Keys == s.objects.Keys
    ensures forall k :: k in s.objects && k != id ==> r.objects[k] == s.objects[k]
    ensures r.objects[id] == s.objects[id].(paint := s.objects[id].paint.(outline := Some(outline)))
    ensures Some(outline) == s.objects[id].paint.outline ==> r == s
  {
    Repaint(s, id, s.objects[id].paint.(outline := Some(outline)))
  }

  /** Setting the same colour or outline twice redraws at most once. */
  lemma SetPaintTwice(s: Screen, id: Id, colour: RGB, outline: RGB)
    requires Valid(s) && id in s.objects && s.objects[id].paint.Shaded?
    ensures var once := SetColour(s, id, colour); SetColour(once, id, colour) == once
    ensures var once := SetOutline(s, id, outline); SetOutline(once, id, outline) == once
  {
  }

  /** `Object.__init__` for a surface of the given size: the object is put on
      top of the draw order with its rectangle at the origin, then moved to
      (x, y) (a static object erases that origin rectangle on the way), and
      finally marked dirty, not tickable and not gone.  A static object sets
      the screen-wide `got_statics` flag. */
  function Create(s: Screen, x: int, y: int, width: int, height: int, xOffset: int, yOffset: int,
                  isStatic: bool, shape: Shape, paint: Paint): (r: (Screen, Id))
    requires Valid(s)
    ensures var (t, id) := r;
      && Valid(t) && id == s.nextId && id !in s.objects && t.nextId == s.nextId + 1
      && t.order == s.order + [id]
      && t.objects.Keys == s.objects.Keys + {id}
      && (forall k :: k in s.objects ==> t.objects[k] == s.objects[k])
      && t.objects[id] == Obj(x, y, xOffset, yOffset, Rect(x + xOffset, y + yOffset, width, height),
                              isStatic, false, false, shape, paint)
      && t.dirty == s.dirty + {id}
      && t.gotStatics == (s.gotStatics || isStatic)
      && t.dirtyRects == s.dirtyRects + (if isStatic then [Rect(0, 0, width, height)] else [])
  {
    var id := s.nextId;
    var o := Obj(0, 0, xOffset, yOffset, Rect(0, 0, width, height), isStatic, false, false, shape, paint);
    var s1 := Screen(DrawOrder.Add(s.order, id), s.objects[id := o], s.dirty, s.dirtyRects,
                     s.gotStatics || isStatic, id + 1);
    var s2 := MoveTo(s1, id, x, y);
    var o2 := s2.objects[id].(tickable := false, gone := false);
    (s2.(objects := s2.objects[id := o2], dirty := s2.dirty + {id}), id)
  }

  /** `Screen._update_display`: the pending rectangles are handed to the
      display, in the order they were queued, and the list is emptied. */
  function UpdateDisplay(s: Screen): (r: (Screen, seq<Rect>))
    ensures r.0 == s.(dirtyRects := [])
    ensures r.1 == s.dirtyRects
  {
    (s.(dirtyRects := []), s.dirtyRects)
  }

  // ---------------------------------------------------------------------
  // Overlap

  /** `Object.filter_overlaps`: whether `me` accepts `other` once their
      rectangles are known to collide.  A Circle measures from its
      reference point, its centre, with the corrected circle-versus-box
      test (the test as written misjudges centres on the box's left or top
      line; see `AcceptsOffEdges`). */
  function Accepts(me: Obj, other: Obj): (r: bool)
    ensures me.shape.Plain? ==> r
    ensures me.shape.Round? && me.shape.radius >= 0 && other.rect.width >= 0 && other.rect.height >= 0 ==>
      (r <==> CircleMeetsBox(me.x, me.y, me.shape.radius, other.rect))
  {
    match me.shape
    case Plain => true
    case Round(radius) => CircleFilter(me.x, me.y, radius, other.rect)
  }

  /** `Object.overlaps`: the rectangles collide and both objects accept each
      other.  pygame's rectangle collision is a parameter of the model. */
  function Overlaps(a: Obj, b: Obj, collide: (Rect, Rect) -> bool): (r: bool)
    ensures r ==> collide(a.rect, b.rect)
    ensures a.shape.Plain? && b.shape.Plain? ==> (r <==> collide(a.rect, b.rect))
    ensures a.shape.Round? && b.shape.Plain? ==>
      (r <==> collide(a.rect, b.rect) && CircleFilter(a.x, a.y, a.shape.radius, b.rect))
    ensures a.shape.Plain? && b.shape.Round? ==>
      (r <==> collide(a.rect, b.rect) && CircleFilter(b.x, b.y, b.shape.radius, a.rect))
  {
    collide(a.rect, b.rect) && Accepts(a, b) && Accepts(b, a)
  }

  /** Away from the box's left and top lines, the circle test the screen
      applies is `Circle.filter_overlaps` exactly as written. */
  lemma AcceptsOffEdges(me: Obj, other: Obj)
    requires me.shape.Round?
    requires me.x != other.rect.left && me.y != other.rect.top
    ensures Accepts(me, other) == CircleFilterAsWritten(me.x, me.y, me.shape.radius, other.rect)
  {
    CircleFilterAsWrittenOffEdges(me.x, me.y, me.shape.radius, other.rect);
  }

  /** A circle overlaps a plain object exactly when their rectangles collide
      and its disc meets the other object's rectangle. */
  lemma RoundOverlapsPlain(a: Obj, b: Obj, collide: (Rect, Rect) -> bool)
    requires a.shape.Round? && a.shape.radius >= 0 && b.shape.Plain?
    requires b.rect.width >= 0 && b.rect.height >= 0
    ensures Overlaps(a, b, collide) <==> collide(a.rect, b.rect) && CircleMeetsBox(a.x, a.y, a.shape.radius, b.rect)
    ensures Overlaps(b, a, collide) <==> collide(b.rect, a.rect) && CircleMeetsBox(a.x, a.y, a.shape.radius, b.rect)
  {
  }

  /** `Screen.overlapping_objects`: the objects whose rectangles collide with
      `rect`, in draw order. */
  function Colliding(rect: Rect, ids: seq<Id>, objects: map<Id, Obj>,
                     collide: (Rect, Rect) -> bool): (r: seq<Id>)
    requires AllIn(ids, objects)
    ensures forall k :: k in r <==> k in ids && collide(rect, objects[k].rect)
    ensures AllIn(r, objects)
    ensures forall k :: multiset(r)[k] <= multiset(ids)[k]
  {
    if ids == [] then []
    else
      var rest := Colliding(rect, ids[1..], objects, collide);
      assert ids == [ids[0]] + ids[1..];
      if collide(rect, objects[ids[0]].rect) then [ids[0]] + rest else rest
  }

  /** The two `filter` calls of `Object.overlapping_objects`. */
  function Accepted(me: Obj, ids: seq<Id>, objects: map<Id, Obj>): (r: seq<Id>)
    requires AllIn(ids, objects)
    ensures forall k :: k in r <==> k in ids && Accepts(me, objects[k]) && Accepts(objects[k], me)
    ensures AllIn(r, objects)
  {
    if ids == [] then []
    else
      var rest := Accepted(me, ids[1..], objects);
      var o := objects[ids[0]];
      if Accepts(me, o) && Accepts(o, me) then [ids[0]] + rest else rest
  }

  /** `Object.overlapping_objects`: the objects in play that overlap `id`,
      other than `id` itself, in draw order. */
  function OverlappingObjects(s: Screen, id: Id, collide: (Rect, Rect) -> bool): (r: seq<Id>)
    requires Valid(s) && id in s.objects
    ensures AllIn(r, s.objects)
    ensures forall k :: k in r ==> k in s.order && Overlaps(s.objects[id], s.objects[k], collide)
    ensures forall k :: k in s.order && k != id && Overlaps(s.objects[id], s.objects[k], collide) ==> k in r
  {
    var me := s.objects[id];
    var near := Colliding(me.rect, s.order, s.objects, collide);
    RemoveKeeps(near, id);
    Accepted(me, DrawOrder.Remove(near, id), s.objects)
  }

  /** With no repeats in the draw order, an object is never among its own overlaps. */
  lemma OverlappingExcludesSelf(s: Screen, id: Id, collide: (Rect, Rect) -> bool)
    requires Valid(s) && id in s.objects && DrawOrder.Distinct(s.order)
    ensures id !in OverlappingObjects(s, id, collide)
  {
    var me := s.objects[id];
    var near := Colliding(me.rect, s.order, s.objects, collide);
    var others: seq<Id> := DrawOrder.Remove<Id>(near, id);
    DrawOrder.DistinctCounts<Id>(s.order);
    assert multiset(others)[id] == 0;
  }

  // ---------------------------------------------------------------------
  // Disturbing static objects

  /** The loop shared by `Object.destroy` and `Screen.mainloop`: each listed
      object that is static and not yet dirty is erased and marked dirty. */
  function DisturbStatics(s: Screen, ids: seq<Id>): (r: Screen)
    requires AllIn(ids, s.objects)
    ensures SameLayout(s, r)
    ensures r.dirty == s.dirty + set k | k in ids && s.objects[k].isStatic
    ensures forall k :: k in ids && s.objects[k].isStatic && k !in s.dirty ==>
              s.objects[k].rect in r.dirtyRects
    decreases |ids|
  {
    if ids == [] then s
    else
      var k := ids[0];
      var s1 := if s.objects[k].isStatic && k !in s.dirty then Disturb(s, k) else s;
      var r := DisturbStatics(s1, ids[1..]);
      PrefixKeeps(s1.dirtyRects, r.dirtyRects);
      assert forall j :: j in ids <==> j == k || j in ids[1..];
      r
  }

  /** The middle of `Object.destroy`: when any static object has ever been
      made, the static objects overlapping `id` are erased and made dirty. */
  function DisturbOverlapped(s: Screen, id: Id, collide: (Rect, Rect) -> bool): (r: Screen)
    requires Valid(s) && id in s.objects
    ensures SameLayout(s, r) && s.dirty <= r.dirty
    ensures s.gotStatics ==> forall k :: (k in s.order && k != id && s.objects[k].isStatic
              && Overlaps(s.objects[id], s.objects[k], collide)) ==> k in r.dirty
    ensures forall k :: k in r.dirty - s.dirty ==> k in s.objects && s.objects[k].isStatic
  {
    if s.gotStatics then DisturbStatics(s, OverlappingObjects(s, id, collide)) else s
  }

  /** `Object.destroy`: erase the object, disturb the static objects it
      overlaps, drop it from the draw order (silently if it is already gone)
      and mark it gone. */
  function Destroy(s: Screen, id: Id, collide: (Rect, Rect) -> bool): (r: Screen)
    requires Valid(s) && id in s.objects
    ensures Valid(r) && r.objects.Keys == s.objects.Keys && r.nextId == s.nextId
    ensures r.order == DrawOrder.Remove(s.order, id)
    ensures r.objects == s.objects[id := s.objects[id].(gone := true)]
    ensures s.dirtyRects + [s.objects[id].rect] <= r.dirtyRects
    ensures s.gotStatics ==> forall k :: (k in s.order && k != id && s.objects[k].isStatic
              && Overlaps(s.objects[id], s.objects[k], collide)) ==> k in r.dirty
    ensures s.dirty <= r.dirty && forall k :: k in r.dirty - s.dirty ==> k in s.objects && s.objects[k].isStatic
  {
    var s1 := Erase(s, id);
    var s2 := DisturbOverlapped(s1, id, collide);
    RemoveKeeps(s.order, id);
    s2.(order := DrawOrder.Remove(s.order, id), objects := s.objects[id := s.objects[id].(gone := true)])
  }

  /** Destroying an object twice leaves the draw order as the first call left it. */
  lemma DestroyTwice(s: Screen, id: Id, collide: (Rect, Rect) -> bool)
    requires Valid(s) && id in s.objects && DrawOrder.Distinct(s.order)
    ensures var once := Destroy(s, id, collide);
      Destroy(once, id, collide).order == once.order
  {
    DrawOrder.RemoveTwice(s.order, id);
  }

  function DestroyAll(s: Screen, ids: seq<Id>, collide: (Rect, Rect) -> bool): (r: Screen)
    requires Valid(s) && AllIn(ids, s.objects)
    ensures Valid(r) && r.objects.Keys == s.objects.Keys
    ensures forall k :: k in ids ==> r.objects[k].gone
    ensures forall k :: k in s.objects && s.objects[k].gone ==> r.objects[k].gone
    decreases |ids|
  {
    if ids == [] then s
    else DestroyAll(Destroy(s, ids[0], collide), ids[1..], collide)
  }

  /** `Screen.clear`: destroy every object of a snapshot of the draw order,
      then empty it. */
  function Clear(s: Screen, collide: (Rect, Rect) -> bool): (r: Screen)
    requires Valid(s)
    ensures Valid(r) && r.order == [] && r.objects.Keys == s.objects.Keys
    ensures forall k :: k in s.order ==> r.objects[k].gone
  {
    DestroyAll(s, s.order, collide).(order := [])
  }

  /** `Screen._raise` on the screen: reorder, then erase and dirty a static
      object so that it is repainted in its new place. */
  function RaiseObject(s: Screen, id: Id, above: Option<Id>): (r: Result<Screen>)
    requires id in s.objects
    ensures r.Ok? <==> DrawOrder.Raise(s.order, id, above).Ok?
    ensures r.Ok? ==> r.value.order == DrawOrder.Raise(s.order, id, above).value
    ensures r.Ok? ==> multiset(r.value.order) == multiset(s.order)
    ensures r.Ok? && above.None? ==> |r.value.order| == |s.order| > 0 && r.value.order[|s.order| - 1] == id
    ensures r.Ok? ==> r.value.objects == s.objects
    ensures r.Ok? ==> r.value.dirty == (if s.objects[id].isStatic then s.dirty + {id} else s.dirty)
    ensures r.Ok? ==> r.value.dirtyRects == s.dirtyRects + (if s.objects[id].isStatic then [s.objects[id].rect] else [])
    ensures r.Ok? && Valid(s) ==> Valid(r.value)
  {
    var order :- DrawOrder.Raise(s.order, id, above);
    SameElements(s.order, order);
    var s1 := s.(order := order);
    Ok(if s1.objects[id].isStatic then Disturb(s1, id) else s1)
  }

  /** `Screen._lower` on the screen, as documented (see `DrawOrder.Lower`). */
  function LowerObject(s: Screen, id: Id, below: Option<Id>): (r: Result<Screen>)
    ensures r.Ok? <==> DrawOrder.Lower(s.order, id, below).Ok?
    ensures r.Ok? ==> r.value == s.(order := DrawOrder.Lower(s.order, id, below).value)
    ensures r.Ok? && Valid(s) ==> Valid(r.value)
  {
    var order :- DrawOrder.Lower(s.order, id, below);
    SameElements(s.order, order);
    Ok(s.(order := order))
  }

  // ---------------------------------------------------------------------
  // One iteration of the main loop

  /** The erase pass: every non-static object erases its rectangle and
      becomes dirty; static objects are left alone. */
  function EraseMoving(s: Screen, ids: seq<Id>): (r: Screen)
    requires AllIn(ids, s.objects)
    ensures SameLayout(s, r)
    ensures r.dirty == s.dirty + set k | k in ids && !s.objects[k].isStatic
    ensures forall k :: k in ids && !s.objects[k].isStatic ==> s.objects[k].rect in r.dirtyRects
    decreases |ids|
  {
    if ids == [] then s
    else
      var k := ids[0];
      var s1 := if !s.objects[k].isStatic then Disturb(s, k) else s;
      var r := EraseMoving(s1, ids[1..]);
      PrefixKeeps(s1.dirtyRects, r.dirtyRects);
      assert forall j :: j in ids <==> j == k || j in ids[1..];
      r
  }

  /** A per-object tick callback that keeps the screen well formed and never
      forgets an object (Python objects outlive their removal from the list). */
  ghost predicate KeepsValid(tick: (Screen, Id) -> Screen) {
    forall t: Screen, k: Id {:trigger tick(t, k)} :: Valid(t) && k in t.objects ==>
      Valid(tick(t, k)) && t.objects.Keys <= tick(t, k).objects.Keys
  }

  /** The tick dispatch: walk a snapshot of the draw order taken before the
      phase, calling `tick` on each object that is tickable when reached.
      The callbacks may create and destroy objects; the second component
      lists the objects whose tick ran. */
  function Dispatch(s: Screen, snapshot: seq<Id>, tick: (Screen, Id) -> Screen): (r: (Screen, seq<Id>))
    requires Valid(s) && KeepsValid(tick) && AllIn(snapshot, s.objects)
    ensures Valid(r.0) && s.objects.Keys <= r.0.objects.Keys
    ensures forall k :: k in r.1 ==> k in snapshot
    ensures |r.1| <= |snapshot|
    decreases |snapshot|
  {
    if snapshot == [] then (s, [])
    else
      var k := snapshot[0];
      var s1 := if s.objects[k].tickable then tick(s, k) else s;
      var (s2, rest) := Dispatch(s1, snapshot[1..], tick);
      (s2, (if s.objects[k].tickable then [k] else []) + rest)
  }

  /** The objects of `ids` whose `_tickable` flag is set, in order. */
  function Tickable(ids: seq<Id>, objects: map<Id, Obj>): (r: seq<Id>)
    requires AllIn(ids, objects)
    ensures forall k :: k in r <==> k in ids && objects[k].tickable
    ensures |r| <= |ids|
  {
    if ids == [] then []
    else
      var rest := Tickable(ids[1..], objects);
      assert ids == [ids[0]] + ids[1..];
      (if objects[ids[0]].tickable then [ids[0]] else []) + rest
  }

  /** Only the tickable flags of the listed objects decide the selection. */
  lemma {:induction false} TickableSameFlags(ids: seq<Id>, o1: map<Id, Obj>, o2: map<Id, Obj>)
    requires AllIn(ids, o1) && AllIn(ids, o2)
    requires forall k :: k in ids ==> o1[k].tickable == o2[k].tickable
    ensures Tickable(ids, o1) == Tickable(ids, o2)
    decreases |ids|
  {
    if ids != [] {
      TickableSameFlags(ids[1..], o1, o2);
    }
  }

  /** A per-object tick callback that neither starts nor stops any timer. */
  ghost predicate KeepsTickable(tick: (Screen, Id) -> Screen) {
    forall t: Screen, k: Id {:trigger tick(t, k)} :: Valid(t) && k in t.objects ==>
      forall j :: j in t.objects ==> j in tick(t, k).objects && tick(t, k).objects[j].tickable == t.objects[j].tickable
  }

  /** When no tick starts or stops a timer, the pass ticks exactly the
      snapshot's tickable objects, in snapshot order, including those an
      earlier tick destroyed (they stay tickable, as in the source). */
  lemma {:induction false} DispatchTicksTickable(s: Screen, snapshot: seq<Id>, tick: (Screen, Id) -> Screen)
    requires Valid(s) && KeepsValid(tick) && KeepsTickable(tick) && AllIn(snapshot, s.objects)
    ensures Dispatch(s, snapshot, tick).1 == Tickable(snapshot, s.objects)
    decreases |snapshot|
  {
    if snapshot != [] {
      var k := snapshot[0];
      var s1 := if s.objects[k].tickable then tick(s, k) else s;
      assert forall j :: j in s.objects ==> j in s1.objects && s1.objects[j].tickable == s.objects[j].tickable;
      DispatchTicksTickable(s1, snapshot[1..], tick);
      TickableSameFlags(snapshot[1..], s1.objects, s.objects);
    }
  }

  /** The static re-dirty pass: for each non-static object, every static
      object it overlaps that is not yet dirty is erased and marked dirty. */
  function RedirtyStatics(s: Screen, ids: seq<Id>, collide: (Rect, Rect) -> bool): (r: Screen)
    requires Valid(s) && AllIn(ids, s.objects)
    ensures SameLayout(s, r) && s.dirty <= r.dirty
    ensures forall a, b :: (a in ids && !s.objects[a].isStatic && b in s.order && b != a && s.objects[b].isStatic
              && Overlaps(s.objects[a], s.objects[b], collide)) ==> b in r.dirty
    ensures forall k :: k in r.dirty - s.dirty ==> k in s.objects && s.objects[k].isStatic
    decreases |ids|
  {
    if ids == [] then s
    else
      var a := ids[0];
      var s1 := if !s.objects[a].isStatic then DisturbStatics(s, OverlappingObjects(s, a, collide)) else s;
      var r := RedirtyStatics(s1, ids[1..], collide);
      PrefixKeeps(s1.dirtyRects, r.dirtyRects);
      r
  }

  /** The redraw pass: each dirty object is drawn, queueing its rectangle,
      and is clean afterwards. */
  function Redraw(s: Screen, ids: seq<Id>): (r: Screen)
    requires AllIn(ids, s.objects)
    ensures SameLayout(s, r)
    ensures r.dirty == s.dirty - set k | k in ids
    ensures forall k :: k in ids && k in s.dirty ==> s.objects[k].rect in r.dirtyRects
    decreases |ids|
  {
    if ids == [] then s
    else
      var k := ids[0];
      var s1 := if k in s.dirty then s.(dirtyRects := s.dirtyRects + [s.objects[k].rect], dirty := s.dirty - {k})
                else s;
      var r := Redraw(s1, ids[1..]);
      PrefixKeeps(s1.dirtyRects, r.dirtyRects);
      assert forall j :: j in ids <==> j == k || j in ids[1..];
      r
  }

  /** The frame state after each phase of one `mainloop` iteration. */
  datatype Frame = Frame(erased: Screen, ticked: Screen, ticks: seq<Id>, redirtied: Screen,
                         drawn: Screen, final: Screen, flushed: seq<Rect>)

  /** One iteration of `Screen.mainloop` after the frame wait and before
      event handling: erase, tick (objects, then the screen), re-dirty
      disturbed statics, redraw, update the display. */
  function MainLoopStep(s: Screen, tick: (Screen, Id) -> Screen, screenTick: Screen -> Screen,
                        collide: (Rect, Rect) -> bool): (f: Frame)
    requires Valid(s) && KeepsValid(tick)
    requires forall t :: Valid(t) ==> Valid(screenTick(t))
    ensures Valid(f.ticked) && Valid(f.final)
    ensures forall k :: k in s.order && !s.objects[k].isStatic ==> k in f.erased.dirty
    ensures forall k :: k in f.ticks ==> k in s.order
    ensures forall k :: k in f.final.order ==> k !in f.final.dirty
    ensures f.final.dirtyRects == [] && f.flushed == f.drawn.dirtyRects
    ensures f.ticked.gotStatics ==>
              forall a, b :: (a in f.ticked.order && b in f.ticked.order
                && !f.ticked.objects[a].isStatic && f.ticked.objects[b].isStatic
                && Overlaps(f.ticked.objects[a], f.ticked.objects[b], collide))
                ==> (b in f.redirtied.dirty && f.ticked.objects[b].rect in f.flushed)
  {
    var erased := EraseMoving(s, s.order);
    SameLayoutValid(s, erased);
    var (dispatched, ticks) := Dispatch(erased, erased.order, tick);
    var ticked := screenTick(dispatched);
    var redirtied := if ticked.gotStatics then RedirtyStatics(ticked, ticked.order, collide) else ticked;
    SameLayoutValid(ticked, redirtied);
    var drawn := Redraw(redirtied, redirtied.order);
    SameLayoutValid(redirtied, drawn);
    var (final, flushed) := UpdateDisplay(drawn);
    Frame(erased, ticked, ticks, redirtied, drawn, final, flushed)
  }
}

=== FILE: timers.dfy ===
/** Timer and Animation of module/livewires/games.py: the frame counter
    that turns every `interval`-th tick into a user tick, and the image
    schedule of an animation. */
module Timers {
  import opened Outcomes
  import opened Geometry
  import Screens
  import DrawOrder

  /** A Timer's state; `running` is the object's `_tickable` flag. */
  datatype Timer = Timer(interval: int, next: int, running: bool)

  /** `Timer.init_timer`: the count restarts. */
  function InitTimer(interval: int, running: bool): (t: Timer)
    ensures t.next == 0 && t.interval == interval && t.running == running
  {
    Timer(interval, 0, running)
  }

  /** `Timer.__init__` as written: it calls `init_timer(interval)` and drops
      `running`, so a timer created with `running = 0` runs anyway. */
  function NewTimerAsWritten(interval: int, running: bool): (t: Timer)
    ensures t.running
  {
    InitTimer(interval, true)
  }

  /** `Timer.__init__` passing `running` on, as its signature intends. */
  function NewTimer(interval: int, running: bool): (t: Timer)
    ensures t.next == 0 && t.interval == interval && t.running == running
  {
    InitTimer(interval, running)
  }

  lemma NewTimerAsWrittenIgnoresRunning()
    ensures NewTimerAsWritten(1, false).running
    ensures !NewTimer(1, false).running
  {
  }

  /** `Timer._tick`: count one frame; when the count reaches the interval it
      restarts and the user's `tick` fires (the second component). */
  function Tick(t: Timer): (r: (Timer, bool))
    ensures r.0.interval == t.interval && r.0.running == t.running
    ensures r.1 <==> t.next + 1 >= t.interval
    ensures r.1 ==> r.0.next == 0
    ensures 1 <= t.interval && 0 <= t.next < t.interval ==> 0 <= r.0.next < t.interval
  {
    var next := t.next + 1;
    if next >= t.interval then (t.(next := 0), true) else (t.(next := next), false)
  }

  /** `Timer.stop`. */
  function Stop(t: Timer): (r: Timer)
    ensures !r.running && r.interval == t.interval && r.next == t.next
  {
    t.(running := false)
  }

  /** `Timer.start`: running again, with the count restarted. */
  function Start(t: Timer): (r: Timer)
    ensures r == InitTimer(t.interval, true)
  {
    t.(running := true, next := 0)
  }

  /** `Timer.set_interval`: the count is kept, so a shorter interval may
      fire at the very next tick. */
  function SetInterval(t: Timer, interval: int): (r: Timer)
    ensures r.interval == interval && r.next == t.next && r.running == t.running
  {
    t.(interval := interval)
  }

  /** `n` frames of a running timer, with the number of user ticks fired. */
  function Ticks(t: Timer, n: nat): (r: (Timer, nat))
    decreases n
  {
    if n == 0 then (t, 0)
    else
      var (t1, fired) := Tick(t);
      var (t2, count) := Ticks(t1, n - 1);
      (t2, count + if fired then 1 else 0)
  }

  lemma DivStep(i: int, m: nat)
    requires i >= 1
    ensures (i + m) / i == m / i + 1 && (i + m) % i == m % i
  {
    DivUnique(i + m, i, m / i + 1, m % i);
  }

  lemma DivSmall(a: nat, i: int)
    requires 0 <= a < i
    ensures a / i == 0 && a % i == a
  {
    DivUnique(a, i, 0, a);
  }

  /** A timer fires on every `interval`-th frame: after `n` frames from a
      count of `next`, the count is `(next + n) mod interval` and the user's
      tick has fired `(next + n) div interval` times. */
  lemma {:induction false} TicksCount(t: Timer, n: nat)
    requires 1 <= t.interval && 0 <= t.next < t.interval
    ensures Ticks(t, n).0.next == (t.next + n) % t.interval
    ensures Ticks(t, n).1 == (t.next + n) / t.interval
    ensures Ticks(t, n).0.interval == t.interval
    decreases n
  {
    if n == 0 {
      DivSmall(t.next, t.interval);
    } else {
      var (t1, fired) := Tick(t);
      TicksCount(t1, n - 1);
      if fired {
        assert t.next + 1 == t.interval;
        DivStep(t.interval, n - 1);
      } else {
        assert t1.next == t.next + 1;
      }
    }
  }

  /** Started afresh, a timer fires exactly once in its first `interval` frames, on the last. */
  lemma StartedTimerFiresOnce(t: Timer)
    requires t.interval >= 1
    ensures Ticks(Start(t), t.interval - 1).1 == 0
    ensures Ticks(Start(t), t.interval).1 == 1 && Ticks(Start(t), t.interval).0.next == 0
  {
    TicksCount(Start(t), t.interval - 1);
    TicksCount(Start(t), t.interval);
    DivSmall(t.interval - 1, t.interval);
    DivStep(t.interval, 0);
  }

  // ---------------------------------------------------------------------
  // Animation

  /** An Animation's image state: the images still to show once, the cycle
      and the number of images still allowed (negative for no limit). */
  datatype Animation<T> = Animation(once: seq<T>, cycle: seq<T>, remaining: int)

  /** The schedule `next_image` produces: the one-off images in order, then
      the cycle from its last image back to its first, over and over.  (The
      class docstring describes the cycle in forward order; the code runs it
      backwards, and this model follows the code.) */
  function Scheduled<T>(once: seq<T>, cycle: seq<T>, k: nat): (img: T)
    requires k < |once| || |cycle| > 0
  {
    if k < |once| then once[k] else cycle[|cycle| - 1 - (k - |once|) % |cycle|]
  }

  /** `Animation.next_image`: nothing once the limit is reached; otherwise a
      positive limit counts down (even when no image is left to give), the
      one-off images are taken from the front, and then the cycle is
      rotated to the right and its new head returned. */
  function NextImage<T>(a: Animation<T>): (r: (Animation<T>, Option<T>))
    ensures a.remaining == 0 ==> r == (a, None)
    ensures a.remaining > 0 ==> r.0.remaining == a.remaining - 1
    ensures a.remaining < 0 ==> r.0.remaining == a.remaining
    ensures r.1.Some? <==> a.remaining != 0 && (a.once != [] || a.cycle != [])
    ensures r.1.Some? ==> r.1.value == Scheduled(a.once, a.cycle, 0)
    ensures r.1.Some? && a.once != [] ==> r.0.once == a.once[1..] && r.0.cycle == a.cycle
    ensures r.1.Some? && a.once == [] ==>
              r.0.once == [] && r.0.cycle == [a.cycle[|a.cycle| - 1]] + a.cycle[..|a.cycle| - 1]
  {
    if a.remaining == 0 then (a, None)
    else
      var a1 := if a.remaining > 0 then a.(remaining := a.remaining - 1) else a;
      if a1.once != [] then (a1.(once := a1.once[1..]), Some(a1.once[0]))
      else if a1.cycle == [] then (a1, None)
      else
        var n := |a1.cycle|;
        var rotated := [a1.cycle[n - 1]] + a1.cycle[..n - 1];
        (a1.(cycle := rotated), Some(rotated[0]))
  }

  /** The first `n` images an animation yields. */
  function Shown<T>(a: Animation<T>, n: nat): (r: seq<Option<T>>)
    ensures |r| == n
    decreases n
  {
    if n == 0 then []
    else
      var (a1, img) := NextImage(a);
      [img] + Shown(a1, n - 1)
  }

  /** A cycle [1, 2, 3] is shown as 3, 2, 1, 3, ... */
  lemma CycleRunsBackwards()
    ensures Shown(Animation([], [1, 2, 3], -1), 4) == [Some(3), Some(2), Some(1), Some(3)]
  {
    ShownFollowsSchedule(Animation([], [1, 2, 3], -1), 4);
  }

  lemma RotateIndex<T>(c: seq<T>, m: nat)
    requires |c| > 0
    ensures ([c[|c| - 1]] + c[..|c| - 1])[|c| - 1 - m % |c|] == c[|c| - 1 - (m + 1) % |c|]
  {
    var n := |c|;
    var q, r := m / n, m % n;
    if r < n - 1 {
      DivUnique(m + 1, n, q, r + 1);
    } else {
      assert m + 1 == (q + 1) * n + 0;
      DivUnique(m + 1, n, q + 1, 0);
    }
  }

  /** With no limit and a non-empty cycle, an animation shows exactly its
      schedule, so the cycle repeats with period equal to its length. */
  lemma {:induction false} ShownFollowsSchedule<T>(a: Animation<T>, n: nat)
    requires a.remaining < 0 && |a.cycle| > 0
    ensures forall k :: 0 <= k < n ==> Shown(a, n)[k] == Some(Scheduled(a.once, a.cycle, k))
    decreases n
  {
    if n > 0 {
      var (a1, img) := NextImage(a);
      ShownFollowsSchedule(a1, n - 1);
      assert Shown(a, n) == [img] + Shown(a1, n - 1);
      forall k | 1 <= k < n
        ensures Shown(a, n)[k] == Some(Scheduled(a.once, a.cycle, k))
      {
        ScheduleShifts(a, k);
      }
    }
  }

  /** After one image the schedule is the old one, one step on. */
  lemma ScheduleShifts<T>(a: Animation<T>, k: nat)
    requires a.remaining < 0 && |a.cycle| > 0 && k >= 1
    ensures var a1 := NextImage(a).0;
      |a1.cycle| > 0 && Scheduled(a1.once, a1.cycle, k - 1) == Scheduled(a.once, a.cycle, k)
  {
    if a.once == [] {
      RotateIndex(a.cycle, k - 1);
    }
  }

  /** With a limit of `remaining` images, every later call yields none. */
  lemma {:induction false} ShownStopsAtLimit<T>(a: Animation<T>, n: nat)
    requires a.remaining >= 0
    ensures forall k :: a.remaining <= k < n ==> Shown(a, n)[k] == None
    decreases n
  {
    if n > 0 {
      var (a1, img) := NextImage(a);
      ShownStopsAtLimit(a1, n - 1);
      forall k | a.remaining <= k < n ensures Shown(a, n)[k] == None {
        if k > 0 {
          assert Shown(a, n)[k] == Shown(a1, n - 1)[k - 1];
        }
      }
    }
  }

  /** `Animation.init_animation` as written: `n_repeats` of 0 means no
      limit, an animation without a first image is refused, and then a
      second call of `next_image` supplies the image actually shown. */
  function InitAnimationAsWritten<T>(once: seq<T>, cycle: seq<T>, nRepeats: int): (r: Result<(Animation<T>, T)>)
    ensures once == [] && cycle == [] ==> r == Err(GamesError)
  {
    var a := Animation(once, cycle, if nRepeats == 0 then -1 else nRepeats);
    var (a1, first) := NextImage(a);
    if first.None? then Err(GamesError)
    else
      var (a2, second) := NextImage(a1);
      // Object.__init__ asks None for its rectangle
      if second.None? then Err(AttributeError) else Ok((a2, second.value))
  }

  /** `Animation.init_animation` showing the first image it takes. */
  function InitAnimation<T>(once: seq<T>, cycle: seq<T>, nRepeats: int): (r: Result<(Animation<T>, T)>)
    ensures r.Err? <==> once == [] && cycle == []
    ensures r.Err? ==> r.error == GamesError
    ensures r.Ok? ==> r.value.1 == Scheduled(once, cycle, 0)
    ensures r.Ok? && once != [] ==> r.value.0.once == once[1..]
    ensures r.Ok? ==> r.value.0.remaining == (if nRepeats == 0 then -1 else if nRepeats > 0 then nRepeats - 1 else nRepeats)
  {
    var a := Animation(once, cycle, if nRepeats == 0 then -1 else nRepeats);
    var (a1, first) := NextImage(a);
    if first.None? then Err(GamesError) else Ok((a1, first.value))
  }

  /** The image the code puts on screen is the second of the schedule, and a
      single one-off image with no cycle fails when `Object.__init__` asks
      the missing second image for its rectangle. */
  lemma InitAnimationAsWrittenSkipsFirst()
    ensures InitAnimationAsWritten([1, 2], [], 0) == Ok((Animation([], [], -1), 2))
    ensures InitAnimation([1, 2], [], 0) == Ok((Animation([2], [], -1), 1))
    ensures InitAnimationAsWritten([1], [], 0) == Err(AttributeError)
    ensures InitAnimation([1], [], 0).Ok?
  {
  }

  /** `Animation.tick`: the next image replaces the current one; when there
      is none the animation destroys itself. */
  function AnimationTick<T>(s: Screens.Screen, id: Screens.Id, a: Animation<T>, size: T -> (int, int),
                            collide: (Rect, Rect) -> bool): (r: (Screens.Screen, Animation<T>))
    requires Screens.Valid(s) && id in s.objects
    ensures Screens.Valid(r.0) && r.0.objects.Keys == s.objects.Keys && r.1 == NextImage(a).0
    ensures NextImage(a).1.None? ==> r.0.objects[id].gone && r.0.order == DrawOrder.Remove(s.order, id)
    ensures NextImage(a).1.Some? ==> var (w, h) := size(NextImage(a).1.value);
      && r.0.objects[id].rect.width == w && r.0.objects[id].rect.height == h
      && r.0.objects[id].gone == s.objects[id].gone && r.0.order == s.order
  {
    var (a1, img) := NextImage(a);
    match img
    case None => (Screens.Destroy(s, id, collide), a1)
    case Some(i) => (Screens.ReplaceImage(s, id, size(i).0, size(i).1), a1)
  }
}
